=== FILE: README.md ===
# Transport network and all-fastest-routes query

A model of the non-interface core of `apgrafos.py`, a small transport-network editor. The program keeps:

- a list of stations (`Estacion`: id, name, kind and a list of (neighbour, travel time) connections);
- a list of undirected routes (`RedDeTransporte.rutas`).

It can add and remove stations and routes, save and load the network as node and edge records, and answer an "all fastest routes" query. The query runs Dijkstra's algorithm from the origin. It then collects, for every station, the neighbours that lie on a fastest path to it ("predecessors"). Finally, a depth-first walk back from the destination reports every fastest path, capped at `max_paths`.

The model is functional: a network is an immutable value and every operation returns the updated network.

- **`Stations`** (stations.dfy): a station and its connection list (`agregar_conexion`, `eliminar_conexion`).
- **`Networks`** (network.dfy): the network, its well-formedness invariant `Valid`, and the four editing operations. It also holds the editor's rule for the id of a new station.
- **`NetworkInvariant`** (network_invariant.dfy): every editing operation keeps `Valid`. `Valid` requires that:
  - station names are unique;
  - routes join two distinct known stations with a positive time;
  - no two routes join the same pair;
  - no station lists a neighbour twice;
  - each route appears in both endpoints' lists (`Mirrored`);
  - each list entry comes from a route (`Backed`).
- **`Serialization`** (serialization.dfy): export to node and edge records (`a_dict`), import from them (`from_dict`), and the round trip.
- **`Adjacency`** (adjacency.dfy): the adjacency table the query builds from the route list. It is an ordered table, because the order of its keys fixes the order of the reported paths. The module also defines walks over the table.
- **`Dijkstra`** (dijkstra.dfy): the distance phase. It is proved to return the unique table that is both sound (every finite distance is the weight of some walk) and relaxed (no arc can improve it).
- **`FastestRoutes`** (fastest_routes.dfy): the predecessor lists, the depth-first enumeration, and the whole query.
- **`QueryProperties`** (query_properties.dfy): the query's answer, related to paths of routes in the network.
- **`Enumeration`** (enumeration.dfy): an independent definition of the walk back's output (`Chains`, every predecessor chain from the origin, in depth-first order), and proofs that the walk reports exactly those chains, cut at the cap, each once.
- **`QueryCompleteness`** (query_completeness.dfy): below the cap, every fastest path of routes is reported, no path is reported twice, and the cap is filled whenever there are enough fastest paths.
- **`Demo`** and **`DemoQuery`** (demo.dfy, demo_query.dfy): the demonstration network of `crear_demo_red`, and the answer to its default query from A to E.
- **`Seqs`** and **`Outcomes`**: sequence helpers, `Option`, and `Result`.

Modelling choices:

- A station is identified by its name. Routes store the endpoint names.
- Distances are `Option<nat>`, where `None` stands for the source's infinity.
- Travel times are integers.

## Model

| member | source | states |
|---|---|---|
| Stations.AddConnection | apgrafos.py:11-14 | A neighbour already listed leaves the station unchanged, so it keeps its original time and no second entry is created. Otherwise exactly one entry, the new neighbour with the given time, is appended. Entries for other neighbours are unchanged. A list without repeated neighbours stays that way. |
| Stations.RemoveConnection | apgrafos.py:15-17 | Afterwards the neighbour is not listed at all. Every other entry is kept, and nothing else changes. Removing an unlisted neighbour changes nothing. |
| Stations.RemoveConnectionKeepsOthers | apgrafos.py:15-17 | Removing one neighbour leaves the recorded time to every other neighbour as it was. |
| Stations.RemoveConnectionConcat | apgrafos.py:15-17 | Removing a neighbour from a list made of two parts is removing it from each part and joining the results, so the surviving entries keep their order. |
| Stations.RemoveUndoesAdd | apgrafos.py:11-17 | Adding a connection to an unlisted neighbour and then removing it gives back the original station. |
| Stations.WeightTo | apgrafos.py:13 | The time recorded for a neighbour is absent exactly when the neighbour is not listed; otherwise it is the time in one of the entries. |
| Networks.EmptyNetworkValid | apgrafos.py:21-23 | A new network with no stations and no routes satisfies the invariant. |
| Networks.AddStation | apgrafos.py:24-27 | Afterwards the station is present. Routes and the existing stations are untouched, and at most one station is appended. A station already present leaves the network unchanged. |
| Networks.DetachMembers | apgrafos.py:30-33 | After dropping a station, the stations left are exactly the other original stations, each with its entries for the dropped station removed. |
| Networks.DetachConcat | apgrafos.py:30-33 | Dropping a station from a list made of two parts is dropping it from each part and joining the results, so the surviving stations keep their order. |
| Networks.RemoveStationConcat | apgrafos.py:28-34 | Removing a station processes the station list and the route list part by part, so surviving stations and surviving routes keep their order. |
| Networks.AddStationIdempotent | apgrafos.py:24-27 | Adding the same station twice is the same as adding it once. |
| Networks.RemoveStation | apgrafos.py:28-34 | Afterwards no station has the removed name, and every other name remains. The routes left are exactly those not touching the station, and no remaining station lists it as a neighbour. An absent station changes nothing. |
| Networks.AddRoute | apgrafos.py:35-41 | Afterwards the pair is joined. If the pair was already joined in either orientation, nothing changes. Otherwise the new route is appended after the existing ones. Station names and ids are untouched. |
| Networks.AddRouteEitherOrientation | apgrafos.py:38 | Adding (a,b,w) and then (b,a,w2) gives the same network as adding (a,b,w) alone. If the pair was new, the only route joining it carries weight w. |
| Networks.RemoveRoute | apgrafos.py:42-46 | Afterwards no route joins the pair in either orientation, and every other route is kept. Neither endpoint lists the other. Every station stays at its position: an endpoint loses only its entry for the other endpoint, and every other station is unchanged. |
| Networks.RemoveRouteConcat | apgrafos.py:44 | Removing a route processes the route list part by part, so the surviving routes keep their order. |
| Networks.RemoveRouteEitherOrientation | apgrafos.py:44-46 | Removing the route a-b is the same as removing b-a. |
| Networks.NextId | apgrafos.py:199 | The id for a new station is larger than every id in use. It is one more than the largest id in use, or 1 when there are no stations. |
| Networks.DetachNames | apgrafos.py:30-33 | Dropping a station keeps exactly the other station names. |
| NetworkInvariant.AddStationValid | apgrafos.py:24-27 | Adding a station that is present, or an unconnected station with a new name, keeps the invariant. |
| NetworkInvariant.AddRouteValid | apgrafos.py:35-41 | Adding a positive-time route between two distinct known stations keeps the invariant, including the mirrored adjacency lists. |
| NetworkInvariant.RemoveRouteValid | apgrafos.py:42-46 | Removing a route keeps the invariant. |
| NetworkInvariant.RemoveStationValid | apgrafos.py:28-34 | Removing a station keeps the invariant. Afterwards no route and no adjacency list mentions the removed station. |
| NetworkInvariant.ListedOnlyWithRoute | apgrafos.py:40-41 | In a network satisfying the invariant, a station lists a neighbour only if some route joins the two. |
| Serialization.AddEdges | apgrafos.py:60-61 | Replaying edge records succeeds exactly when every edge names known stations. A failure names a station that some edge mentions and no station has. On success the stations' ids and names are unchanged, and the earlier routes are kept as a prefix. Every edge's pair is then joined by a route, and every route added comes from one of the edge records. |
| Serialization.Import | apgrafos.py:51-61 | Loading records succeeds exactly when every edge names declared nodes. A failure names the undeclared station. On success the node records come back exactly, with at most one route per edge record. Every edge's pair is joined by a route, and every route is one of the edge records. |
| Serialization.AddEdgesValid | apgrafos.py:60-61 | Replaying edges that each join two different stations with a positive time keeps a valid network valid. |
| Serialization.ImportValid | apgrafos.py:51-61 | Records that declare each name once, with edges joining two different stations with a positive time, load into a valid network. |
| Serialization.ImportAcceptsUncheckedEdge | apgrafos.py:51-61 | Loading checks neither self-loops nor times: a single node with an edge from itself to itself at time 0 loads into a network that breaks the invariant. |
| Serialization.AddedAtMostOnePerEdge | apgrafos.py:60-61 | Each edge record adds at most one route. |
| Serialization.ExportImportRoundTrip | apgrafos.py:47-61 | States what `Export` (`a_dict`) produces, through its inverse: for a valid network, importing its export succeeds and gives a valid network whose export is the original export: same nodes, same edges, same order. |
| Adjacency.AddArc | apgrafos.py:69-70 | Recording an arc puts it last among the arcs of its source. Every other station's arcs are unchanged, the source becomes a key, and keys stay unique. |
| Adjacency.AddArcKeys | apgrafos.py:69-70 | Recording an arc leaves the key order unchanged, or appends the source as the last key when it is new. |
| Adjacency.BuildAdj | apgrafos.py:67-70 | The query's table has unique keys. An arc leaves x exactly when some route joins x to the arc's target with the arc's time. |
| Adjacency.BuildAdjKeys | apgrafos.py:67-70 | The table's keys are the route endpoints in order of first appearance, a route's first endpoint before its second. |
| Adjacency.BuildAdjOut | apgrafos.py:67-70 | The arcs leaving x are those the routes give to x, in route order. |
| Adjacency.WalkExtend | apgrafos.py:74-75 | A walk extended by an arc leaving its end is a walk. It ends at the arc's target and weighs the arc's time more. |
| Dijkstra.PickMin | apgrafos.py:71-73 | The next station to settle is an unsettled station at finite distance, with no unsettled station nearer. None is returned only when every unsettled station is unreachable. |
| Dijkstra.Improve | apgrafos.py:76-77 | One update lowers the station's distance to at most the new value and never raises any distance. |
| Dijkstra.Relax | apgrafos.py:74-78 | Relaxing the arcs leaving a settled station makes no distance worse. Each arc's target ends no farther than the station's distance plus the arc's time. Each changed distance comes from one of those arcs. |
| Dijkstra.InitialDist | apgrafos.py:64-65 | Every station starts at infinity except the origin, which starts at 0. |
| Dijkstra.Settle | apgrafos.py:71-78 | The settle loop keeps the set of stations in the table; what it computes is stated by `Dijkstra.SettleCorrect`. |
| Dijkstra.SettleCorrect | apgrafos.py:71-78 | Running the settle loop (`Settle`) to the end gives a table that is sound and relaxed, with the origin at 0. |
| Dijkstra.RelaxedBoundsWalks | apgrafos.py:71-78 | In a relaxed table, the distance at the end of any walk is at most the start's distance plus the walk's weight. |
| Dijkstra.DistancesUnique | apgrafos.py:71-78 | Two tables that are both sound and relaxed, with the origin at 0, are equal. So the distances do not depend on the order of settling. |
| Dijkstra.ShortestDistances | apgrafos.py:64-78 | Every station has a distance and the origin has 0. Each finite distance is the weight of some walk from the origin. No walk from the origin is shorter than its end's distance, and an unreachable station is at infinity. |
| Dijkstra.ShortestDistancesCharacterised | apgrafos.py:64-78 | Any table over the stations that is sound and relaxed, with the origin at 0, is exactly the table the query computes. |
| FastestRoutes.WeightBetweenUnique | apgrafos.py:38 | With at most one route per pair, the time between two joined stations is that route's time. |
| FastestRoutes.TightFromIff | apgrafos.py:83-85 | A station's arcs contribute that station, and only it, as a predecessor of v exactly when one of its arcs into v lies on a fastest path. |
| FastestRoutes.PredsIff | apgrafos.py:81-85 | States what `PredsOf` lists: a station is listed as a predecessor of v exactly when it has an arc into v whose ends are both reachable and whose time closes the gap between their distances. |
| FastestRoutes.PredsOfByKeys | apgrafos.py:82-85 | The predecessors of v are listed in table-key order, each station once per tight arc it has into v. |
| FastestRoutes.PredCloser | apgrafos.py:84 | A predecessor is strictly nearer the origin than the station it precedes, which is why the walk back terminates. |
| FastestRoutes.Dfs | apgrafos.py:86-93 | The walk back from a station only appends to the paths found so far. It adds nothing once the cap is reached and never exceeds the cap. Each path it adds runs from the origin to the destination along predecessor links. Completeness and the absence of repeats are stated by `Enumeration.DfsComplete` and `Enumeration.DfsNoRepeats`. |
| FastestRoutes.DfsEach | apgrafos.py:92 | Trying the predecessors in order has the same guarantees as the walk: paths only appended, the cap respected, each added path a fastest path. |
| FastestRoutes.ChainIsRoutePath | apgrafos.py:84-92 | A chain of predecessor links is a path of routes. Its end's distance is its start's distance plus the path's total time. |
| FastestRoutes.FoundIsRoutePath | apgrafos.py:86-93 | Every reported path starts at the origin, ends at the destination, and follows routes. Its total time equals the destination's distance. |
| FastestRoutes.DfsAtOrigin | apgrafos.py:89-91 | When the destination is the origin, the walk reports exactly the one-station path. |
| FastestRoutes.FastestOver | apgrafos.py:62-94 | The query over a route list: unreachable means no paths. There are never more than the cap. Every path runs from origin to destination along routes and weighs the returned time. Origin equal to destination gives the one-station path at time 0. |
| FastestRoutes.AllFastestRoutes | apgrafos.py:62-94 | The same guarantees for the query on a valid network. Completeness, the absence of repeats and filling the cap are stated by `QueryCompleteness.QueryComplete`, `QueryCompleteness.QueryNoRepeats` and `QueryCompleteness.QueryFillsCap`. |
| QueryProperties.TotalIsDistance | apgrafos.py:79-94 | The returned time is the destination's entry in the computed distance table, with infinity when it is unreachable. |
| QueryProperties.QueryDistanceIsShortest | apgrafos.py:62-79 | If any path of routes joins origin and destination, the returned time is finite and no larger than that path's total time. |
| QueryProperties.QueryDistanceIsAchieved | apgrafos.py:62-79 | A finite returned time is the total time of some path of routes from origin to destination. |
| QueryProperties.QueryUnreachableIff | apgrafos.py:79 | The returned time is infinite exactly when no path of routes joins the origin to the destination. |
| QueryProperties.QueryFindsAPath | apgrafos.py:81-94 | With a cap of at least one, a reachable destination yields at least one path. |
| QueryProperties.RoutePathIsWalk | apgrafos.py:67-70 | A path of routes is a walk in the query's table with the same end and the same total time. |
| QueryProperties.WalkIsRoutePath | apgrafos.py:67-70 | A walk in the query's table is a path of routes with the same end and the same total time. |
| QueryProperties.DistancesHavePreds | apgrafos.py:81-85 | Every reachable station other than the origin has at least one predecessor. |
| Enumeration.DfsIsCappedChains | apgrafos.py:86-92 | The walk back from a station appends, to the paths found so far, that station's predecessor chains from the origin (each followed by the reversed suffix walked so far), in order, cut off at the cap. |
| Enumeration.DfsReportsChains | apgrafos.py:86-93 | The reported paths are the first `max_paths` predecessor chains from the origin to the destination, in depth-first order over the predecessor lists. |
| Enumeration.CappedAppend | apgrafos.py:88 | Cutting off at the cap after each of two batches is the same as cutting off once after both. |
| Enumeration.ChainsComplete | apgrafos.py:81-92 | Every path from the origin to a station along predecessor links is one of that station's chains. |
| Enumeration.DfsComplete | apgrafos.py:86-93 | Below the cap, every path from the origin to the destination along predecessor links is reported. |
| Enumeration.ChainsDistinct | apgrafos.py:86-92 | When no predecessor list names a station twice, no chain is listed twice. |
| Enumeration.DfsNoRepeats | apgrafos.py:86-93 | When no predecessor list names a station twice, no path is reported twice. |
| QueryCompleteness.ArcsToAtMostOne | apgrafos.py:67-70 | With one route per pair, the query's table has at most one arc from a station to any other station. |
| QueryCompleteness.PredsOfDistinct | apgrafos.py:81-85 | With unique keys, at most one arc per ordered pair and positive times, no predecessor list names a station twice. |
| QueryCompleteness.SearchPredsDistinct | apgrafos.py:67-85 | For the table built from routes with one route per pair, no predecessor list names a station twice. |
| QueryCompleteness.FastestWalkIsChain | apgrafos.py:81-85 | Over relaxed distances, a walk whose weight equals the gap between the distances of its ends runs along predecessor links only. |
| QueryCompleteness.FastestOverComplete | apgrafos.py:62-94 | Below the cap, every route path from the origin to the destination whose total time is the returned time is reported. |
| QueryCompleteness.FastestOverDistinct | apgrafos.py:62-94 | With one route per pair, the query reports no path twice. |
| QueryCompleteness.QueryFastestIff | apgrafos.py:62-94 | A route path from the origin to the destination is a fastest one (no route path between them takes less time) exactly when its time is the returned time. So the reported paths are fastest paths. |
| QueryCompleteness.QueryComplete | apgrafos.py:62-94 | On a valid network, below the cap, every fastest path of routes from the origin to the destination (one no route path between them beats) is reported. |
| QueryCompleteness.QueryNoRepeats | apgrafos.py:62-94 | On a valid network, the query reports no path twice. |
| QueryCompleteness.QueryFillsCap | apgrafos.py:86-93 | Given distinct fastest paths, the query reports at least as many of them as the cap allows, and exactly `max_paths` paths when there are at least that many. |
| Demo.AddStationsFresh | apgrafos.py:166 | Adding unconnected stations with new, distinct names appends them in order and keeps the invariant. |
| Demo.AddRoutesFresh | apgrafos.py:168 | Adding routes that pairwise join different pairs of distinct known stations, with positive times, keeps the invariant. The route list ends up exactly as given. |
| Demo.DemoRoutesUnique | apgrafos.py:167 | No two of the nine demonstration routes join the same pair. |
| Demo.DemoNetworkShape | apgrafos.py:162-169 | States what `DemoNetwork` builds: the demonstration network is valid, with stations A to G in order and the nine routes in order. |
| DemoQuery.DemoTable | apgrafos.py:67-70 | The query's table for the demonstration routes has keys A to G in that order, with each station's arcs in route order. |
| DemoQuery.DemoDistancesOver | apgrafos.py:64-78 | The distances from A on the demonstration network are A 0, B 3, C 5, D 7, E 10, F 12, G 13. |
| DemoQuery.DemoPreds | apgrafos.py:81-85 | On the demonstration network, E is preceded by B then D, B by A, D by C, and C by A. |
| DemoQuery.DemoSearchOrder | apgrafos.py:86-93 | The walk back from E reports A-B-E first and then A-C-D-E. |
| DemoQuery.DemoShapedNetwork | apgrafos.py:62-94 | The A-to-E query on any valid network with the demonstration's stations and routes gives time 10 and paths A-B-E then A-C-D-E. |
| DemoQuery.DemoQueryAnswer | apgrafos.py:62-169 | Querying the demonstration network from its origin A to its destination E, with the default cap of 300, gives time 10 and paths A-B-E then A-C-D-E, in that order. |

## Left out

- The Streamlit interface (apgrafos.py:171-275), the pyvis rendering in `generar_html` (apgrafos.py:97-159) and the JSON file save and upload: presentation and file input/output. Only the id rule for a new station (apgrafos.py:199) is kept, as `Networks.NextId`.
- The random default travel time of `agregar_ruta` (apgrafos.py:37): the time is always an explicit parameter, because randomness is outside the model.
- Floating-point infinity and the `1e-9` comparison tolerance (apgrafos.py:64, 79, 84): travel times are integers, so infinity is `None` and the tightness test is exact equality.
- The priority queue (apgrafos.py:66, 72-73, 78): modelled as repeatedly settling the nearest unsettled station. Stale heap entries, which the source skips, do not arise. `Dijkstra.DistancesUnique` shows that the resulting table does not depend on the settling order.
- Station identity: the source compares station objects, and the model compares names and station values. The model assumes unique names (part of `Valid`). The source does not enforce them (apgrafos.py:196-200 accepts a repeated name), and its name-keyed query would then merge two such stations. That case is not modelled.
- `Import` builds each station directly from its node record instead of going through `AddStation`. This matches the source, where every record makes a fresh object that is always appended.
- The station kind (`tipo`) is not saved by `a_dict`, and imported stations get the default kind. The model keeps the field and sets the default, so the round trip is stated on records.
- An import that fails part way: the source leaves a half-built network behind when it raises. The model returns a `Failure` naming the unknown station and no network.
- A query whose origin or destination is not a station of the network: the model requires both to be stations. In the source, a missing destination raises `KeyError` at apgrafos.py:79. A missing origin raises nothing, because apgrafos.py:65 assigns its distance and so adds a key. The query's table is keyed by name (apgrafos.py:67-70), so an outside origin named like a station of the network walks that station's routes. An origin whose name no station has, having no routes, gives `[]` and infinity, or the one-station path at time 0 when the destination has the origin's name.
- NetworkInvariant.AddRouteValid: keeping the invariant is stated for routes between two different stations with a positive time. The editing form only creates such routes (apgrafos.py:205-210).
- Serialization.Import: loading checks neither self-loops nor the sign of times (apgrafos.py:60-61), so a loaded network may break `Valid`, as `Serialization.ImportAcceptsUncheckedEdge` shows. The query is modelled only on valid networks. In the source, a negative time can make the distance loop (apgrafos.py:71-78) run forever. A zero-time cycle can make the walk back (apgrafos.py:87-92) recurse until Python's recursion limit stops it with `RecursionError`, unless the cap at apgrafos.py:88 is reached first.
- Python's recursion limit (about 1000 frames): the walk back (apgrafos.py:87-92) recurses once per station of a path, so the source fails with `RecursionError` on fastest paths longer than about 1000 stations. The model has no such limit.
- Concurrency and Streamlit session state: the model is a single sequential value.

=== FILE: adjacency.dfy ===
/**
 The adjacency table the fastest-route query builds from the route list:
 one entry per station name, in the order the name first appears as a
 route endpoint, listing (neighbour, weight) arcs in route order. Also
 walks over that table, the paths the query's distances are measured on.
 */
module Adjacency {
  import opened Seqs
  import opened Stations
  import opened Networks

  datatype AdjEntry = AdjEntry(from: string, out: seq<Conn>)
  type Adj = seq<AdjEntry>

  predicate HasKey(adj: Adj, x: string)
  {
    exists i :: 0 <= i < |adj| && adj[i].from == x
  }

  predicate KeysUnique(adj: Adj)
  {
    forall i, j :: 0 <= i < j < |adj| ==> adj[i].from != adj[j].from
  }

  /** The keys of the table, in table order. */
  function Keys(adj: Adj): (r: seq<string>)
    ensures |r| == |adj| && forall i :: 0 <= i < |adj| ==> r[i] == adj[i].from
  {
    if adj == [] then [] else [adj[0].from] + Keys(adj[1..])
  }

  /** The arcs leaving `u`; none when `u` is not a key. */
  function Out(adj: Adj, u: string): seq<Conn>
  {
    if adj == [] then []
    else if adj[0].from == u then adj[0].out
    else Out(adj[1..], u)
  }

  /** In a table without repeated keys, an entry's arcs are the arcs of its key. */
  lemma {:induction false} OutOfEntry(adj: Adj, i: int)
    requires KeysUnique(adj) && 0 <= i < |adj|
    ensures Out(adj, adj[i].from) == adj[i].out
  {
    if i > 0 {
      assert adj[i] == adj[1..][i - 1];
      OutOfEntry(adj[1..], i - 1);
    }
  }

  /** A station that is not a key of the table has no arcs. */
  lemma {:induction false} OutOfMissing(adj: Adj, x: string)
    requires !HasKey(adj, x)
    ensures Out(adj, x) == []
  {
    if adj != [] {
      assert adj[0].from != x;
      assert !HasKey(adj[1..], x);
      OutOfMissing(adj[1..], x);
    }
  }

  /**
   Records the arc `c` leaving `u`: `c` becomes the last arc of `u`,
   every other key keeps its arcs, and `u` is added as the last key if new.
   */
  function AddArc(adj: Adj, u: string, c: Conn): (r: Adj)
    ensures forall x :: Out(r, x) == if x == u then Out(adj, x) + [c] else Out(adj, x)
    ensures forall x :: HasKey(r, x) <==> HasKey(adj, x) || x == u
    ensures KeysUnique(adj) ==> KeysUnique(r)
  {
    if adj == [] then [AdjEntry(u, [c])]
    else if adj[0].from == u then
      var r := [adj[0].(out := adj[0].out + [c])] + adj[1..];
      assert forall x :: HasKey(r, x) <==> HasKey(adj, x) by {
        forall x ensures HasKey(r, x) <==> HasKey(adj, x) {
          if HasKey(adj, x) {
            var i :| 0 <= i < |adj| && adj[i].from == x;
            assert r[i].from == x;
          }
        }
      }
      assert r[1..] == adj[1..];
      r
    else
      var rest := AddArc(adj[1..], u, c);
      var r := [adj[0]] + rest;
      assert r[1..] == rest;
      assert forall x :: HasKey(r, x) <==> x == adj[0].from || HasKey(rest, x) by {
        forall x ensures HasKey(r, x) <==> x == adj[0].from || HasKey(rest, x) {
          assert r[0].from == adj[0].from;
          if HasKey(rest, x) {
            var i :| 0 <= i < |rest| && rest[i].from == x;
            assert r[i + 1].from == x;
          }
          if HasKey(r, x) && x != adj[0].from {
            var i :| 0 <= i < |r| && r[i].from == x;
            assert rest[i - 1].from == x;
          }
        }
      }
      assert forall x :: HasKey(adj, x) <==> x == adj[0].from || HasKey(adj[1..], x) by {
        forall x ensures HasKey(adj, x) <==> x == adj[0].from || HasKey(adj[1..], x) {
          if HasKey(adj[1..], x) {
            var i :| 0 <= i < |adj[1..]| && adj[1..][i].from == x;
            assert adj[i + 1].from == x;
          }
          if HasKey(adj, x) && x != adj[0].from {
            var i :| 0 <= i < |adj| && adj[i].from == x;
            assert adj[1..][i - 1].from == x;
          }
        }
      }
      if KeysUnique(adj) then
        assert KeysUnique(adj[1..]) by {
          forall i, j | 0 <= i < j < |adj[1..]| ensures adj[1..][i].from != adj[1..][j].from {
            assert adj[1..][i] == adj[i + 1] && adj[1..][j] == adj[j + 1];
          }
        }
        assert !HasKey(adj[1..], adj[0].from);
        assert KeysUnique(r) by {
          forall i, j | 0 <= i < j < |r| ensures r[i].from != r[j].from {
            if i == 0 {
              assert r[j] == rest[j - 1];
            } else {
              assert r[i] == rest[i - 1] && r[j] == rest[j - 1];
            }
          }
        }
        r
      else r
  }

  /** Past a first entry that is not `u`, the table has `u` as a key exactly when its tail has. */
  lemma HasKeyTail(adj: Adj, u: string)
    requires adj != [] && adj[0].from != u
    ensures HasKey(adj, u) <==> HasKey(adj[1..], u)
  {
    if HasKey(adj, u) {
      var i :| 0 <= i < |adj| && adj[i].from == u;
      assert adj[1..][i - 1].from == u;
    }
    if HasKey(adj[1..], u) {
      var i :| 0 <= i < |adj[1..]| && adj[1..][i].from == u;
      assert adj[i + 1].from == u;
    }
  }

  /** Keeping the first entry in front of a tail whose keys gain `u` at the end. */
  lemma KeysPrepend(r: Adj, adj: Adj, rest: Adj, u: string, added: bool)
    requires adj != [] && r == [adj[0]] + rest
    requires Keys(rest) == if added then Keys(adj[1..]) + [u] else Keys(adj[1..])
    ensures Keys(r) == if added then Keys(adj) + [u] else Keys(adj)
  {
    assert r[1..] == rest;
    assert Keys(r) == [adj[0].from] + Keys(rest);
    assert Keys(adj) == [adj[0].from] + Keys(adj[1..]);
    if added {
      assert [adj[0].from] + (Keys(adj[1..]) + [u]) == ([adj[0].from] + Keys(adj[1..])) + [u];
    }
  }

  /** Appending an arc leaves the key order alone, or adds `u` as the last key when it is new. */
  lemma {:induction false} AddArcKeys(adj: Adj, u: string, c: Conn)
    ensures Keys(AddArc(adj, u, c)) == if HasKey(adj, u) then Keys(adj) else Keys(adj) + [u]
  {
    var r := AddArc(adj, u, c);
    if adj == [] {
      assert r == [AdjEntry(u, [c])];
      assert !HasKey(adj, u);
    } else if adj[0].from == u {
      assert HasKey(adj, u);
      assert r == [adj[0].(out := adj[0].out + [c])] + adj[1..];
      assert |r| == |adj| && forall i :: 0 <= i < |adj| ==> r[i].from == adj[i].from;
    } else {
      AddArcKeys(adj[1..], u, c);
      HasKeyTail(adj, u);
      KeysPrepend(r, adj, AddArc(adj[1..], u, c), u, !HasKey(adj, u));
    }
  }

  /** The route `rt` read from the side of `x` gives the arc `c`. */
  predicate ArcOf(rt: Route, x: string, c: Conn)
  {
    (rt.a == x && c == Conn(rt.b, rt.w)) || (rt.b == x && c == Conn(rt.a, rt.w))
  }

  /**
   The query's adjacency table: every route contributes one arc from each
   endpoint to the other, and nothing else is in the table.
   */
  function BuildAdj(routes: seq<Route>): (adj: Adj)
    ensures KeysUnique(adj)
    ensures forall x, c :: c in Out(adj, x) <==> exists rt :: rt in routes && ArcOf(rt, x, c)
  {
    if routes == [] then []
    else
      var init := routes[..|routes| - 1];
      var rt := Last(routes);
      var prev := BuildAdj(init);
      var adj := AddArc(AddArc(prev, rt.a, Conn(rt.b, rt.w)), rt.b, Conn(rt.a, rt.w));
      assert routes == init + [rt];
      assert forall x, c :: c in Out(adj, x) <==> c in Out(prev, x) || ArcOf(rt, x, c);
      adj
  }

  /** A table without repeated keys is determined by its key order and the arcs of each key. */
  lemma TableByKeys(a: Adj, b: Adj)
    requires KeysUnique(a) && Keys(a) == Keys(b)
    requires forall i :: 0 <= i < |b| ==> Out(a, b[i].from) == b[i].out
    ensures a == b
  {
    assert |a| == |Keys(a)| == |b|;
    forall i | 0 <= i < |a| ensures a[i] == b[i] {
      assert a[i].from == Keys(a)[i] == b[i].from;
      OutOfEntry(a, i);
    }
  }

  /** `ks` with `u` added at the end unless it is already there. */
  function AddKey(ks: seq<string>, u: string): seq<string>
  {
    if u in ks then ks else ks + [u]
  }

  /** The route endpoints in the order each is first mentioned, the first endpoint of a route before the second. */
  function FirstSeen(routes: seq<Route>): seq<string>
  {
    if routes == [] then []
    else
      var rt := Last(routes);
      AddKey(AddKey(FirstSeen(routes[..|routes| - 1]), rt.a), rt.b)
  }

  lemma FirstSeenStep(all: seq<Route>, k: int)
    requires 0 <= k < |all|
    ensures FirstSeen(all[..k + 1]) == AddKey(AddKey(FirstSeen(all[..k]), all[k].a), all[k].b)
  {
    assert all[..k + 1][..k] == all[..k];
  }

  /** The arcs route `rt` gives to `x`: from its first endpoint, then from its second. */
  function ArcsOfRoute(rt: Route, x: string): seq<Conn>
  {
    (if rt.a == x then [Conn(rt.b, rt.w)] else []) + (if rt.b == x then [Conn(rt.a, rt.w)] else [])
  }

  /** The arcs the routes give to `x`, in route order. */
  function ArcsAt(routes: seq<Route>, x: string): seq<Conn>
  {
    if routes == [] then [] else ArcsOfRoute(routes[0], x) + ArcsAt(routes[1..], x)
  }

  lemma {:induction false} ArcsAtSnoc(init: seq<Route>, rt: Route, x: string)
    ensures ArcsAt(init + [rt], x) == ArcsAt(init, x) + ArcsOfRoute(rt, x)
  {
    if init == [] {
      assert init + [rt] == [rt];
      assert [rt][1..] == [];
    } else {
      var head := ArcsOfRoute(init[0], x);
      assert (init + [rt])[0] == init[0] && (init + [rt])[1..] == init[1..] + [rt];
      assert ArcsAt(init + [rt], x) == head + ArcsAt(init[1..] + [rt], x);
      ArcsAtSnoc(init[1..], rt, x);
      assert head + (ArcsAt(init[1..], x) + ArcsOfRoute(rt, x)) == (head + ArcsAt(init[1..], x)) + ArcsOfRoute(rt, x);
    }
  }

  lemma KeysHasKey(adj: Adj, x: string)
    ensures x in Keys(adj) <==> HasKey(adj, x)
  {
    if x in Keys(adj) {
      var i :| 0 <= i < |Keys(adj)| && Keys(adj)[i] == x;
      assert adj[i].from == x;
    }
  }

  /** The table's keys are the route endpoints in order of first mention. */
  lemma {:induction false} BuildAdjKeys(routes: seq<Route>)
    ensures Keys(BuildAdj(routes)) == FirstSeen(routes)
  {
    if routes != [] {
      var init := routes[..|routes| - 1];
      var rt := Last(routes);
      var prev := BuildAdj(init);
      var mid := AddArc(prev, rt.a, Conn(rt.b, rt.w));
      BuildAdjKeys(init);
      AddArcKeys(prev, rt.a, Conn(rt.b, rt.w));
      AddArcKeys(mid, rt.b, Conn(rt.a, rt.w));
      KeysHasKey(prev, rt.a);
      KeysHasKey(mid, rt.b);
    }
  }

  /** Adding both arcs of a route extends the arcs of `x` by what the route gives `x`. */
  lemma AddRouteArcs(prev: Adj, rt: Route, x: string)
    ensures Out(AddArc(AddArc(prev, rt.a, Conn(rt.b, rt.w)), rt.b, Conn(rt.a, rt.w)), x) == Out(prev, x) + ArcsOfRoute(rt, x)
  {
    var a := if rt.a == x then [Conn(rt.b, rt.w)] else [];
    var b := if rt.b == x then [Conn(rt.a, rt.w)] else [];
    assert Out(prev, x) + a + b == Out(prev, x) + (a + b);
  }

  /** The arcs of each key are the arcs the routes give it, in route order. */
  lemma {:induction false} BuildAdjOut(routes: seq<Route>, x: string)
    ensures Out(BuildAdj(routes), x) == ArcsAt(routes, x)
  {
    if routes != [] {
      var init := routes[..|routes| - 1];
      var rt := Last(routes);
      BuildAdjOut(init, x);
      ArcsAtSnoc(init, rt, x);
      assert init + [rt] == routes;
      AddRouteArcs(BuildAdj(init), rt, x);
    }
  }

  // ---------------------------------------------------------------------
  // Walks
  // ---------------------------------------------------------------------

  /** `steps` is a walk starting at `u`: each step is an arc leaving the previous stop. */
  predicate IsWalk(adj: Adj, u: string, steps: seq<Conn>)
    decreases |steps|
  {
    steps == [] || (steps[0] in Out(adj, u) && IsWalk(adj, steps[0].to, steps[1..]))
  }

  function WalkEnd(u: string, steps: seq<Conn>): string
  {
    if steps == [] then u else Last(steps).to
  }

  function WalkWeight(steps: seq<Conn>): int
  {
    if steps == [] then 0 else steps[0].weight + WalkWeight(steps[1..])
  }

  /** Some walk leads from `u` to `v` with total weight `k`. */
  ghost predicate HasWalk(adj: Adj, u: string, v: string, k: int)
  {
    exists steps :: IsWalk(adj, u, steps) && WalkEnd(u, steps) == v && WalkWeight(steps) == k
  }

  /** A walk extended by an arc leaving its end is a walk, one arc longer and heavier. */
  lemma {:induction false} WalkExtend(adj: Adj, u: string, steps: seq<Conn>, c: Conn)
    requires IsWalk(adj, u, steps) && c in Out(adj, WalkEnd(u, steps))
    ensures IsWalk(adj, u, steps + [c])
    ensures WalkEnd(u, steps + [c]) == c.to
    ensures WalkWeight(steps + [c]) == WalkWeight(steps) + c.weight
    decreases |steps|
  {
    if steps == [] {
      assert steps + [c] == [c];
      assert [c][1..] == [];
    } else {
      assert (steps + [c])[1..] == steps[1..] + [c];
      assert WalkEnd(steps[0].to, steps[1..]) == WalkEnd(u, steps);
      WalkExtend(adj, steps[0].to, steps[1..], c);
    }
  }

  lemma HasWalkExtend(adj: Adj, u: string, v: string, k: int, c: Conn)
    requires HasWalk(adj, u, v, k) && c in Out(adj, v)
    ensures HasWalk(adj, u, c.to, k + c.weight)
  {
    var steps :| IsWalk(adj, u, steps) && WalkEnd(u, steps) == v && WalkWeight(steps) == k;
    WalkExtend(adj, u, steps, c);
  }
}

=== FILE: demo.dfy ===
/**
 The demonstration network (`crear_demo_red`): seven stations A to G with
 ids 1 to 7 and nine routes, built through the editor's own operations.
 */
module Demo {
  import opened Stations
  import opened Networks
  import opened NetworkInvariant
  import opened Serialization

  const DemoNames: seq<string> := ["A", "B", "C", "D", "E", "F", "G"]

  const DemoStations: seq<Station> :=
    [NewStation(1, "A"), NewStation(2, "B"), NewStation(3, "C"), NewStation(4, "D"),
     NewStation(5, "E"), NewStation(6, "F"), NewStation(7, "G")]

  const DemoRoutes: seq<Route> :=
    [Route("A", "B", 3), Route("B", "C", 4), Route("A", "C", 5), Route("C", "D", 2), Route("D", "E", 3),
     Route("B", "E", 7), Route("E", "F", 2), Route("F", "G", 3), Route("D", "G", 6)]

  /** Adds the stations of `ss` one after another. */
  function AddStations(net: Network, ss: seq<Station>): Network
    decreases |ss|
  {
    if ss == [] then net else AddStations(AddStation(net, ss[0]), ss[1..])
  }

  /** Adds the routes of `rs` one after another. */
  function AddRoutes(net: Network, rs: seq<Route>): Network
    decreases |rs|
  {
    if rs == [] then net else AddRoutes(AddRoute(net, rs[0].a, rs[0].b, rs[0].w), rs[1..])
  }

  function DemoNetwork(): Network
  {
    AddRoutes(AddStations(EmptyNetwork, DemoStations), DemoRoutes)
  }

  // ---------------------------------------------------------------------
  // Building a network from fresh stations and fresh routes
  // ---------------------------------------------------------------------

  /**
   Adding unconnected stations whose names are new and distinct appends
   them in order and keeps the network valid.
   */
  lemma {:induction false} AddStationsFresh(net: Network, ss: seq<Station>)
    requires Valid(net)
    requires UniqueNames(ss) && forall s :: s in ss ==> s.conns == [] && s.name !in Names(net.stations)
    ensures Valid(AddStations(net, ss))
    ensures Names(AddStations(net, ss).stations) == Names(net.stations) + Names(ss)
    ensures AddStations(net, ss).routes == net.routes
    decreases |ss|
  {
    if ss != [] {
      var s := ss[0];
      assert s.name == Names(ss)[0];
      assert s !in net.stations;
      var next := AddStation(net, s);
      assert next.stations == net.stations + [s];
      NamesConcat(net.stations, [s]);
      assert Names(next.stations) == Names(net.stations) + [s.name];
      AddStationValid(net, s);
      FreshTail(ss, Names(net.stations));
      AddStationsFresh(next, ss[1..]);
      assert Names(ss) == [s.name] + Names(ss[1..]);
    }
  }

  /** After the first of several fresh stations is added, the rest are still fresh. */
  lemma FreshTail(ss: seq<Station>, names: seq<string>)
    requires ss != [] && UniqueNames(ss) && forall s :: s in ss ==> s.conns == [] && s.name !in names
    ensures UniqueNames(ss[1..])
    ensures forall t :: t in ss[1..] ==> t.conns == [] && t.name !in names + [ss[0].name]
  {
    forall t | t in ss[1..] ensures t.conns == [] && t.name !in names + [ss[0].name] {
      var j :| 0 <= j < |ss[1..]| && ss[1..][j] == t;
      assert t == ss[j + 1] && t in ss;
    }
  }

  /** Every route joins two distinct stations among `names` with a positive time. */
  ghost predicate RoutesFit(all: seq<Route>, names: seq<string>)
  {
    forall rt :: rt in all ==> rt.a in names && rt.b in names && rt.a != rt.b && rt.w > 0
  }

  lemma AddRoutesUnfold(cur: Network, all: seq<Route>, k: int)
    requires 0 <= k < |all|
    ensures AddRoutes(cur, all[k..]) == AddRoutes(AddRoute(cur, all[k].a, all[k].b, all[k].w), all[k + 1..])
  {
    assert all[k..][0] == all[k] && all[k..][1..] == all[k + 1..];
  }

  /** After the first `k` routes of a list without repeated pairs, route `k` is new and is appended. */
  lemma NextRouteAppended(all: seq<Route>, cur: Network, k: int)
    requires RoutesUnique(all) && 0 <= k < |all| && cur.routes == all[..k]
    ensures AddRoute(cur, all[k].a, all[k].b, all[k].w).routes == all[..k + 1]
  {
    var rt := all[k];
    NoEarlierRoute(all, k);
    assert AddRoute(cur, rt.a, rt.b, rt.w).routes == cur.routes + [Route(rt.a, rt.b, rt.w)];
    assert all[..k + 1] == all[..k] + [rt];
  }

  lemma NextRouteValid(all: seq<Route>, names: seq<string>, cur: Network, k: int)
    requires RoutesFit(all, names) && 0 <= k < |all|
    requires Valid(cur) && Names(cur.stations) == names
    ensures Valid(AddRoute(cur, all[k].a, all[k].b, all[k].w))
  {
    assert all[k] in all;
    AddRouteValid(cur, all[k].a, all[k].b, all[k].w);
  }

  /**
   Adding the routes of `all` from index `k` on, to a valid network that
   already holds the first `k`, keeps the network valid and ends with
   exactly `all`, provided no two routes join the same pair and each joins
   two distinct stations with a positive time.
   */
  lemma {:induction false} AddRoutesFresh(all: seq<Route>, names: seq<string>, cur: Network, k: int)
    requires RoutesUnique(all) && RoutesFit(all, names) && 0 <= k <= |all|
    requires Valid(cur) && Names(cur.stations) == names && cur.routes == all[..k]
    ensures Valid(AddRoutes(cur, all[k..]))
    ensures Names(AddRoutes(cur, all[k..]).stations) == names
    ensures AddRoutes(cur, all[k..]).routes == all
    decreases |all| - k
  {
    if k == |all| {
      assert all[k..] == [];
      assert all[..k] == all;
    } else {
      AddRoutesUnfold(cur, all, k);
      NextRouteAppended(all, cur, k);
      NextRouteValid(all, names, cur, k);
      AddRoutesFresh(all, names, AddRoute(cur, all[k].a, all[k].b, all[k].w), k + 1);
    }
  }

  lemma DemoStationNames()
    ensures Names(DemoStations) == DemoNames
  {
  }

  lemma DemoNamesDistinct()
    ensures UniqueNames(DemoStations)
  {
  }

  lemma DemoStationsBare()
    ensures forall s :: s in DemoStations ==> s.conns == []
  {
  }

  /** No two of the nine routes join the same pair of stations. */
  lemma DemoRoutesUnique()
    ensures RoutesUnique(DemoRoutes)
  {
    forall i, j | 0 <= i < j < |DemoRoutes| ensures !Joins(DemoRoutes[j], DemoRoutes[i].a, DemoRoutes[i].b) {
    }
  }

  lemma DemoRoutesWellFormed()
    ensures RoutesFit(DemoRoutes, DemoNames)
  {
  }

  lemma DemoStationsAdded()
    ensures Valid(AddStations(EmptyNetwork, DemoStations))
    ensures Names(AddStations(EmptyNetwork, DemoStations).stations) == DemoNames
    ensures AddStations(EmptyNetwork, DemoStations).routes == []
  {
    EmptyNetworkValid();
    DemoStationNames();
    DemoNamesDistinct();
    DemoStationsBare();
    AddStationsFresh(EmptyNetwork, DemoStations);
  }

  /** The demonstration network is valid, has the seven stations in order and the nine routes in order. */
  lemma DemoNetworkShape()
    ensures Valid(DemoNetwork())
    ensures Names(DemoNetwork().stations) == DemoNames
    ensures DemoNetwork().routes == DemoRoutes
  {
    DemoStationsAdded();
    var stationsOnly := AddStations(EmptyNetwork, DemoStations);
    DemoRoutesUnique();
    DemoRoutesWellFormed();
    assert DemoRoutes[..0] == [] && DemoRoutes[0..] == DemoRoutes;
    AddRoutesFresh(DemoRoutes, DemoNames, stationsOnly, 0);
  }
}

=== FILE: demo_query.dfy ===
/**
 The fastest-route query on the demonstration network, worked out: the
 table the query builds, the distances from A, the predecessor lists and
 the two fastest paths from A to E.
 */
module DemoQuery {
  import opened Outcomes
  import opened Seqs
  import opened Stations
  import opened Networks
  import opened Adjacency
  import opened Dijkstra
  import opened FastestRoutes
  import opened Demo

  /** The adjacency table the query builds for the demonstration routes, split after D. */
  const DemoAdjAB: Adj := [
      AdjEntry("A", [Conn("B", 3), Conn("C", 5)]),
      AdjEntry("B", [Conn("A", 3), Conn("C", 4), Conn("E", 7)])]

  const DemoAdjCD: Adj := [
      AdjEntry("C", [Conn("B", 4), Conn("A", 5), Conn("D", 2)]),
      AdjEntry("D", [Conn("C", 2), Conn("E", 3), Conn("G", 6)])]

  const DemoAdjEFG: Adj := [
      AdjEntry("E", [Conn("D", 3), Conn("B", 7), Conn("F", 2)]),
      AdjEntry("F", [Conn("E", 2), Conn("G", 3)]),
      AdjEntry("G", [Conn("F", 3), Conn("D", 6)])]

  const DemoAdj: Adj := [
      AdjEntry("A", [Conn("B", 3), Conn("C", 5)]),
      AdjEntry("B", [Conn("A", 3), Conn("C", 4), Conn("E", 7)]),
      AdjEntry("C", [Conn("B", 4), Conn("A", 5), Conn("D", 2)]),
      AdjEntry("D", [Conn("C", 2), Conn("E", 3), Conn("G", 6)]),
      AdjEntry("E", [Conn("D", 3), Conn("B", 7), Conn("F", 2)]),
      AdjEntry("F", [Conn("E", 2), Conn("G", 3)]),
      AdjEntry("G", [Conn("F", 3), Conn("D", 6)])]

  /** The distances from A. */
  const DemoDist: Dist := map["A" := Some(0), "B" := Some(3), "C" := Some(5), "D" := Some(7), "E" := Some(10), "F" := Some(12), "G" := Some(13)]

  // ---------------------------------------------------------------------
  // The table
  // ---------------------------------------------------------------------

  lemma FirstSeenNext(all: seq<Route>, k: int, ks: seq<string>, a: string, b: string, ks2: seq<string>)
    requires 0 <= k < |all| && FirstSeen(all[..k]) == ks && all[k].a == a && all[k].b == b
    requires AddKey(AddKey(ks, a), b) == ks2
    ensures FirstSeen(all[..k + 1]) == ks2
  {
    FirstSeenStep(all, k);
  }

  lemma FirstSeenTo3()
    ensures FirstSeen(DemoRoutes[..3]) == ["A", "B", "C"]
  {
    assert DemoRoutes[..0] == [];
    FirstSeenNext(DemoRoutes, 0, [], "A", "B", ["A", "B"]);
    FirstSeenNext(DemoRoutes, 1, ["A", "B"], "B", "C", ["A", "B", "C"]);
    FirstSeenNext(DemoRoutes, 2, ["A", "B", "C"], "A", "C", ["A", "B", "C"]);
  }

  lemma FirstSeenTo6()
    ensures FirstSeen(DemoRoutes[..6]) == ["A", "B", "C", "D", "E"]
  {
    FirstSeenTo3();
    FirstSeenNext(DemoRoutes, 3, ["A", "B", "C"], "C", "D", ["A", "B", "C", "D"]);
    FirstSeenNext(DemoRoutes, 4, ["A", "B", "C", "D"], "D", "E", ["A", "B", "C", "D", "E"]);
    FirstSeenNext(DemoRoutes, 5, ["A", "B", "C", "D", "E"], "B", "E", ["A", "B", "C", "D", "E"]);
  }

  lemma DemoFirstSeen()
    ensures FirstSeen(DemoRoutes) == DemoNames
  {
    FirstSeenTo6();
    FirstSeenNext(DemoRoutes, 6, ["A", "B", "C", "D", "E"], "E", "F", ["A", "B", "C", "D", "E", "F"]);
    FirstSeenNext(DemoRoutes, 7, ["A", "B", "C", "D", "E", "F"], "F", "G", ["A", "B", "C", "D", "E", "F", "G"]);
    FirstSeenNext(DemoRoutes, 8, ["A", "B", "C", "D", "E", "F", "G"], "D", "G", ["A", "B", "C", "D", "E", "F", "G"]);
    assert DemoRoutes[..9] == DemoRoutes;
  }

  lemma ArcsA()
    ensures ArcsAt(DemoRoutes, "A") == [Conn("B", 3), Conn("C", 5)]
  {
  }

  lemma ArcsB()
    ensures ArcsAt(DemoRoutes, "B") == [Conn("A", 3), Conn("C", 4), Conn("E", 7)]
  {
  }

  lemma ArcsC()
    ensures ArcsAt(DemoRoutes, "C") == [Conn("B", 4), Conn("A", 5), Conn("D", 2)]
  {
  }

  lemma ArcsD()
    ensures ArcsAt(DemoRoutes, "D") == [Conn("C", 2), Conn("E", 3), Conn("G", 6)]
  {
  }

  lemma ArcsE()
    ensures ArcsAt(DemoRoutes, "E") == [Conn("D", 3), Conn("B", 7), Conn("F", 2)]
  {
  }

  lemma ArcsF()
    ensures ArcsAt(DemoRoutes, "F") == [Conn("E", 2), Conn("G", 3)]
  {
  }

  lemma ArcsG()
    ensures ArcsAt(DemoRoutes, "G") == [Conn("F", 3), Conn("D", 6)]
  {
  }

  lemma DemoAdjKeys()
    ensures Keys(DemoAdj) == DemoNames
  {
  }

  /** The query's table for the demonstration network, keys A to G in order. */
  lemma DemoTable()
    ensures BuildAdj(DemoRoutes) == DemoAdj
  {
    var adj := BuildAdj(DemoRoutes);
    BuildAdjKeys(DemoRoutes);
    DemoFirstSeen();
    DemoAdjKeys();
    forall i | 0 <= i < |DemoAdj| ensures Out(adj, DemoAdj[i].from) == DemoAdj[i].out {
      BuildAdjOut(DemoRoutes, DemoAdj[i].from);
      if i == 0 { ArcsA(); }
      else if i == 1 { ArcsB(); }
      else if i == 2 { ArcsC(); }
      else if i == 3 { ArcsD(); }
      else if i == 4 { ArcsE(); }
      else if i == 5 { ArcsF(); }
      else if i == 6 { ArcsG(); }
    }
    TableByKeys(adj, DemoAdj);
  }

  // ---------------------------------------------------------------------
  // The distances from A
  // ---------------------------------------------------------------------

  lemma DemoAdjKeysUnique()
    ensures KeysUnique(DemoAdj)
  {
  }

  /** Every arc of the table, read by position, is relaxed by the distances. */
  lemma DemoArcsRelaxed(i: int, k: int)
    requires 0 <= i < |DemoAdj| && 0 <= k < |DemoAdj[i].out|
    ensures DemoAdj[i].from in DemoDist && DemoDist[DemoAdj[i].from].Some?
    ensures DemoAdj[i].out[k].to in DemoDist
    ensures AtMost(DemoDist[DemoAdj[i].out[k].to], DemoDist[DemoAdj[i].from].value + DemoAdj[i].out[k].weight)
  {
  }

  /** No arc of the table leads to a station below its distance plus the arc's time. */
  lemma DemoDistRelaxed()
    ensures Relaxed(DemoAdj, DemoDist)
  {
    DemoAdjKeysUnique();
    forall x, c | x in DemoDist && DemoDist[x].Some? && c in Out(DemoAdj, x)
      ensures c.to in DemoDist && AtMost(DemoDist[c.to], DemoDist[x].value + c.weight)
    {
      if HasKey(DemoAdj, x) {
        var i :| 0 <= i < |DemoAdj| && DemoAdj[i].from == x;
        OutOfEntry(DemoAdj, i);
        var k :| 0 <= k < |DemoAdj[i].out| && DemoAdj[i].out[k] == c;
        DemoArcsRelaxed(i, k);
      } else {
        OutOfMissing(DemoAdj, x);
      }
    }
  }

  lemma DemoWalksABCD()
    ensures HasWalk(DemoAdj, "A", "A", 0)
    ensures HasWalk(DemoAdj, "A", "B", 3)
    ensures HasWalk(DemoAdj, "A", "C", 5)
    ensures HasWalk(DemoAdj, "A", "D", 7)
  {
    assert IsWalk(DemoAdj, "A", []) && WalkEnd("A", []) == "A" && WalkWeight([]) == 0;
    assert IsWalk(DemoAdj, "A", [Conn("B", 3)]) && WalkEnd("A", [Conn("B", 3)]) == "B" && WalkWeight([Conn("B", 3)]) == 3;
    assert IsWalk(DemoAdj, "A", [Conn("C", 5)]) && WalkEnd("A", [Conn("C", 5)]) == "C" && WalkWeight([Conn("C", 5)]) == 5;
    assert IsWalk(DemoAdj, "A", [Conn("C", 5), Conn("D", 2)]) && WalkEnd("A", [Conn("C", 5), Conn("D", 2)]) == "D" && WalkWeight([Conn("C", 5), Conn("D", 2)]) == 7;
  }

  lemma DemoWalksEF()
    ensures HasWalk(DemoAdj, "A", "E", 10)
    ensures HasWalk(DemoAdj, "A", "F", 12)
  {
    assert IsWalk(DemoAdj, "A", [Conn("B", 3), Conn("E", 7)]) && WalkEnd("A", [Conn("B", 3), Conn("E", 7)]) == "E" && WalkWeight([Conn("B", 3), Conn("E", 7)]) == 10;
    assert IsWalk(DemoAdj, "A", [Conn("B", 3), Conn("E", 7), Conn("F", 2)]) && WalkEnd("A", [Conn("B", 3), Conn("E", 7), Conn("F", 2)]) == "F" && WalkWeight([Conn("B", 3), Conn("E", 7), Conn("F", 2)]) == 12;
  }

  lemma DemoWalksG()
    ensures HasWalk(DemoAdj, "A", "G", 13)
  {
    assert IsWalk(DemoAdj, "A", [Conn("C", 5), Conn("D", 2), Conn("G", 6)]) && WalkEnd("A", [Conn("C", 5), Conn("D", 2), Conn("G", 6)]) == "G" && WalkWeight([Conn("C", 5), Conn("D", 2), Conn("G", 6)]) == 13;
  }

  /** Each distance is the time of a walk from A. */
  lemma DemoDistSound()
    ensures Sound(DemoAdj, "A", DemoDist)
  {
    DemoWalksABCD();
    DemoWalksEF();
    DemoWalksG();
  }

  lemma DemoDistKeys()
    ensures forall n :: n in DemoDist <==> n in DemoNames
  {
  }

  /**
   Dijkstra's distances over the demonstration table, from A: 0, 3, 5, 7,
   10, 12 and 13 for A to G.
   */
  lemma DemoDistancesOver(names: seq<string>, adj: Adj)
    requires names == DemoNames && adj == DemoAdj
    requires ArcsOk(adj, set n | n in names)
    ensures "A" in names
    ensures ShortestDistances(names, adj, "A") == DemoDist
  {
    DemoDistKeys();
    DemoDistRelaxed();
    DemoDistSound();
    ShortestDistancesCharacterised(names, adj, "A", DemoDist);
  }

  // ---------------------------------------------------------------------
  // Predecessors on fastest paths from A
  // ---------------------------------------------------------------------

  lemma DemoAdjSplit()
    ensures DemoAdj == DemoAdjAB + (DemoAdjCD + DemoAdjEFG)
  {
  }

  lemma PredsEOfAB()
    ensures PredsOf(DemoAdjAB, DemoDist, "E") == ["B"]
  {
  }

  lemma PredsEOfCD()
    ensures PredsOf(DemoAdjCD, DemoDist, "E") == ["D"]
  {
  }

  lemma PredsEOfEFG()
    ensures PredsOf(DemoAdjEFG, DemoDist, "E") == []
  {
  }

  lemma PredsBOfAB()
    ensures PredsOf(DemoAdjAB, DemoDist, "B") == ["A"]
  {
  }

  lemma PredsBOfCD()
    ensures PredsOf(DemoAdjCD, DemoDist, "B") == []
  {
  }

  lemma PredsBOfEFG()
    ensures PredsOf(DemoAdjEFG, DemoDist, "B") == []
  {
  }

  lemma PredsDOfAB()
    ensures PredsOf(DemoAdjAB, DemoDist, "D") == []
  {
  }

  lemma PredsDOfCD()
    ensures PredsOf(DemoAdjCD, DemoDist, "D") == ["C"]
  {
  }

  lemma PredsDOfEFG()
    ensures PredsOf(DemoAdjEFG, DemoDist, "D") == []
  {
  }

  lemma PredsCOfAB()
    ensures PredsOf(DemoAdjAB, DemoDist, "C") == ["A"]
  {
  }

  lemma PredsCOfCD()
    ensures PredsOf(DemoAdjCD, DemoDist, "C") == []
  {
  }

  lemma PredsCOfEFG()
    ensures PredsOf(DemoAdjEFG, DemoDist, "C") == []
  {
  }

  /** Predecessors over a table in three parts are the parts' predecessors in order. */
  lemma PredsOfThree(a: Adj, b: Adj, c: Adj, dist: Dist, v: string, pa: seq<string>, pb: seq<string>, pc: seq<string>)
    requires PredsOf(a, dist, v) == pa && PredsOf(b, dist, v) == pb && PredsOf(c, dist, v) == pc
    ensures PredsOf(a + (b + c), dist, v) == pa + (pb + pc)
  {
    PredsOfConcat(b, c, dist, v);
    PredsOfConcat(a, b + c, dist, v);
  }

  lemma DemoPredsE()
    ensures PredsOf(DemoAdj, DemoDist, "E") == ["B", "D"]
  {
    DemoAdjSplit();
    PredsEOfAB();
    PredsEOfCD();
    PredsEOfEFG();
    PredsOfThree(DemoAdjAB, DemoAdjCD, DemoAdjEFG, DemoDist, "E", ["B"], ["D"], []);
  }

  lemma DemoPredsB()
    ensures PredsOf(DemoAdj, DemoDist, "B") == ["A"]
  {
    DemoAdjSplit();
    PredsBOfAB();
    PredsBOfCD();
    PredsBOfEFG();
    PredsOfThree(DemoAdjAB, DemoAdjCD, DemoAdjEFG, DemoDist, "B", ["A"], [], []);
  }

  lemma DemoPredsD()
    ensures PredsOf(DemoAdj, DemoDist, "D") == ["C"]
  {
    DemoAdjSplit();
    PredsDOfAB();
    PredsDOfCD();
    PredsDOfEFG();
    PredsOfThree(DemoAdjAB, DemoAdjCD, DemoAdjEFG, DemoDist, "D", [], ["C"], []);
  }

  lemma DemoPredsC()
    ensures PredsOf(DemoAdj, DemoDist, "C") == ["A"]
  {
    DemoAdjSplit();
    PredsCOfAB();
    PredsCOfCD();
    PredsCOfEFG();
    PredsOfThree(DemoAdjAB, DemoAdjCD, DemoAdjEFG, DemoDist, "C", ["A"], [], []);
  }

  /**
   The stations that precede E, B, D and C on fastest paths from A, in
   table order: B and D before E, A before B, C before D, A before C.
   */
  lemma DemoPreds()
    ensures PredsOf(DemoAdj, DemoDist, "E") == ["B", "D"]
    ensures PredsOf(DemoAdj, DemoDist, "B") == ["A"]
    ensures PredsOf(DemoAdj, DemoDist, "D") == ["C"]
    ensures PredsOf(DemoAdj, DemoDist, "C") == ["A"]
  {
    DemoPredsE();
    DemoPredsB();
    DemoPredsD();
    DemoPredsC();
  }

  // ---------------------------------------------------------------------
  // The search from E back to A
  // ---------------------------------------------------------------------

  /**
   A search from E back to A in which B and D precede E, A precedes B, C
   precedes D and A precedes C, with room for 300 paths.
   */
  ghost predicate DemoShaped(s: Search)
  {
    && s.origin == "A" && s.dest == "E" && s.maxPaths == 300
    && "A" in s.dist && "B" in s.dist && "C" in s.dist && "D" in s.dist && "E" in s.dist
    && s.dist["A"].Some? && s.dist["B"].Some? && s.dist["C"].Some? && s.dist["D"].Some? && s.dist["E"].Some?
    && PredsOf(s.adj, s.dist, "E") == ["B", "D"] && PredsOf(s.adj, s.dist, "B") == ["A"]
    && PredsOf(s.adj, s.dist, "D") == ["C"] && PredsOf(s.adj, s.dist, "C") == ["A"]
  }

  /** Reaching A from B, the path A-B-E is reported. */
  lemma DemoSearchReachAFromB(s: Search)
    requires Ready(s) && DemoShaped(s)
    ensures BackChain(s, ["E", "B", "A"])
    ensures Dfs(s, "A", ["E", "B"], []) == [["A", "B", "E"]]
  {
    assert ["E", "B"] + ["A"] == ["E", "B", "A"];
    assert Reverse(["E", "B", "A"]) == ["A", "B", "E"];
  }

  /** Through B, the only path is A-B-E. */
  lemma DemoSearchViaB(s: Search)
    requires Ready(s) && DemoShaped(s)
    ensures Dfs(s, "B", ["E"], []) == [["A", "B", "E"]]
  {
    var viaB := [["A", "B", "E"]];
    DemoSearchReachAFromB(s);
    assert DfsEach(s, [], ["E", "B"], viaB) == viaB;
    assert DfsEach(s, ["A"], ["E", "B"], []) == viaB;
    assert ["E"] + ["B"] == ["E", "B"];
  }

  /** Reaching A from C, the path A-C-D-E is appended. */
  lemma DemoSearchReachAFromC(s: Search, before: seq<Path>)
    requires Ready(s) && DemoShaped(s) && |before| < 300
    ensures BackChain(s, ["E", "D", "C", "A"])
    ensures Dfs(s, "A", ["E", "D", "C"], before) == before + [["A", "C", "D", "E"]]
  {
    assert ["E", "D", "C"] + ["A"] == ["E", "D", "C", "A"];
    assert Reverse(["E", "D", "C", "A"]) == ["A", "C", "D", "E"];
  }

  /** Through C, the path A-C-D-E is appended. */
  lemma DemoSearchViaC(s: Search, before: seq<Path>)
    requires Ready(s) && DemoShaped(s) && |before| < 300
    ensures Dfs(s, "C", ["E", "D"], before) == before + [["A", "C", "D", "E"]]
  {
    var after := before + [["A", "C", "D", "E"]];
    DemoSearchReachAFromC(s, before);
    assert DfsEach(s, [], ["E", "D", "C"], after) == after;
    assert DfsEach(s, ["A"], ["E", "D", "C"], before) == after;
    assert ["E", "D"] + ["C"] == ["E", "D", "C"];
  }

  /** Through D, and so through C, the path A-C-D-E is appended. */
  lemma DemoSearchViaD(s: Search, before: seq<Path>)
    requires Ready(s) && DemoShaped(s) && |before| < 300
    ensures Dfs(s, "D", ["E"], before) == before + [["A", "C", "D", "E"]]
  {
    var after := before + [["A", "C", "D", "E"]];
    DemoSearchViaC(s, before);
    assert DfsEach(s, [], ["E", "D"], after) == after;
    assert DfsEach(s, ["C"], ["E", "D"], before) == after;
    assert ["E"] + ["D"] == ["E", "D"];
  }

  /**
   The search from E explores the predecessors B and D in order, so it
   reports A-B-E first and then A-C-D-E.
   */
  lemma DemoSearchOrder(s: Search)
    requires Ready(s) && DemoShaped(s)
    ensures Dfs(s, "E", [], []) == [["A", "B", "E"], ["A", "C", "D", "E"]]
  {
    var viaB := [["A", "B", "E"]];
    var both := viaB + [["A", "C", "D", "E"]];
    DemoSearchViaB(s);
    DemoSearchViaD(s, viaB);
    assert DfsEach(s, [], ["E"], both) == both;
    assert DfsEach(s, ["D"], ["E"], viaB) == both;
    assert DfsEach(s, ["B", "D"], ["E"], []) == both;
    assert [] + ["E"] == ["E"];
  }

  // ---------------------------------------------------------------------
  // The demonstration query
  // ---------------------------------------------------------------------

  /** The demonstration's default origin and destination: the first and the fifth station. */
  const DemoOrigin: string := "A"
  const DemoDestination: string := "E"

  lemma DemoSearchPreds(s: Search)
    requires s.adj == DemoAdj && s.dist == DemoDist
    ensures PredsOf(s.adj, s.dist, "E") == ["B", "D"] && PredsOf(s.adj, s.dist, "B") == ["A"]
    ensures PredsOf(s.adj, s.dist, "D") == ["C"] && PredsOf(s.adj, s.dist, "C") == ["A"]
  {
    DemoPreds();
  }

  lemma DemoSearchDist(s: Search)
    requires s.dist == DemoDist
    ensures "A" in s.dist && "B" in s.dist && "C" in s.dist && "D" in s.dist && "E" in s.dist
    ensures s.dist["A"].Some? && s.dist["B"].Some? && s.dist["C"].Some? && s.dist["D"].Some?
    ensures s.dist["E"] == Some(10)
  {
  }

  /** A search from A to E over the demonstration's table and distances has the shape above. */
  lemma DemoShapedOver(s: Search)
    requires s.adj == DemoAdj && s.dist == DemoDist
    requires s.origin == "A" && s.dest == "E" && s.maxPaths == 300
    ensures DemoShaped(s) && s.dist["E"] == Some(10)
  {
    DemoSearchPreds(s);
    DemoSearchDist(s);
  }

  /**
   The query over routes and station names whose search from A to E has
   the shape above answers A-B-E and A-C-D-E with the destination's
   distance.
   */
  lemma DemoFastestOver(routes: seq<Route>, names: seq<string>)
    requires "A" in names && "E" in names
    requires RoutesUnique(routes) && ArcsOk(BuildAdj(routes), set n | n in names)
    requires var s := Search(BuildAdj(routes), ShortestDistances(names, BuildAdj(routes), "A"), "A", "E", 300);
      DemoShaped(s) && s.dist["E"] == Some(10)
    ensures FastestOver(routes, names, "A", "E", 300) == Answer([["A", "B", "E"], ["A", "C", "D", "E"]], Some(10))
  {
    FastestOverSearch(routes, names, "A", "E", 300);
    var adj := BuildAdj(routes);
    var s := Search(adj, ShortestDistances(names, adj, "A"), "A", "E", 300);
    DemoSearchOrder(s);
  }

  /** The query from A to E over any valid network with the demonstration's stations and routes. */
  lemma DemoShapedNetwork(net: Network)
    requires Valid(net) && Names(net.stations) == DemoNames && net.routes == DemoRoutes
    ensures "A" in Names(net.stations) && "E" in Names(net.stations)
    ensures AllFastestRoutes(net, "A", "E", 300) == Answer([["A", "B", "E"], ["A", "C", "D", "E"]], Some(10))
  {
    var names := Names(net.stations);
    AdjArcsOk(net);
    DemoTable();
    var adj := BuildAdj(net.routes);
    DemoDistancesOver(names, adj);
    DemoShapedOver(Search(adj, ShortestDistances(names, adj, "A"), "A", "E", 300));
    DemoFastestOver(net.routes, names);
  }

  /**
   Querying the demonstration network from A to E with the default cap of
   300 paths answers total time 10 with the paths A-B-E and A-C-D-E, in
   that order.
   */
  lemma DemoQueryAnswer()
    ensures Valid(DemoNetwork())
    ensures DemoOrigin in Names(DemoNetwork().stations) && DemoDestination in Names(DemoNetwork().stations)
    ensures AllFastestRoutes(DemoNetwork(), DemoOrigin, DemoDestination, 300)
         == Answer([["A", "B", "E"], ["A", "C", "D", "E"]], Some(10))
  {
    DemoNetworkShape();
    DemoShapedNetwork(DemoNetwork());
  }
}

=== FILE: dijkstra.dfy ===
/**
 The distance phase of the fastest-route query: Dijkstra's algorithm over
 the adjacency table, from one origin, with "no distance" standing for
 the infinite distance of an unreachable station.

 The source drives the search with a binary heap and skips stale heap
 entries; here each round picks the unsettled station of least finite
 distance directly (ties go to the earlier station). Both settle stations
 in non-decreasing distance order and relax the same arcs, so they end
 with the same distance table, which is what the rest of the query reads.
 */
module Dijkstra {
  import opened Outcomes
  import opened Stations
  import opened Adjacency

  /** Distance per station name; `None` is infinity. */
  type Dist = map<string, Option<nat>>

  /** `a <= b` when `None` is infinity. */
  predicate Le(a: Option<nat>, b: Option<nat>)
  {
    b.None? || (a.Some? && a.value <= b.value)
  }

  /** `d` is finite and at most `k`. */
  predicate AtMost(d: Option<nat>, k: int)
  {
    d.Some? && d.value <= k
  }

  /** Every arc of `adj` leads to a known station and has positive weight. */
  ghost predicate ArcsOk(adj: Adj, keys: set<string>)
  {
    forall u, c :: c in Out(adj, u) ==> c.to in keys && c.weight > 0
  }

  /**
   The next station to settle: an unsettled one of least finite distance,
   the earliest in `names` among equals; `None` once every unsettled
   station is unreachable.
   */
  function PickMin(names: seq<string>, dist: Dist, done: set<string>): (r: Option<string>)
    requires forall n :: n in names ==> n in dist
    ensures r.Some? ==> r.value in names && r.value !in done && dist[r.value].Some?
    ensures r.Some? ==> forall n :: n in names && n !in done && dist[n].Some? ==> dist[r.value].value <= dist[n].value
    ensures r.None? ==> forall n :: n in names && n !in done ==> dist[n].None?
  {
    if names == [] then None
    else
      var rest := PickMin(names[1..], dist, done);
      var n := names[0];
      assert forall x :: x in names ==> x == n || x in names[1..];
      if n !in done && dist[n].Some? && (rest.None? || dist[n].value <= dist[rest.value].value) then Some(n)
      else rest
  }

  /** Lowers the distance of `v` to `nd` when that is shorter (one strict-improvement step). */
  function Improve(dist: Dist, v: string, nd: nat): (r: Dist)
    requires v in dist
    ensures r.Keys == dist.Keys
    ensures AtMost(r[v], nd)
    ensures forall x :: x in dist ==> Le(r[x], dist[x])
    ensures forall x :: x in dist ==> r[x] == dist[x] || (x == v && r[x] == Some(nd))
  {
    if dist[v].None? || nd < dist[v].value then dist[v := Some(nd)] else dist
  }

  /** `d` is `du` plus the weight of one of the arcs `outs` into `v`. */
  ghost predicate ByArc(outs: seq<Conn>, du: nat, v: string, d: Option<nat>)
  {
    exists c :: c in outs && c.to == v && d == Some(du + c.weight)
  }

  /**
   Relaxes the arcs `outs` leaving a station at distance `du`: no distance
   gets worse, every arc's target ends at most `du` plus the arc's weight,
   and a changed distance is exactly such a sum.
   */
  function Relax(dist: Dist, du: nat, outs: seq<Conn>): (r: Dist)
    requires forall c :: c in outs ==> c.to in dist && c.weight > 0
    ensures r.Keys == dist.Keys
    ensures forall v :: v in dist ==> Le(r[v], dist[v])
    ensures forall c :: c in outs ==> AtMost(r[c.to], du + c.weight)
    ensures forall v :: v in dist ==> r[v] == dist[v] || ByArc(outs, du, v, r[v])
  {
    if outs == [] then dist
    else
      var c := outs[0];
      var d1 := Improve(dist, c.to, du + c.weight);
      assert forall x :: x in outs[1..] ==> x in outs;
      var r := Relax(d1, du, outs[1..]);
      RelaxStep(dist, d1, r, du, outs);
      r
  }

  /** The first arc improved into `d1`, then the remaining arcs relaxed into `r`, gives the guarantees of relaxing them all. */
  lemma RelaxStep(dist: Dist, d1: Dist, r: Dist, du: nat, outs: seq<Conn>)
    requires outs != [] && forall c :: c in outs ==> c.to in dist
    requires d1.Keys == dist.Keys && AtMost(d1[outs[0].to], du + outs[0].weight)
    requires forall x :: x in dist ==> Le(d1[x], dist[x])
    requires forall x :: x in dist ==> d1[x] == dist[x] || (x == outs[0].to && d1[x] == Some(du + outs[0].weight))
    requires r.Keys == d1.Keys
    requires forall v :: v in d1 ==> Le(r[v], d1[v])
    requires forall c :: c in outs[1..] ==> AtMost(r[c.to], du + c.weight)
    requires forall v :: v in d1 ==> r[v] == d1[v] || ByArc(outs[1..], du, v, r[v])
    ensures forall v :: v in dist ==> Le(r[v], dist[v])
    ensures forall c :: c in outs ==> AtMost(r[c.to], du + c.weight)
    ensures forall v :: v in dist ==> r[v] == dist[v] || ByArc(outs, du, v, r[v])
  {
    var c := outs[0];
    assert forall x :: x in outs ==> x == c || x in outs[1..];
    assert Le(r[c.to], d1[c.to]);
    forall v | v in dist && r[v] != dist[v] ensures ByArc(outs, du, v, r[v]) {
      if r[v] == d1[v] {
        assert c in outs && c.to == v && r[v] == Some(du + c.weight);
      } else {
        var x :| x in outs[1..] && x.to == v && r[v] == Some(du + x.weight);
        assert x in outs;
      }
    }
  }

  /** Settles stations one at a time until every remaining one is unreachable. */
  function Settle(names: seq<string>, adj: Adj, dist: Dist, done: set<string>): (r: Dist)
    requires forall n :: n in dist <==> n in names
    requires ArcsOk(adj, dist.Keys)
    requires done <= dist.Keys
    ensures r.Keys == dist.Keys
    decreases |dist.Keys - done|
  {
    match PickMin(names, dist, done)
    case None => dist
    case Some(u) =>
      var d1 := Relax(dist, dist[u].value, Out(adj, u));
      assert dist.Keys - (done + {u}) < dist.Keys - done;
      Settle(names, adj, d1, done + {u})
  }

  /** The table Dijkstra's algorithm starts from: the origin at 0, the rest infinite. */
  function InitialDist(names: seq<string>, origin: string): (r: Dist)
    requires origin in names
    ensures forall n :: n in r <==> n in names
    ensures r[origin] == Some(0)
    ensures forall n :: n in r && n != origin ==> r[n].None?
  {
    var none: Option<nat> := None;
    (map n | n in names :: none)[origin := Some(0)]
  }

  // ---------------------------------------------------------------------
  // Correctness
  // ---------------------------------------------------------------------

  /** Settled stations are known and finite. */
  ghost predicate SettledFinite(dist: Dist, done: set<string>)
  {
    done <= dist.Keys && forall x :: x in done ==> dist[x].Some?
  }

  /** Every arc leaving a settled station is relaxed. */
  ghost predicate DoneRelaxed(adj: Adj, dist: Dist, done: set<string>)
    requires SettledFinite(dist, done)
  {
    forall x, c :: x in done && c in Out(adj, x) ==> c.to in dist && AtMost(dist[c.to], dist[x].value + c.weight)
  }

  /** No settled station is farther than a reachable unsettled one. */
  ghost predicate DoneFirst(dist: Dist, done: set<string>)
    requires SettledFinite(dist, done)
  {
    forall x, y :: x in done && y in dist && y !in done && dist[y].Some? ==> dist[x].value <= dist[y].value
  }

  /**
   What holds between rounds: the origin is at 0, settled stations are
   finite, have had their arcs relaxed and are no farther than any
   reachable unsettled one, and every finite distance is the weight of
   some walk from the origin.
   */
  ghost predicate Inv(adj: Adj, origin: string, dist: Dist, done: set<string>)
  {
    && origin in dist && dist[origin] == Some(0)
    && SettledFinite(dist, done)
    && DoneRelaxed(adj, dist, done)
    && DoneFirst(dist, done)
    && Sound(adj, origin, dist)
  }

  /** Every arc leaving a reachable station is relaxed. */
  ghost predicate Relaxed(adj: Adj, dist: Dist)
  {
    forall x, c :: x in dist && dist[x].Some? && c in Out(adj, x) ==> c.to in dist && AtMost(dist[c.to], dist[x].value + c.weight)
  }

  /** Every finite distance is the weight of some walk from the origin. */
  ghost predicate Sound(adj: Adj, origin: string, dist: Dist)
  {
    forall v :: v in dist && dist[v].Some? ==> HasWalk(adj, origin, v, dist[v].value)
  }

  lemma InitialInv(names: seq<string>, adj: Adj, origin: string)
    requires origin in names
    ensures Inv(adj, origin, InitialDist(names, origin), {})
  {
    var d := InitialDist(names, origin);
    assert IsWalk(adj, origin, []) && WalkEnd(origin, []) == origin && WalkWeight([]) == 0;
    assert HasWalk(adj, origin, origin, 0);
  }

  /** A station no farther than `du` keeps its distance when arcs leaving distance `du` are relaxed. */
  lemma RelaxKeeps(dist: Dist, du: nat, outs: seq<Conn>, x: string)
    requires forall c :: c in outs ==> c.to in dist && c.weight > 0
    requires x in dist && dist[x].Some? && dist[x].value <= du
    ensures Relax(dist, du, outs)[x] == dist[x]
  {
  }

  lemma StepRelaxed(adj: Adj, dist: Dist, done: set<string>, u: string)
    requires ArcsOk(adj, dist.Keys)
    requires SettledFinite(dist, done) && DoneRelaxed(adj, dist, done)
    requires u in dist && u !in done && dist[u].Some?
    requires forall x :: x in done ==> dist[x].value <= dist[u].value
    ensures var d1 := Relax(dist, dist[u].value, Out(adj, u));
      SettledFinite(d1, done + {u}) && DoneRelaxed(adj, d1, done + {u})
  {
    var du := dist[u].value;
    var d1 := Relax(dist, du, Out(adj, u));
    forall x | x in done + {u} ensures d1[x] == dist[x] {
      RelaxKeeps(dist, du, Out(adj, u), x);
    }
    forall x, c | x in done + {u} && c in Out(adj, x) ensures c.to in d1 && AtMost(d1[c.to], d1[x].value + c.weight) {
      assert Le(d1[c.to], dist[c.to]);
    }
  }

  lemma StepOrdered(adj: Adj, dist: Dist, done: set<string>, u: string)
    requires ArcsOk(adj, dist.Keys)
    requires SettledFinite(dist, done) && DoneFirst(dist, done)
    requires u in dist && u !in done && dist[u].Some?
    requires forall n :: n in dist && n !in done && dist[n].Some? ==> dist[u].value <= dist[n].value
    ensures var d1 := Relax(dist, dist[u].value, Out(adj, u));
      SettledFinite(d1, done + {u}) && DoneFirst(d1, done + {u})
  {
    var du := dist[u].value;
    var d1 := Relax(dist, du, Out(adj, u));
    forall x | x in done + {u} ensures d1[x] == dist[x] {
      RelaxKeeps(dist, du, Out(adj, u), x);
    }
  }

  /** A distance set through an arc leaving a station reached by a walk is reached by a walk too. */
  lemma ByArcWalk(adj: Adj, origin: string, u: string, du: nat, v: string, d: Option<nat>)
    requires HasWalk(adj, origin, u, du) && ByArc(Out(adj, u), du, v, d)
    ensures d.Some? && HasWalk(adj, origin, v, d.value)
  {
    var c :| c in Out(adj, u) && c.to == v && d == Some(du + c.weight);
    HasWalkExtend(adj, origin, u, du, c);
  }

  lemma StepSound(adj: Adj, origin: string, dist: Dist, u: string)
    requires ArcsOk(adj, dist.Keys)
    requires Sound(adj, origin, dist)
    requires u in dist && dist[u].Some?
    ensures Sound(adj, origin, Relax(dist, dist[u].value, Out(adj, u)))
  {
    var du := dist[u].value;
    var outs := Out(adj, u);
    var d1 := Relax(dist, du, outs);
    forall v | v in d1 && d1[v].Some? ensures HasWalk(adj, origin, v, d1[v].value) {
      assert v in dist;
      if d1[v] != dist[v] {
        assert HasWalk(adj, origin, u, du);
        ByArcWalk(adj, origin, u, du, v, d1[v]);
      }
    }
  }

  /** One round, settling an unsettled station of least finite distance, keeps the invariant. */
  lemma StepInv(adj: Adj, origin: string, dist: Dist, done: set<string>, u: string)
    requires ArcsOk(adj, dist.Keys)
    requires Inv(adj, origin, dist, done)
    requires u in dist && u !in done && dist[u].Some?
    requires forall n :: n in dist && n !in done && dist[n].Some? ==> dist[u].value <= dist[n].value
    ensures Inv(adj, origin, Relax(dist, dist[u].value, Out(adj, u)), done + {u})
  {
    var d1 := Relax(dist, dist[u].value, Out(adj, u));
    assert Le(d1[origin], dist[origin]);
    StepRelaxed(adj, dist, done, u);
    StepOrdered(adj, dist, done, u);
    StepSound(adj, origin, dist, u);
  }

  /** Once every unsettled station is unreachable, every reachable one is settled and relaxed. */
  lemma FinishedRelaxed(adj: Adj, origin: string, dist: Dist, done: set<string>)
    requires Inv(adj, origin, dist, done)
    requires forall n :: n in dist && n !in done ==> dist[n].None?
    ensures Relaxed(adj, dist)
  {
    forall x, c | x in dist && dist[x].Some? && c in Out(adj, x) ensures c.to in dist && AtMost(dist[c.to], dist[x].value + c.weight) {
      assert x in done;
    }
  }

  /** The rounds end with every reachable station's arcs relaxed and every distance backed by a walk. */
  lemma {:induction false} SettleCorrect(names: seq<string>, adj: Adj, origin: string, dist: Dist, done: set<string>)
    requires forall n :: n in dist <==> n in names
    requires ArcsOk(adj, dist.Keys)
    requires Inv(adj, origin, dist, done)
    ensures var r := Settle(names, adj, dist, done);
      origin in r && r[origin] == Some(0) && Relaxed(adj, r) && Sound(adj, origin, r)
    decreases |dist.Keys - done|
  {
    match PickMin(names, dist, done)
    case None =>
      FinishedRelaxed(adj, origin, dist, done);
    case Some(u) =>
      var d1 := Relax(dist, dist[u].value, Out(adj, u));
      StepInv(adj, origin, dist, done, u);
      assert dist.Keys - (done + {u}) < dist.Keys - done;
      SettleCorrect(names, adj, origin, d1, done + {u});
  }

  /** A relaxed table bounds the end of every walk by the walk's weight. */
  lemma {:induction false} RelaxedBoundsWalks(adj: Adj, dist: Dist, u: string, steps: seq<Conn>)
    requires Relaxed(adj, dist)
    requires u in dist && dist[u].Some? && IsWalk(adj, u, steps)
    ensures WalkEnd(u, steps) in dist && AtMost(dist[WalkEnd(u, steps)], dist[u].value + WalkWeight(steps))
    decreases |steps|
  {
    if steps != [] {
      var c := steps[0];
      assert WalkEnd(c.to, steps[1..]) == WalkEnd(u, steps);
      RelaxedBoundsWalks(adj, dist, c.to, steps[1..]);
    }
  }

  /**
   A distance table is determined by its two defining properties: two
   tables over the same stations, both at 0 at the origin, both sound and
   both relaxed, are equal.
   */
  lemma DistancesUnique(adj: Adj, origin: string, d1: Dist, d2: Dist)
    requires d1.Keys == d2.Keys && origin in d1
    requires d1[origin] == Some(0) && d2[origin] == Some(0)
    requires Sound(adj, origin, d1) && Relaxed(adj, d1)
    requires Sound(adj, origin, d2) && Relaxed(adj, d2)
    ensures d1 == d2
  {
    forall v | v in d1 ensures d1[v] == d2[v] {
      if d1[v].Some? {
        SoundBelowRelaxed(adj, origin, d1, d2, v);
      }
      if d2[v].Some? {
        SoundBelowRelaxed(adj, origin, d2, d1, v);
      }
    }
  }

  /** A relaxed table is no farther than a sound one, station by station. */
  lemma SoundBelowRelaxed(adj: Adj, origin: string, sound: Dist, relaxed: Dist, v: string)
    requires Sound(adj, origin, sound) && Relaxed(adj, relaxed)
    requires origin in relaxed && relaxed[origin] == Some(0)
    requires v in sound && sound[v].Some?
    ensures v in relaxed && AtMost(relaxed[v], sound[v].value)
  {
    var steps :| IsWalk(adj, origin, steps) && WalkEnd(origin, steps) == v && WalkWeight(steps) == sound[v].value;
    RelaxedBoundsWalks(adj, relaxed, origin, steps);
  }

  /**
   Any table of distances over the same stations that starts at 0 at the
   origin, is the weight of a walk wherever finite, and is relaxed along
   every arc is the one Dijkstra's algorithm computes.
   */
  lemma ShortestDistancesCharacterised(names: seq<string>, adj: Adj, origin: string, d: Dist)
    requires origin in names
    requires ArcsOk(adj, set n | n in names)
    requires forall n :: n in d <==> n in names
    requires d[origin] == Some(0)
    requires Sound(adj, origin, d) && Relaxed(adj, d)
    ensures ShortestDistances(names, adj, origin) == d
  {
    var r := ShortestDistances(names, adj, origin);
    assert r.Keys == d.Keys;
    DistancesUnique(adj, origin, r, d);
  }

  /**
   Dijkstra's algorithm from `origin` (the distance phase of
   `todas_rutas_mas_rapidas`): every station has an entry, the origin is
   at 0, every finite distance is the weight of a walk to the station, no
   walk is lighter than its end's distance (so unreachable stations are
   exactly the infinite ones), and every arc leaving a reachable station
   is tight or slack, never violated.
   */
  function ShortestDistances(names: seq<string>, adj: Adj, origin: string): (r: Dist)
    requires origin in names
    requires ArcsOk(adj, set n | n in names)
    ensures forall n :: n in r <==> n in names
    ensures r[origin] == Some(0)
    ensures Sound(adj, origin, r)
    ensures Relaxed(adj, r)
    ensures forall steps :: IsWalk(adj, origin, steps) ==> WalkEnd(origin, steps) in r && AtMost(r[WalkEnd(origin, steps)], WalkWeight(steps))
  {
    var init := InitialDist(names, origin);
    assert init.Keys == set n | n in names;
    InitialInv(names, adj, origin);
    SettleCorrect(names, adj, origin, init, {});
    var r := Settle(names, adj, init, {});
    assert forall steps :: IsWalk(adj, origin, steps) ==> WalkEnd(origin, steps) in r && AtMost(r[WalkEnd(origin, steps)], WalkWeight(steps)) by {
      forall steps | IsWalk(adj, origin, steps) ensures WalkEnd(origin, steps) in r && AtMost(r[WalkEnd(origin, steps)], WalkWeight(steps)) {
        RelaxedBoundsWalks(adj, r, origin, steps);
      }
    }
    r
  }
}

=== FILE: enumeration.dfy ===
/**
 What the depth-first walk of the fastest-route query reports, stated
 against an independent reference: `Chains` lists every chain of
 predecessor links from the origin to a station, in the order the walk
 meets them. The walk reports exactly the first of those chains that fit
 under the cap, so below the cap it reports every one of them, and each
 only once when no predecessor list repeats a station.
 */
module Enumeration {
  import opened Seqs
  import opened Dijkstra
  import opened FastestRoutes

  // ---------------------------------------------------------------------
  // The reference enumeration
  // ---------------------------------------------------------------------

  /** Each chain of `cs` followed by the stations of `tail`. */
  function Extend(cs: seq<Path>, tail: Path): seq<Path>
  {
    seq(|cs|, i requires 0 <= i < |cs| => cs[i] + tail)
  }

  /** `paths` followed by as many of `more` as fit under the cap `m`; nothing is added once `paths` reaches it. */
  function Capped(paths: seq<Path>, more: seq<Path>, m: int): seq<Path>
  {
    if |paths| >= m then paths
    else if |paths| + |more| <= m then paths + more
    else paths + more[..m - |paths|]
  }

  /**
   Every chain of predecessor links from the origin to `cur`, origin
   first: the origin alone when `cur` is the origin, otherwise the chains
   to each predecessor of `cur` in predecessor order, each followed by `cur`.
   */
  function Chains(s: Search, cur: string): seq<Path>
    requires Ready(s) && cur in s.dist && s.dist[cur].Some?
    decreases s.dist[cur].value, 1, 0
  {
    if cur == s.origin then [[cur]]
    else Extend(ChainsVia(s, PredsOf(s.adj, s.dist, cur), cur), [cur])
  }

  /** The chains to each station of `ps` in turn, `ps` being predecessors of `cur`. */
  function ChainsVia(s: Search, ps: seq<string>, cur: string): seq<Path>
    requires Ready(s) && cur in s.dist && s.dist[cur].Some?
    requires forall p :: p in ps ==> p in PredsOf(s.adj, s.dist, cur)
    decreases s.dist[cur].value, 0, |ps|
  {
    if ps == [] then []
    else
      PredCloser(s, cur, ps[0]);
      Chains(s, ps[0]) + ChainsVia(s, ps[1..], cur)
  }

  // ---------------------------------------------------------------------
  // Small facts
  // ---------------------------------------------------------------------

  lemma ReverseSnoc(acc: seq<string>, cur: string)
    ensures Reverse(acc + [cur]) == [cur] + Reverse(acc)
  {
    var r := Reverse(acc + [cur]);
    assert |r| == |[cur] + Reverse(acc)|;
    forall i | 0 <= i < |r| ensures r[i] == ([cur] + Reverse(acc))[i] {
      if i > 0 {
        assert r[i] == (acc + [cur])[|acc| - i] == acc[|acc| - i];
      }
    }
  }

  lemma ExtendConcat(a: seq<Path>, b: seq<Path>, tail: Path)
    ensures Extend(a + b, tail) == Extend(a, tail) + Extend(b, tail)
  {
    assert |Extend(a + b, tail)| == |Extend(a, tail) + Extend(b, tail)|;
    forall i | 0 <= i < |a + b| ensures Extend(a + b, tail)[i] == (Extend(a, tail) + Extend(b, tail))[i] {
      if i >= |a| {
        assert (a + b)[i] == b[i - |a|];
      }
    }
  }

  lemma ExtendTwice(cs: seq<Path>, t1: Path, t2: Path)
    ensures Extend(Extend(cs, t1), t2) == Extend(cs, t1 + t2)
  {
    forall i | 0 <= i < |cs| ensures Extend(Extend(cs, t1), t2)[i] == Extend(cs, t1 + t2)[i] {
      assert cs[i] + t1 + t2 == cs[i] + (t1 + t2);
    }
  }

  lemma ExtendNothing(cs: seq<Path>)
    ensures Extend(cs, []) == cs
  {
    forall i | 0 <= i < |cs| ensures Extend(cs, [])[i] == cs[i] {
      assert cs[i] + [] == cs[i];
    }
  }

  /** Capping in two steps is capping the concatenation once. */
  lemma CappedAppend(paths: seq<Path>, a: seq<Path>, b: seq<Path>, m: int)
    ensures Capped(Capped(paths, a, m), b, m) == Capped(paths, a + b, m)
  {
    if |paths| < m {
      if |paths| + |a| <= m {
        assert paths + a + b == paths + (a + b);
        if |paths| + |a| < m && |paths| + |a| + |b| > m {
          assert (a + b)[..m - |paths|] == a + b[..m - |paths| - |a|];
          assert paths + a + b[..m - |paths| - |a|] == paths + (a + b)[..m - |paths|];
        } else if |paths| + |a| == m && b != [] {
          assert (a + b)[..m - |paths|] == a;
        }
      } else {
        assert (a + b)[..m - |paths|] == a[..m - |paths|];
      }
    }
  }

  // ---------------------------------------------------------------------
  // The walk reports the reference chains, capped
  // ---------------------------------------------------------------------

  /**
   The walk from `cur`, with `acc` the stations passed since the
   destination, reports the chains to `cur` continued back to the
   destination, in reference order, as many as fit under the cap.
   */
  lemma {:induction false} DfsIsCappedChains(s: Search, cur: string, acc: seq<string>, paths: seq<Path>)
    requires Ready(s) && cur in s.dist && s.dist[cur].Some?
    requires (acc + [cur])[0] == s.dest && BackChain(s, acc + [cur])
    ensures Dfs(s, cur, acc, paths) == Capped(paths, Extend(Chains(s, cur), Reverse(acc)), s.maxPaths)
    decreases s.dist[cur].value, 1, 0
  {
    ReverseSnoc(acc, cur);
    if |paths| < s.maxPaths {
      if cur == s.origin {
        assert Extend([[cur]], Reverse(acc)) == [[cur] + Reverse(acc)];
      } else {
        var ps := PredsOf(s.adj, s.dist, cur);
        DfsEachIsCappedChains(s, ps, acc + [cur], paths);
        ExtendTwice(ChainsVia(s, ps, cur), [cur], Reverse(acc));
      }
    }
  }

  lemma {:induction false} DfsEachIsCappedChains(s: Search, ps: seq<string>, acc: seq<string>, paths: seq<Path>)
    requires Ready(s) && |acc| >= 1 && acc[0] == s.dest && BackChain(s, acc)
    requires Last(acc) in s.dist && s.dist[Last(acc)].Some?
    requires forall p :: p in ps ==> p in PredsOf(s.adj, s.dist, Last(acc))
    ensures DfsEach(s, ps, acc, paths) == Capped(paths, Extend(ChainsVia(s, ps, Last(acc)), Reverse(acc)), s.maxPaths)
    decreases s.dist[Last(acc)].value, 0, |ps|
  {
    if ps != [] {
      var p := ps[0];
      var tail := Reverse(acc);
      PredCloser(s, Last(acc), p);
      var q := acc + [p];
      assert BackChain(s, q) by {
        forall i | 0 <= i < |q| - 1 ensures q[i + 1] in PredsOf(s.adj, s.dist, q[i]) {
          if i < |acc| - 1 {
            assert q[i] == acc[i] && q[i + 1] == acc[i + 1];
          }
        }
      }
      DfsIsCappedChains(s, p, acc, paths);
      var next := Dfs(s, p, acc, paths);
      DfsEachIsCappedChains(s, ps[1..], acc, next);
      CappedAppend(paths, Extend(Chains(s, p), tail), Extend(ChainsVia(s, ps[1..], Last(acc)), tail), s.maxPaths);
      ExtendConcat(Chains(s, p), ChainsVia(s, ps[1..], Last(acc)), tail);
    }
  }

  /** The walk from the destination reports the reference chains to the destination, as many as fit under the cap. */
  lemma DfsReportsChains(s: Search)
    requires Ready(s) && s.dest in s.dist && s.dist[s.dest].Some?
    ensures Dfs(s, s.dest, [], []) == Capped([], Chains(s, s.dest), s.maxPaths)
  {
    assert [] + [s.dest] == [s.dest];
    DfsIsCappedChains(s, s.dest, [], []);
    assert Reverse<string>([]) == [];
    ExtendNothing(Chains(s, s.dest));
  }

  // ---------------------------------------------------------------------
  // Every chain is listed
  // ---------------------------------------------------------------------

  /** Distances strictly grow along a chain of predecessor links. */
  lemma {:induction false} ChainRises(s: Search, p: Path)
    requires Ready(s) && |p| >= 2 && ForwardChain(s, p)
    ensures p[0] in s.dist && Last(p) in s.dist && s.dist[p[0]].Some? && s.dist[Last(p)].Some?
    ensures s.dist[p[0]].value < s.dist[Last(p)].value
    decreases |p|
  {
    PredCloser(s, p[1], p[0]);
    if |p| > 2 {
      ForwardChainTail(s, p);
      ChainRises(s, p[1..]);
      assert Last(p[1..]) == Last(p);
    }
  }

  lemma ForwardChainInit(s: Search, p: Path)
    requires |p| >= 1 && ForwardChain(s, p)
    ensures ForwardChain(s, p[..|p| - 1])
  {
    var init := p[..|p| - 1];
    forall i | 0 <= i < |init| - 1 ensures init[i] in PredsOf(s.adj, s.dist, init[i + 1]) {
      assert init[i] == p[i] && init[i + 1] == p[i + 1];
    }
  }

  /** A chain to a station of `ps` is among the chains via `ps`. */
  lemma {:induction false} ChainsViaHas(s: Search, ps: seq<string>, cur: string, u: string, c: Path)
    requires Ready(s) && cur in s.dist && s.dist[cur].Some?
    requires forall p :: p in ps ==> p in PredsOf(s.adj, s.dist, cur)
    requires u in ps && u in s.dist && s.dist[u].Some? && c in Chains(s, u)
    ensures c in ChainsVia(s, ps, cur)
    decreases |ps|
  {
    PredCloser(s, cur, ps[0]);
    if ps[0] != u {
      ChainsViaHas(s, ps[1..], cur, u, c);
    }
  }

  /** Every chain of predecessor links from the origin to `cur` is listed by `Chains`. */
  lemma {:induction false} ChainsComplete(s: Search, cur: string, p: Path)
    requires Ready(s) && cur in s.dist && s.dist[cur].Some?
    requires |p| >= 1 && p[0] == s.origin && Last(p) == cur && ForwardChain(s, p)
    ensures p in Chains(s, cur)
    decreases s.dist[cur].value
  {
    if cur == s.origin {
      if |p| >= 2 {
        ChainRises(s, p);
        assert false;
      }
      assert p == [cur];
    } else {
      var n := |p|;
      var u := p[n - 2];
      var init := p[..n - 1];
      var ps := PredsOf(s.adj, s.dist, cur);
      assert u in ps;
      PredCloser(s, cur, u);
      ForwardChainInit(s, p);
      assert Last(init) == u;
      ChainsComplete(s, u, init);
      ChainsViaHas(s, ps, cur, u, init);
      var via := ChainsVia(s, ps, cur);
      var k :| 0 <= k < |via| && via[k] == init;
      assert p == init + [cur];
      assert Extend(via, [cur])[k] == p;
    }
  }

  /**
   Below the cap the walk reports every fastest path it may report:
   every chain of predecessor links from the origin to the destination.
   */
  lemma DfsComplete(s: Search, p: Path)
    requires Ready(s) && s.dest in s.dist && s.dist[s.dest].Some?
    requires Found(s, p)
    ensures |Dfs(s, s.dest, [], [])| < s.maxPaths ==> p in Dfs(s, s.dest, [], [])
  {
    DfsReportsChains(s);
    ChainsComplete(s, s.dest, p);
  }

  // ---------------------------------------------------------------------
  // No chain is listed twice
  // ---------------------------------------------------------------------

  /** No predecessor list repeats a station. */
  ghost predicate PredsDistinct(s: Search)
  {
    forall v :: Distinct(PredsOf(s.adj, s.dist, v))
  }

  lemma ChainsEnd(s: Search, cur: string)
    requires Ready(s) && cur in s.dist && s.dist[cur].Some?
    ensures forall c :: c in Chains(s, cur) ==> |c| >= 1 && Last(c) == cur
  {
    if cur != s.origin {
      var via := ChainsVia(s, PredsOf(s.adj, s.dist, cur), cur);
      forall c | c in Chains(s, cur) ensures |c| >= 1 && Last(c) == cur {
        var k :| 0 <= k < |via| && Extend(via, [cur])[k] == c;
      }
    }
  }

  lemma {:induction false} ChainsViaEnds(s: Search, ps: seq<string>, cur: string)
    requires Ready(s) && cur in s.dist && s.dist[cur].Some?
    requires forall p :: p in ps ==> p in PredsOf(s.adj, s.dist, cur)
    ensures forall c :: c in ChainsVia(s, ps, cur) ==> |c| >= 1 && Last(c) in ps
    decreases |ps|
  {
    if ps != [] {
      PredCloser(s, cur, ps[0]);
      ChainsEnd(s, ps[0]);
      ChainsViaEnds(s, ps[1..], cur);
    }
  }

  lemma ExtendDistinct(cs: seq<Path>, tail: Path)
    requires Distinct(cs)
    ensures Distinct(Extend(cs, tail))
  {
    forall i, j | 0 <= i < j < |cs| ensures Extend(cs, tail)[i] != Extend(cs, tail)[j] {
      assert cs[i] == (cs[i] + tail)[..|cs[i]|];
      assert cs[j] == (cs[j] + tail)[..|cs[j]|];
    }
  }

  /** When no predecessor list repeats a station, no chain is listed twice. */
  lemma {:induction false} ChainsDistinct(s: Search, cur: string)
    requires Ready(s) && cur in s.dist && s.dist[cur].Some? && PredsDistinct(s)
    ensures Distinct(Chains(s, cur))
    decreases s.dist[cur].value, 1, 0
  {
    if cur != s.origin {
      var ps := PredsOf(s.adj, s.dist, cur);
      ChainsViaDistinct(s, ps, cur);
      ExtendDistinct(ChainsVia(s, ps, cur), [cur]);
    }
  }

  lemma {:induction false} ChainsViaDistinct(s: Search, ps: seq<string>, cur: string)
    requires Ready(s) && cur in s.dist && s.dist[cur].Some? && PredsDistinct(s)
    requires forall p :: p in ps ==> p in PredsOf(s.adj, s.dist, cur)
    requires Distinct(ps)
    ensures Distinct(ChainsVia(s, ps, cur))
    decreases s.dist[cur].value, 0, |ps|
  {
    if ps != [] {
      var p := ps[0];
      var rest := ps[1..];
      PredCloser(s, cur, p);
      assert Distinct(rest) by {
        forall i, j | 0 <= i < j < |rest| ensures rest[i] != rest[j] {
          assert rest[i] == ps[i + 1] && rest[j] == ps[j + 1];
        }
      }
      ChainsDistinct(s, p);
      ChainsViaDistinct(s, rest, cur);
      ChainsEnd(s, p);
      ChainsViaEnds(s, rest, cur);
      assert p !in rest;
      DistinctConcat(Chains(s, p), ChainsVia(s, rest, cur));
    }
  }

  lemma CappedDistinct(more: seq<Path>, m: int)
    requires Distinct(more)
    ensures Distinct(Capped([], more, m))
  {
    assert [] + more == more;
    if 0 < m < |more| {
      assert [] + more[..m] == more[..m];
    }
  }

  /** When no predecessor list repeats a station, the walk reports no path twice. */
  lemma DfsNoRepeats(s: Search)
    requires Ready(s) && s.dest in s.dist && s.dist[s.dest].Some? && PredsDistinct(s)
    ensures Distinct(Dfs(s, s.dest, [], []))
  {
    DfsReportsChains(s);
    ChainsDistinct(s, s.dest);
    CappedDistinct(Chains(s, s.dest), s.maxPaths);
  }
}

=== FILE: fastest_routes.dfy ===
/**
 The all-fastest-routes query (`todas_rutas_mas_rapidas`): Dijkstra's
 distances from the origin, then a predecessor table of tight arcs, then a
 depth-first walk back from the destination that lists every fastest path
 in a fixed order, stopping once `maxPaths` paths are found.
 */
module FastestRoutes {
  import opened Outcomes
  import opened Seqs
  import opened Stations
  import opened Networks
  import opened Adjacency
  import opened Dijkstra

  /** A path as the sequence of station names it visits. */
  type Path = seq<string>

  /** The query's answer: the fastest paths found and their common travel time (`None` when unreachable). */
  datatype Answer = Answer(paths: seq<Path>, total: Option<nat>)

  // ---------------------------------------------------------------------
  // Paths over the network's routes
  // ---------------------------------------------------------------------

  /** The time of the first route joining `x` and `y` (0 when there is none). */
  function WeightBetween(routes: seq<Route>, x: string, y: string): (r: int)
    ensures HasRoute(routes, x, y) ==> exists rt :: rt in routes && Joins(rt, x, y) && rt.w == r
  {
    if routes == [] then 0
    else if Joins(routes[0], x, y) then routes[0].w
    else
      assert forall rt :: rt in routes ==> rt == routes[0] || rt in routes[1..];
      WeightBetween(routes[1..], x, y)
  }

  /** With one route per pair, the time between two joined stations is that route's time. */
  lemma WeightBetweenUnique(routes: seq<Route>, rt: Route, x: string, y: string)
    requires RoutesUnique(routes) && rt in routes && Joins(rt, x, y)
    ensures WeightBetween(routes, x, y) == rt.w
  {
    var other :| other in routes && Joins(other, x, y) && other.w == WeightBetween(routes, x, y);
    var i :| 0 <= i < |routes| && routes[i] == rt;
    var j :| 0 <= j < |routes| && routes[j] == other;
    assert Joins(rt, x, y) && Joins(other, x, y);
    assert (rt.a == x && rt.b == y) || (rt.a == y && rt.b == x);
    assert Joins(other, rt.a, rt.b);
    if i < j {
      assert !Joins(routes[j], routes[i].a, routes[i].b);
    } else if j < i {
      assert !Joins(routes[i], routes[j].a, routes[j].b);
    }
  }

  /** A non-empty sequence of stations, each consecutive pair joined by a route. */
  predicate IsRoutePath(routes: seq<Route>, p: Path)
  {
    |p| >= 1 && forall i :: 0 <= i < |p| - 1 ==> HasRoute(routes, p[i], p[i + 1])
  }

  /** The total travel time along `p`. */
  function PathWeight(routes: seq<Route>, p: Path): int
  {
    if |p| <= 1 then 0 else WeightBetween(routes, p[0], p[1]) + PathWeight(routes, p[1..])
  }

  /** In a valid network every arc of the query's table leads to a station and takes positive time. */
  lemma AdjArcsOk(net: Network)
    requires Valid(net)
    ensures ArcsOk(BuildAdj(net.routes), set n | n in Names(net.stations))
  {
    var adj := BuildAdj(net.routes);
    forall u, c | c in Out(adj, u) ensures c.to in (set n | n in Names(net.stations)) && c.weight > 0 {
      var rt :| rt in net.routes && ArcOf(rt, u, c);
    }
  }

  // ---------------------------------------------------------------------
  // Predecessors
  // ---------------------------------------------------------------------

  /** The arc `u -> v` of weight `w` lies on a fastest path: both ends are reachable and it is tight. */
  predicate Tight(dist: Dist, u: string, v: string, w: int)
  {
    u in dist && v in dist && dist[u].Some? && dist[v].Some? && dist[u].value + w == dist[v].value
  }

  /** `u` once for every tight arc into `v` among `outs`, the arcs leaving `u`. */
  function TightFrom(u: string, outs: seq<Conn>, dist: Dist, v: string): seq<string>
  {
    if outs == [] then []
    else (if outs[0].to == v && Tight(dist, u, v, outs[0].weight) then [u] else []) + TightFrom(u, outs[1..], dist, v)
  }

  /** Only `u` is listed, and it is listed exactly when one of its arcs into `v` is tight. */
  lemma {:induction false} TightFromIff(u: string, outs: seq<Conn>, dist: Dist, v: string, p: string)
    ensures p in TightFrom(u, outs, dist, v) <==> p == u && exists c :: c in outs && c.to == v && Tight(dist, u, v, c.weight)
  {
    if outs != [] {
      TightFromIff(u, outs[1..], dist, v, p);
      assert forall c :: c in outs ==> c == outs[0] || c in outs[1..];
    }
  }

  /**
   `preds[v]`: the stations with a tight arc into `v`, in the order the
   source's table lists them (by adjacency key, then by arc).
   */
  function PredsOf(adj: Adj, dist: Dist, v: string): seq<string>
  {
    if adj == [] then [] else TightFrom(adj[0].from, adj[0].out, dist, v) + PredsOf(adj[1..], dist, v)
  }

  lemma {:induction false} PredsOfConcat(a: Adj, b: Adj, dist: Dist, v: string)
    ensures PredsOf(a + b, dist, v) == PredsOf(a, dist, v) + PredsOf(b, dist, v)
  {
    if a == [] {
      assert a + b == b;
    } else {
      assert (a + b)[0] == a[0] && (a + b)[1..] == a[1..] + b;
      PredsOfConcat(a[1..], b, dist, v);
    }
  }

  /** Every listed predecessor is a key of the table. */
  lemma {:induction false} PredsAreKeys(adj: Adj, dist: Dist, v: string, p: string)
    requires p in PredsOf(adj, dist, v)
    ensures HasKey(adj, p)
  {
    if adj != [] {
      TightFromIff(adj[0].from, adj[0].out, dist, v, p);
      if p !in TightFrom(adj[0].from, adj[0].out, dist, v) {
        PredsAreKeys(adj[1..], dist, v, p);
        var i :| 0 <= i < |adj[1..]| && adj[1..][i].from == p;
        assert adj[i + 1].from == p;
      } else {
        assert adj[0].from == p;
      }
    }
  }

  /** A station is listed as a predecessor of `v` exactly when it has a tight arc into `v`. */
  lemma {:induction false} PredsIff(adj: Adj, dist: Dist, v: string, p: string)
    requires KeysUnique(adj)
    ensures p in PredsOf(adj, dist, v) <==> exists c :: c in Out(adj, p) && c.to == v && Tight(dist, p, v, c.weight)
  {
    if adj != [] {
      assert KeysUnique(adj[1..]) by {
        forall i, j | 0 <= i < j < |adj[1..]| ensures adj[1..][i].from != adj[1..][j].from {
          assert adj[1..][i] == adj[i + 1] && adj[1..][j] == adj[j + 1];
        }
      }
      PredsIff(adj[1..], dist, v, p);
      TightFromIff(adj[0].from, adj[0].out, dist, v, p);
      if p != adj[0].from {
        assert Out(adj, p) == Out(adj[1..], p);
      } else {
        assert !HasKey(adj[1..], p);
        if p in PredsOf(adj[1..], dist, v) {
          PredsAreKeys(adj[1..], dist, v, p);
        }
      }
    }
  }

  /** The predecessors of `v` read key by key along `ks` from index `i`, each key once per tight arc into `v`. */
  function PredsAlong(ks: seq<string>, i: nat, adj: Adj, dist: Dist, v: string): seq<string>
    decreases |ks| - i
  {
    if i >= |ks| then [] else TightFrom(ks[i], Out(adj, ks[i]), dist, v) + PredsAlong(ks, i + 1, adj, dist, v)
  }

  lemma {:induction false} PredsOfFrom(adj: Adj, dist: Dist, v: string, i: nat)
    requires KeysUnique(adj) && i <= |adj|
    ensures PredsOf(adj[i..], dist, v) == PredsAlong(Keys(adj), i, adj, dist, v)
    decreases |adj| - i
  {
    if i < |adj| {
      assert adj[i..][0] == adj[i] && adj[i..][1..] == adj[i + 1..];
      OutOfEntry(adj, i);
      PredsOfFrom(adj, dist, v, i + 1);
    }
  }

  /**
   The order of `preds[v]`: the table's keys in table order, each listed
   once for every tight arc it has into `v`, in arc order.
   */
  lemma PredsOfByKeys(adj: Adj, dist: Dist, v: string)
    requires KeysUnique(adj)
    ensures PredsOf(adj, dist, v) == PredsAlong(Keys(adj), 0, adj, dist, v)
  {
    PredsOfFrom(adj, dist, v, 0);
    assert adj[0..] == adj;
  }

  // ---------------------------------------------------------------------
  // The depth-first enumeration
  // ---------------------------------------------------------------------

  /** What the depth-first walk reads: the table, the distances, the two ends and the cap. */
  datatype Search = Search(adj: Adj, dist: Dist, origin: string, dest: string, maxPaths: int)

  ghost predicate Ready(s: Search)
  {
    KeysUnique(s.adj) && ArcsOk(s.adj, s.dist.Keys)
  }

  /** A predecessor is strictly closer to the origin than the station it precedes. */
  lemma PredCloser(s: Search, v: string, p: string)
    requires Ready(s) && p in PredsOf(s.adj, s.dist, v)
    ensures p in s.dist && v in s.dist && s.dist[p].Some? && s.dist[v].Some?
    ensures s.dist[p].value < s.dist[v].value
  {
    PredsIff(s.adj, s.dist, v, p);
  }

  /** Each station of `q` after the first is a predecessor of the one before it. */
  ghost predicate BackChain(s: Search, q: seq<string>)
  {
    forall i :: 0 <= i < |q| - 1 ==> q[i + 1] in PredsOf(s.adj, s.dist, q[i])
  }

  /** Each station of `p` but the last is a predecessor of the one after it. */
  ghost predicate ForwardChain(s: Search, p: Path)
  {
    forall i :: 0 <= i < |p| - 1 ==> p[i] in PredsOf(s.adj, s.dist, p[i + 1])
  }

  /** `p` is a fastest path the walk may report: origin to destination along predecessor links. */
  ghost predicate Found(s: Search, p: Path)
  {
    |p| >= 1 && p[0] == s.origin && Last(p) == s.dest && ForwardChain(s, p)
  }

  lemma ReverseChain(s: Search, q: seq<string>)
    requires BackChain(s, q)
    ensures ForwardChain(s, Reverse(q))
  {
    var p := Reverse(q);
    forall i | 0 <= i < |p| - 1 ensures p[i] in PredsOf(s.adj, s.dist, p[i + 1]) {
      assert p[i] == q[|q| - 1 - i] && p[i + 1] == q[|q| - 1 - (i + 1)];
      assert q[|q| - 2 - i + 1] in PredsOf(s.adj, s.dist, q[|q| - 2 - i]);
    }
  }

  /** How many paths a walk may hold when it started holding `n`. */
  function Bound(n: nat, maxPaths: int): int
  {
    if n >= maxPaths then n else maxPaths
  }

  /**
   The inner depth-first walk from `cur` back towards the origin, `acc` the
   stations passed so far: once the cap is reached nothing is added; at the origin
   the reversed chain is reported; otherwise each predecessor is explored
   in order. Reported paths are appended and each is a fastest path.
   */
  function Dfs(s: Search, cur: string, acc: seq<string>, paths: seq<Path>): (r: seq<Path>)
    requires Ready(s) && cur in s.dist && s.dist[cur].Some?
    requires (acc + [cur])[0] == s.dest && BackChain(s, acc + [cur])
    ensures paths <= r
    ensures |paths| >= s.maxPaths ==> r == paths
    ensures |r| <= Bound(|paths|, s.maxPaths)
    ensures forall i :: |paths| <= i < |r| ==> Found(s, r[i])
    decreases s.dist[cur].value, 1, 0
  {
    if |paths| >= s.maxPaths then paths
    else if cur == s.origin then
      var q := acc + [cur];
      ReverseChain(s, q);
      var p := Reverse(q);
      assert p[0] == q[|q| - 1] && p[|p| - 1] == q[0];
      paths + [p]
    else
      DfsEach(s, PredsOf(s.adj, s.dist, cur), acc + [cur], paths)
  }

  /** The walk continued from each predecessor in `ps` in turn, with `acc` already ending in `cur`. */
  function DfsEach(s: Search, ps: seq<string>, acc: seq<string>, paths: seq<Path>): (r: seq<Path>)
    requires Ready(s) && |acc| >= 1 && acc[0] == s.dest && BackChain(s, acc)
    requires Last(acc) in s.dist && s.dist[Last(acc)].Some?
    requires forall p :: p in ps ==> p in PredsOf(s.adj, s.dist, Last(acc))
    ensures paths <= r
    ensures |paths| >= s.maxPaths ==> r == paths
    ensures |r| <= Bound(|paths|, s.maxPaths)
    ensures forall i :: |paths| <= i < |r| ==> Found(s, r[i])
    decreases s.dist[Last(acc)].value, 0, |ps|
  {
    if ps == [] then paths
    else
      var p := ps[0];
      PredCloser(s, Last(acc), p);
      var q := acc + [p];
      assert BackChain(s, q) by {
        forall i | 0 <= i < |q| - 1 ensures q[i + 1] in PredsOf(s.adj, s.dist, q[i]) {
          if i < |acc| - 1 {
            assert q[i] == acc[i] && q[i + 1] == acc[i + 1];
          }
        }
      }
      var next := Dfs(s, p, acc, paths);
      var r := DfsEach(s, ps[1..], acc, next);
      assert forall i :: |paths| <= i < |next| ==> r[i] == next[i];
      r
  }

  // ---------------------------------------------------------------------
  // The query
  // ---------------------------------------------------------------------

  /** A predecessor link is a route whose time is the distance gained across it. */
  lemma PredIsRoute(routes: seq<Route>, s: Search, u: string, v: string)
    requires RoutesUnique(routes) && s.adj == BuildAdj(routes) && KeysUnique(s.adj)
    requires u in PredsOf(s.adj, s.dist, v)
    ensures HasRoute(routes, u, v)
    ensures Tight(s.dist, u, v, WeightBetween(routes, u, v))
  {
    PredsIff(s.adj, s.dist, v, u);
    var c :| c in Out(s.adj, u) && c.to == v && Tight(s.dist, u, v, c.weight);
    var rt :| rt in routes && ArcOf(rt, u, c);
    WeightBetweenUnique(routes, rt, u, v);
  }

  lemma ForwardChainTail(s: Search, p: Path)
    requires |p| >= 1 && ForwardChain(s, p)
    ensures ForwardChain(s, p[1..])
  {
    forall i | 0 <= i < |p[1..]| - 1 ensures p[1..][i] in PredsOf(s.adj, s.dist, p[1..][i + 1]) {
      assert p[1..][i] == p[i + 1] && p[1..][i + 1] == p[i + 2];
    }
  }

  lemma RoutePathCons(routes: seq<Route>, p: Path)
    requires |p| >= 2 && HasRoute(routes, p[0], p[1]) && IsRoutePath(routes, p[1..])
    ensures IsRoutePath(routes, p)
  {
    forall i | 0 <= i < |p| - 1 ensures HasRoute(routes, p[i], p[i + 1]) {
      if i > 0 {
        assert p[i] == p[1..][i - 1] && p[i + 1] == p[1..][i];
      }
    }
  }

  /** A predecessor chain is a route path whose time is the distance gained along it. */
  lemma {:induction false} ChainIsRoutePath(routes: seq<Route>, s: Search, p: Path)
    requires RoutesUnique(routes) && s.adj == BuildAdj(routes) && KeysUnique(s.adj)
    requires |p| >= 1 && ForwardChain(s, p)
    requires p[0] in s.dist && s.dist[p[0]].Some?
    ensures IsRoutePath(routes, p)
    ensures Last(p) in s.dist && s.dist[Last(p)].Some?
    ensures s.dist[Last(p)].value == s.dist[p[0]].value + PathWeight(routes, p)
  {
    if |p| > 1 {
      PredIsRoute(routes, s, p[0], p[1]);
      ForwardChainTail(s, p);
      ChainIsRoutePath(routes, s, p[1..]);
      assert Last(p[1..]) == Last(p);
      RoutePathCons(routes, p);
    }
  }

  /** A reported path is a route path whose time is the destination's distance. */
  lemma FoundIsRoutePath(routes: seq<Route>, s: Search, p: Path)
    requires RoutesUnique(routes) && s.adj == BuildAdj(routes) && KeysUnique(s.adj)
    requires s.origin in s.dist && s.dist[s.origin] == Some(0)
    requires Found(s, p)
    ensures IsRoutePath(routes, p) && p[0] == s.origin && Last(p) == s.dest
    ensures s.dest in s.dist && s.dist[s.dest] == Some(PathWeight(routes, p))
  {
    ChainIsRoutePath(routes, s, p);
  }

  /** From the origin itself, the walk reports the one-station path. */
  lemma DfsAtOrigin(s: Search)
    requires Ready(s) && s.origin == s.dest && s.maxPaths >= 1
    requires s.dest in s.dist && s.dist[s.dest].Some?
    ensures Dfs(s, s.dest, [], []) == [[s.origin]]
  {
    assert [] + [s.dest] == [s.dest];
    assert Reverse([s.dest]) == [s.dest];
  }

  /** The query over a route list and the station names, with the facts a valid network provides as preconditions. */
  function FastestOver(routes: seq<Route>, names: seq<string>, origin: string, dest: string, maxPaths: int): (r: Answer)
    requires RoutesUnique(routes) && ArcsOk(BuildAdj(routes), set n | n in names)
    requires origin in names && dest in names
    ensures r.total.None? ==> r.paths == []
    ensures |r.paths| <= if maxPaths > 0 then maxPaths else 0
    ensures forall p :: p in r.paths ==>
      IsRoutePath(routes, p) && p[0] == origin && Last(p) == dest && r.total == Some(PathWeight(routes, p))
    ensures origin == dest && maxPaths >= 1 ==> r == Answer([[origin]], Some(0))
  {
    var adj := BuildAdj(routes);
    var dist := ShortestDistances(names, adj, origin);
    assert dist.Keys == set n | n in names;
    if dist[dest].None? then Answer([], None)
    else
      var s := Search(adj, dist, origin, dest, maxPaths);
      var paths := Dfs(s, dest, [], []);
      forall p | p in paths
        ensures IsRoutePath(routes, p) && p[0] == origin && Last(p) == dest
        ensures dist[dest] == Some(PathWeight(routes, p))
      {
        var i :| 0 <= i < |paths| && paths[i] == p;
        FoundIsRoutePath(routes, s, p);
      }
      if origin == dest && maxPaths >= 1 then DfsAtOrigin(s); Answer(paths, dist[dest])
      else Answer(paths, dist[dest])
  }

  /** The query's search is ready, its time is the destination's distance, and a reachable destination's paths are the search's. */
  lemma FastestOverSearch(routes: seq<Route>, names: seq<string>, origin: string, dest: string, maxPaths: int)
    requires RoutesUnique(routes) && ArcsOk(BuildAdj(routes), set n | n in names)
    requires origin in names && dest in names
    ensures var dist := ShortestDistances(names, BuildAdj(routes), origin);
      && dest in dist
      && Ready(Search(BuildAdj(routes), dist, origin, dest, maxPaths))
      && FastestOver(routes, names, origin, dest, maxPaths).total == dist[dest]
      && (dist[dest].Some? ==>
            FastestOver(routes, names, origin, dest, maxPaths) == Answer(Dfs(Search(BuildAdj(routes), dist, origin, dest, maxPaths), dest, [], []), dist[dest]))
  {
    var dist := ShortestDistances(names, BuildAdj(routes), origin);
    assert dist.Keys == set n | n in names;
  }

  /**
   `todas_rutas_mas_rapidas`: an unreachable destination gives no paths
   and no time; otherwise at most `maxPaths` paths, each a route path from
   the origin to the destination whose travel time is the reported total.
   When the origin is the destination the answer is that one station at
   time 0.
   */
  function AllFastestRoutes(net: Network, origin: string, dest: string, maxPaths: int): (r: Answer)
    requires Valid(net) && origin in Names(net.stations) && dest in Names(net.stations)
    ensures r.total.None? ==> r.paths == []
    ensures |r.paths| <= if maxPaths > 0 then maxPaths else 0
    ensures forall p :: p in r.paths ==>
      IsRoutePath(net.routes, p) && p[0] == origin && Last(p) == dest && r.total == Some(PathWeight(net.routes, p))
    ensures origin == dest && maxPaths >= 1 ==> r == Answer([[origin]], Some(0))
  {
    AdjArcsOk(net);
    FastestOver(net.routes, Names(net.stations), origin, dest, maxPaths)
  }
}

=== FILE: network.dfy ===
/**
 The transport network (the source's `RedDeTransporte`): an ordered list of
 stations and a list of undirected weighted routes, kept so that every
 route is mirrored in both endpoints' adjacency lists and every adjacency
 entry comes from a route.
 */
module Networks {
  import opened Outcomes
  import opened Seqs
  import opened Stations

  /** An undirected route between the stations named `a` and `b` with travel time `w`. */
  datatype Route = Route(a: string, b: string, w: int)

  datatype Network = Network(stations: seq<Station>, routes: seq<Route>)

  const EmptyNetwork: Network := Network([], [])

  /** The station names, in insertion order. */
  function Names(ss: seq<Station>): (r: seq<string>)
    ensures |r| == |ss|
    ensures forall i :: 0 <= i < |ss| ==> r[i] == ss[i].name
  {
    if ss == [] then [] else [ss[0].name] + Names(ss[1..])
  }

  /** `r` connects `x` and `y`, in either orientation. */
  predicate Joins(r: Route, x: string, y: string)
  {
    (r.a == x && r.b == y) || (r.a == y && r.b == x)
  }

  predicate HasRoute(routes: seq<Route>, x: string, y: string)
  {
    exists r :: r in routes && Joins(r, x, y)
  }

  /** `e` is an endpoint of `r`. */
  predicate Touches(r: Route, e: string)
  {
    r.a == e || r.b == e
  }

  // ---------------------------------------------------------------------
  // The network invariant
  // ---------------------------------------------------------------------

  predicate UniqueNames(ss: seq<Station>)
  {
    forall i, j :: 0 <= i < j < |ss| ==> ss[i].name != ss[j].name
  }

  /** Every route joins two distinct stations of the network with a positive time. */
  predicate RoutesWellFormed(net: Network)
  {
    forall r :: r in net.routes ==>
      r.a in Names(net.stations) && r.b in Names(net.stations) && r.a != r.b && r.w > 0
  }

  /** At most one route per unordered pair of stations. */
  predicate RoutesUnique(routes: seq<Route>)
  {
    forall i, j :: 0 <= i < j < |routes| ==> !Joins(routes[j], routes[i].a, routes[i].b)
  }

  predicate ConnsUnique(net: Network)
  {
    forall s :: s in net.stations ==> NeighboursUnique(s.conns)
  }

  /** Every route appears in both of its endpoints' adjacency lists. */
  predicate Mirrored(net: Network)
  {
    forall r, s :: r in net.routes && s in net.stations ==>
      (s.name == r.a ==> Conn(r.b, r.w) in s.conns) && (s.name == r.b ==> Conn(r.a, r.w) in s.conns)
  }

  /** Every adjacency entry comes from a route. */
  predicate Backed(net: Network)
  {
    forall s, c :: s in net.stations && c in s.conns ==>
      Route(s.name, c.to, c.weight) in net.routes || Route(c.to, s.name, c.weight) in net.routes
  }

  predicate Valid(net: Network)
  {
    && UniqueNames(net.stations)
    && RoutesWellFormed(net)
    && RoutesUnique(net.routes)
    && ConnsUnique(net)
    && Mirrored(net)
    && Backed(net)
  }

  lemma EmptyNetworkValid()
    ensures Valid(EmptyNetwork)
  {
  }

  // ---------------------------------------------------------------------
  // Updating the station with a given name
  // ---------------------------------------------------------------------

  /** `ss` with the station named `x` given a connection to `y` of weight `w`. */
  function ConnectAt(ss: seq<Station>, x: string, y: string, w: int): (r: seq<Station>)
    ensures Names(r) == Names(ss)
  {
    var r := seq(|ss|, i requires 0 <= i < |ss| => if ss[i].name == x then AddConnection(ss[i], y, w) else ss[i]);
    assert Names(r) == Names(ss);
    r
  }

  /** `ss` with the station named `x` no longer connected to `y`. */
  function DisconnectAt(ss: seq<Station>, x: string, y: string): (r: seq<Station>)
    ensures Names(r) == Names(ss)
  {
    var r := seq(|ss|, i requires 0 <= i < |ss| => if ss[i].name == x then RemoveConnection(ss[i], y) else ss[i]);
    assert Names(r) == Names(ss);
    r
  }

  /** Disconnecting `a` from `b` and then `b` from `a` changes exactly the stations named `a` and `b`. */
  lemma DisconnectBoth(ss: seq<Station>, a: string, b: string)
    ensures var r := DisconnectAt(DisconnectAt(ss, a, b), b, a);
      |r| == |ss| &&
      forall i :: 0 <= i < |ss| ==>
        r[i] == (if ss[i].name == a then RemoveConnection(ss[i], b)
                 else if ss[i].name == b then RemoveConnection(ss[i], a)
                 else ss[i])
  {
    var r := DisconnectAt(DisconnectAt(ss, a, b), b, a);
    forall i | 0 <= i < |ss|
      ensures r[i] == (if ss[i].name == a then RemoveConnection(ss[i], b)
                       else if ss[i].name == b then RemoveConnection(ss[i], a)
                       else ss[i])
    {
      var s1 := DisconnectAt(ss, a, b)[i];
      assert s1 == if ss[i].name == a then RemoveConnection(ss[i], b) else ss[i];
      assert r[i] == if s1.name == b then RemoveConnection(s1, a) else s1;
    }
  }

  /** The stations other than `e`, each with its entries for `e` dropped. */
  function Detach(ss: seq<Station>, e: string): (r: seq<Station>)
    ensures |r| <= |ss|
  {
    if ss == [] then []
    else (if ss[0].name == e then [] else [RemoveConnection(ss[0], e)]) + Detach(ss[1..], e)
  }

  /** The detached stations are exactly the other stations, each with its entries for `e` dropped. */
  lemma {:induction false} DetachMembers(ss: seq<Station>, e: string)
    ensures forall t :: t in Detach(ss, e) ==> exists s :: s in ss && s.name != e && t == RemoveConnection(s, e)
    ensures forall s :: s in ss && s.name != e ==> RemoveConnection(s, e) in Detach(ss, e)
  {
    if ss != [] {
      DetachMembers(ss[1..], e);
      assert forall s :: s in ss ==> s == ss[0] || s in ss[1..];
      assert forall s :: s in ss[1..] ==> s in ss;
    }
  }

  lemma {:induction false} DetachIsMapKept(ss: seq<Station>, e: string)
    ensures Detach(ss, e) == MapKept(ss, (s: Station) => s.name != e, (s: Station) => RemoveConnection(s, e))
  {
    if ss != [] {
      DetachIsMapKept(ss[1..], e);
    }
  }

  /** Detaching acts on each part of a split of the station list on its own, so the survivors keep their order. */
  lemma DetachConcat(a: seq<Station>, b: seq<Station>, e: string)
    ensures Detach(a + b, e) == Detach(a, e) + Detach(b, e)
  {
    DetachIsMapKept(a + b, e);
    DetachIsMapKept(a, e);
    DetachIsMapKept(b, e);
    MapKeptConcat(a, b, (s: Station) => s.name != e, (s: Station) => RemoveConnection(s, e));
  }

  /** Detaching `e` keeps exactly the other names. */
  lemma {:induction false} DetachNames(ss: seq<Station>, e: string)
    ensures forall n :: n in Names(Detach(ss, e)) <==> n in Names(ss) && n != e
  {
    if ss != [] {
      DetachNames(ss[1..], e);
      var head := if ss[0].name == e then [] else [RemoveConnection(ss[0], e)];
      var rest := Detach(ss[1..], e);
      assert Detach(ss, e) == head + rest;
      assert Names(ss) == [ss[0].name] + Names(ss[1..]);
      NamesConcat(head, rest);
    }
  }

  /** Detaching a station keeps the remaining names unique. */
  lemma {:induction false} DetachUnique(ss: seq<Station>, e: string)
    requires UniqueNames(ss)
    ensures UniqueNames(Detach(ss, e))
  {
    if ss != [] {
      DetachUnique(ss[1..], e);
      DetachNames(ss[1..], e);
      var head := if ss[0].name == e then [] else [RemoveConnection(ss[0], e)];
      var rest := Detach(ss[1..], e);
      assert Detach(ss, e) == head + rest;
      assert ss[0].name !in Names(ss[1..]);
      UniqueNamesCons(head, rest);
    }
  }

  lemma NamesConcat(a: seq<Station>, b: seq<Station>)
    ensures Names(a + b) == Names(a) + Names(b)
  {
  }

  lemma UniqueNamesCons(head: seq<Station>, rest: seq<Station>)
    requires |head| <= 1 && UniqueNames(rest)
    requires forall s :: s in head ==> s.name !in Names(rest)
    ensures UniqueNames(head + rest)
  {
    if |head| == 1 {
      forall i, j | 0 <= i < j < |head + rest|
        ensures (head + rest)[i].name != (head + rest)[j].name
      {
        if i == 0 {
          assert (head + rest)[j] == rest[j - 1];
          assert Names(rest)[j - 1] == rest[j - 1].name;
        } else {
          assert (head + rest)[i] == rest[i - 1];
          assert (head + rest)[j] == rest[j - 1];
        }
      }
    } else {
      assert head + rest == rest;
    }
  }

  // ---------------------------------------------------------------------
  // Network operations
  // ---------------------------------------------------------------------

  /**
   Adds `s` unless it is already in the network (`agregar_estacion`); the
   routes are untouched and the existing stations keep their order.
   */
  function AddStation(net: Network, s: Station): (r: Network)
    ensures s in r.stations
    ensures r.routes == net.routes
    ensures net.stations <= r.stations && |r.stations| <= |net.stations| + 1
    ensures s in net.stations ==> r == net
  {
    if s in net.stations then net else net.(stations := net.stations + [s])
  }

  /** Adding a station twice is the same as adding it once. */
  lemma AddStationIdempotent(net: Network, s: Station)
    ensures AddStation(AddStation(net, s), s) == AddStation(net, s)
  {
  }

  /**
   Removes the station named `e` (`eliminar_estacion`) together with every
   route touching it and every other station's entry for it; an absent
   station leaves the network unchanged.
   */
  function RemoveStation(net: Network, e: string): (r: Network)
    ensures e !in Names(r.stations)
    ensures forall n :: n in Names(r.stations) <==> n in Names(net.stations) && n != e
    ensures e !in Names(net.stations) ==> r == net
    ensures e in Names(net.stations) ==>
      && (forall rt :: rt in r.routes <==> rt in net.routes && !Touches(rt, e))
      && (forall s :: s in r.stations ==> !Lists(s.conns, e))
  {
    if e in Names(net.stations) then
      DetachNames(net.stations, e);
      DetachMembers(net.stations, e);
      Network(Detach(net.stations, e), Filter(net.routes, (rt: Route) => !Touches(rt, e)))
    else net
  }

  /**
   Removing a present station detaches the stations and filters the routes
   part by part: for any split of either list, the result is the parts'
   results joined, so the survivors keep their original order.
   */
  lemma RemoveStationConcat(net: Network, e: string, xs: seq<Station>, ys: seq<Station>, rs1: seq<Route>, rs2: seq<Route>)
    requires e in Names(net.stations) && net.stations == xs + ys && net.routes == rs1 + rs2
    ensures RemoveStation(net, e).stations == Detach(xs, e) + Detach(ys, e)
    ensures RemoveStation(net, e).routes == RemoveStation(net.(routes := rs1), e).routes + RemoveStation(net.(routes := rs2), e).routes
  {
    var keep := (rt: Route) => !Touches(rt, e);
    DetachConcat(xs, ys, e);
    FilterConcat(rs1, rs2, keep);
    assert RemoveStation(net, e).routes == Filter(rs1 + rs2, keep);
    assert RemoveStation(net.(routes := rs1), e).routes == Filter(rs1, keep);
    assert RemoveStation(net.(routes := rs2), e).routes == Filter(rs2, keep);
  }

  /**
   Adds the route `a`-`b` with time `w` unless the pair is already joined in
   either orientation (`agregar_ruta`), and records it in both endpoints'
   adjacency lists. Existing routes are kept in order and the station names
   do not change.
   */
  function AddRoute(net: Network, a: string, b: string, w: int): (r: Network)
    ensures HasRoute(r.routes, a, b)
    ensures net.routes <= r.routes && |r.routes| <= |net.routes| + 1
    ensures HasRoute(net.routes, a, b) ==> r == net
    ensures !HasRoute(net.routes, a, b) ==> Last(r.routes) == Route(a, b, w)
    ensures Names(r.stations) == Names(net.stations)
    ensures forall i :: 0 <= i < |r.stations| ==> r.stations[i].id == net.stations[i].id
  {
    if HasRoute(net.routes, a, b) then net
    else
      var r := Route(a, b, w);
      assert r in net.routes + [r] && Joins(r, a, b);
      Network(ConnectAt(ConnectAt(net.stations, a, b, w), b, a, w), net.routes + [r])
  }

  /**
   Removes the route joining `a` and `b` whichever way round it was stored
   (`eliminar_ruta`), from the route list and from both endpoints'
   adjacency lists; every other route is kept.
   */
  function RemoveRoute(net: Network, a: string, b: string): (r: Network)
    ensures !HasRoute(r.routes, a, b)
    ensures forall rt :: rt in r.routes <==> rt in net.routes && !Joins(rt, a, b)
    ensures forall s :: s in r.stations && s.name == a ==> !Lists(s.conns, b)
    ensures forall s :: s in r.stations && s.name == b ==> !Lists(s.conns, a)
    ensures Names(r.stations) == Names(net.stations)
    ensures forall i :: 0 <= i < |net.stations| ==>
      r.stations[i] == (if net.stations[i].name == a then RemoveConnection(net.stations[i], b)
                        else if net.stations[i].name == b then RemoveConnection(net.stations[i], a)
                        else net.stations[i])
  {
    var ss := DisconnectAt(DisconnectAt(net.stations, a, b), b, a);
    var routes := Filter(net.routes, (rt: Route) => !Joins(rt, a, b));
    DisconnectBoth(net.stations, a, b);
    forall s | s in ss && (s.name == a || s.name == b)
      ensures s.name == a ==> !Lists(s.conns, b)
      ensures s.name == b ==> !Lists(s.conns, a)
    {
      var i :| 0 <= i < |ss| && ss[i] == s;
      assert Names(ss)[i] == Names(net.stations)[i];
    }
    Network(ss, routes)
  }

  /** Route removal acts on each part of a split of the route list on its own, so the other routes keep their order. */
  lemma RemoveRouteConcat(net: Network, a: string, b: string, rs1: seq<Route>, rs2: seq<Route>)
    requires net.routes == rs1 + rs2
    ensures RemoveRoute(net, a, b).routes == RemoveRoute(net.(routes := rs1), a, b).routes + RemoveRoute(net.(routes := rs2), a, b).routes
  {
    var keep := (rt: Route) => !Joins(rt, a, b);
    FilterConcat(rs1, rs2, keep);
    assert RemoveRoute(net, a, b).routes == Filter(rs1 + rs2, keep);
    assert RemoveRoute(net.(routes := rs1), a, b).routes == Filter(rs1, keep);
    assert RemoveRoute(net.(routes := rs2), a, b).routes == Filter(rs2, keep);
  }

  /** The stored orientation of a route does not matter to `AddRoute`: adding the
      reversed pair after the route exists changes nothing, so the first weight stays. */
  lemma AddRouteEitherOrientation(net: Network, a: string, b: string, w: int, w2: int)
    ensures AddRoute(AddRoute(net, a, b, w), b, a, w2) == AddRoute(net, a, b, w)
    ensures HasRoute(net.routes, a, b) <==> HasRoute(net.routes, b, a)
    ensures !HasRoute(net.routes, a, b) ==>
      forall rt :: rt in AddRoute(AddRoute(net, a, b, w), b, a, w2).routes && Joins(rt, b, a) ==> rt == Route(a, b, w)
  {
    var once := AddRoute(net, a, b, w);
    var r :| r in once.routes && Joins(r, a, b);
    assert Joins(r, b, a);
    if HasRoute(net.routes, a, b) {
      var x :| x in net.routes && Joins(x, a, b);
      assert Joins(x, b, a);
    }
    if HasRoute(net.routes, b, a) {
      var x :| x in net.routes && Joins(x, b, a);
      assert Joins(x, a, b);
    }
  }

  lemma {:induction false} FilterSameTest(routes: seq<Route>, a: string, b: string)
    ensures Filter(routes, (rt: Route) => !Joins(rt, a, b)) == Filter(routes, (rt: Route) => !Joins(rt, b, a))
  {
    if routes != [] {
      FilterSameTest(routes[1..], a, b);
    }
  }

  /** Removing a route does not depend on the orientation it is named in. */
  lemma RemoveRouteEitherOrientation(net: Network, a: string, b: string)
    ensures RemoveRoute(net, a, b) == RemoveRoute(net, b, a)
  {
    var r1 := RemoveRoute(net, a, b);
    var r2 := RemoveRoute(net, b, a);
    FilterSameTest(net.routes, a, b);
    assert r1.routes == r2.routes;
    forall i | 0 <= i < |net.stations|
      ensures r1.stations[i] == r2.stations[i]
    {
      var s := net.stations[i];
      assert DisconnectAt(net.stations, a, b)[i] == if s.name == a then RemoveConnection(s, b) else s;
      assert DisconnectAt(net.stations, b, a)[i] == if s.name == b then RemoveConnection(s, a) else s;
    }
    assert r1.stations == r2.stations;
  }

  /** The id the editor gives a new station: one more than the largest id in use. */
  function NextId(ss: seq<Station>): (r: int)
    ensures forall s :: s in ss ==> s.id < r
    ensures ss == [] ==> r == 1
    ensures ss != [] ==> exists s :: s in ss && s.id == r - 1
  {
    if ss == [] then 1
    else
      var rest := NextId(ss[1..]);
      assert forall s :: s in ss ==> s == ss[0] || s in ss[1..];
      if ss[1..] == [] || ss[0].id >= rest - 1 then ss[0].id + 1 else rest
  }
}

=== FILE: network_invariant.dfy ===
/**
 Every network operation keeps the invariant `Valid`: unique station names,
 well-formed and pairwise-distinct routes, duplicate-free adjacency lists,
 and route list and adjacency lists that mirror each other.
 */
module NetworkInvariant {
  import opened Seqs
  import opened Stations
  import opened Networks

  /** A station that lists `x` does so because some route joins it to `x`. */
  lemma ListedOnlyWithRoute(net: Network, s: Station, x: string)
    requires Backed(net) && s in net.stations && Lists(s.conns, x)
    ensures HasRoute(net.routes, s.name, x)
  {
    var c :| c in s.conns && c.to == x;
    if Route(s.name, c.to, c.weight) in net.routes {
      assert Joins(Route(s.name, c.to, c.weight), s.name, x);
    } else {
      assert Joins(Route(c.to, s.name, c.weight), s.name, x);
    }
  }

  lemma RoutesUniqueCons(r: Route, rest: seq<Route>)
    requires RoutesUnique(rest)
    requires forall x :: x in rest ==> !Joins(x, r.a, r.b)
    ensures RoutesUnique([r] + rest)
  {
    var all := [r] + rest;
    forall i, j | 0 <= i < j < |all|
      ensures !Joins(all[j], all[i].a, all[i].b)
    {
      assert all[j] == rest[j - 1];
      if i > 0 {
        assert all[i] == rest[i - 1];
      } else {
        assert all[j] in rest;
      }
    }
  }

  lemma {:induction false} RoutesUniqueFilter(routes: seq<Route>, keep: Route -> bool)
    requires RoutesUnique(routes)
    ensures RoutesUnique(Filter(routes, keep))
  {
    if routes != [] {
      var rest := routes[1..];
      assert RoutesUnique(rest) by {
        forall i, j | 0 <= i < j < |rest|
          ensures !Joins(rest[j], rest[i].a, rest[i].b)
        {
          assert rest[i] == routes[i + 1] && rest[j] == routes[j + 1];
        }
      }
      RoutesUniqueFilter(rest, keep);
      var f := Filter(rest, keep);
      if keep(routes[0]) {
        assert Filter(routes, keep) == [routes[0]] + f;
        forall x | x in f
          ensures !Joins(x, routes[0].a, routes[0].b)
        {
          var j :| 0 <= j < |rest| && rest[j] == x;
          assert routes[j + 1] == x;
        }
        RoutesUniqueCons(routes[0], f);
      } else {
        assert Filter(routes, keep) == [] + f;
      }
    }
  }

  // ---------------------------------------------------------------------
  // AddStation
  // ---------------------------------------------------------------------

  /** Adding a fresh, unconnected station (or one already present) keeps the invariant. */
  lemma AddStationValid(net: Network, s: Station)
    requires Valid(net)
    requires s in net.stations || (s.name !in Names(net.stations) && s.conns == [])
    ensures Valid(AddStation(net, s))
  {
    if s !in net.stations {
      var r := AddStation(net, s);
      assert r.stations == net.stations + [s];
      NamesConcat(net.stations, [s]);
      assert forall n :: n in Names(r.stations) <==> n in Names(net.stations) || n == s.name;
      forall i, j | 0 <= i < j < |r.stations|
        ensures r.stations[i].name != r.stations[j].name
      {
        if j == |net.stations| {
          assert Names(net.stations)[i] == net.stations[i].name;
        }
      }
      assert forall t :: t in r.stations ==> t in net.stations || t == s;
    }
  }

  /** Two station lists with the same names agree on name uniqueness. */
  lemma UniqueNamesSameNames(ss: seq<Station>, tt: seq<Station>)
    requires Names(ss) == Names(tt) && UniqueNames(ss)
    ensures UniqueNames(tt)
  {
    forall i, j | 0 <= i < j < |tt|
      ensures tt[i].name != tt[j].name
    {
      assert Names(tt)[i] == ss[i].name && Names(tt)[j] == ss[j].name;
    }
  }

  // ---------------------------------------------------------------------
  // AddRoute
  // ---------------------------------------------------------------------

  /** What `AddRoute` does to the station at index `i` when the route is new. */
  lemma AddRouteAt(net: Network, a: string, b: string, w: int, i: int)
    requires Backed(net) && ConnsUnique(net) && !HasRoute(net.routes, a, b)
    requires 0 <= i < |net.stations|
    ensures var t := AddRoute(net, a, b, w).stations[i];
      && t.name == net.stations[i].name
      && (forall c :: c in t.conns <==>
            c in net.stations[i].conns
            || (t.name == a && c == Conn(b, w))
            || (t.name == b && c == Conn(a, w)))
      && NeighboursUnique(t.conns)
  {
    var s := net.stations[i];
    assert s in net.stations;
    if Lists(s.conns, b) { ListedOnlyWithRoute(net, s, b); }
    if Lists(s.conns, a) { ListedOnlyWithRoute(net, s, a); }
    var s1 := ConnectAt(net.stations, a, b, w)[i];
    assert s1 == if s.name == a then AddConnection(s, b, w) else s;
    assert AddRoute(net, a, b, w).stations[i] == if s1.name == b then AddConnection(s1, a, w) else s1;
  }

  lemma AddRouteRoutesUnique(routes: seq<Route>, a: string, b: string, w: int)
    requires RoutesUnique(routes) && !HasRoute(routes, a, b)
    ensures RoutesUnique(routes + [Route(a, b, w)])
  {
    var all := routes + [Route(a, b, w)];
    forall i, j | 0 <= i < j < |all|
      ensures !Joins(all[j], all[i].a, all[i].b)
    {
      if j == |routes| {
        assert all[i] in routes;
        if Joins(all[j], all[i].a, all[i].b) {
          assert Joins(all[i], a, b);
        }
      }
    }
  }

  lemma AddRouteMirrored(net: Network, a: string, b: string, w: int)
    requires Mirrored(net) && Backed(net) && ConnsUnique(net) && !HasRoute(net.routes, a, b)
    ensures Mirrored(AddRoute(net, a, b, w))
  {
    var r := AddRoute(net, a, b, w);
    forall rt, t | rt in r.routes && t in r.stations
      ensures (t.name == rt.a ==> Conn(rt.b, rt.w) in t.conns) && (t.name == rt.b ==> Conn(rt.a, rt.w) in t.conns)
    {
      var i :| 0 <= i < |r.stations| && r.stations[i] == t;
      AddRouteAt(net, a, b, w, i);
      assert net.stations[i] in net.stations;
    }
  }

  lemma AddRouteBacked(net: Network, a: string, b: string, w: int)
    requires Backed(net) && ConnsUnique(net) && !HasRoute(net.routes, a, b)
    ensures Backed(AddRoute(net, a, b, w))
  {
    var r := AddRoute(net, a, b, w);
    forall t, c | t in r.stations && c in t.conns
      ensures Route(t.name, c.to, c.weight) in r.routes || Route(c.to, t.name, c.weight) in r.routes
    {
      var i :| 0 <= i < |r.stations| && r.stations[i] == t;
      AddRouteAt(net, a, b, w, i);
      assert net.stations[i] in net.stations;
    }
  }

  lemma AddRouteConnsUnique(net: Network, a: string, b: string, w: int)
    requires Backed(net) && ConnsUnique(net) && !HasRoute(net.routes, a, b)
    ensures ConnsUnique(AddRoute(net, a, b, w))
  {
    var r := AddRoute(net, a, b, w);
    forall t | t in r.stations ensures NeighboursUnique(t.conns) {
      var i :| 0 <= i < |r.stations| && r.stations[i] == t;
      AddRouteAt(net, a, b, w, i);
    }
  }

  /** Adding a route between two distinct stations with a positive time keeps the invariant. */
  lemma AddRouteValid(net: Network, a: string, b: string, w: int)
    requires Valid(net)
    requires a in Names(net.stations) && b in Names(net.stations) && a != b && w > 0
    ensures Valid(AddRoute(net, a, b, w))
  {
    if !HasRoute(net.routes, a, b) {
      var r := AddRoute(net, a, b, w);
      assert r.routes == net.routes + [Route(a, b, w)];
      UniqueNamesSameNames(net.stations, r.stations);
      AddRouteRoutesUnique(net.routes, a, b, w);
      assert RoutesWellFormed(r) by {
        forall rt | rt in r.routes ensures rt.a in Names(r.stations) && rt.b in Names(r.stations) && rt.a != rt.b && rt.w > 0 {
          if rt != Route(a, b, w) {
            assert rt in net.routes;
          }
        }
      }
      AddRouteMirrored(net, a, b, w);
      AddRouteBacked(net, a, b, w);
      AddRouteConnsUnique(net, a, b, w);
    }
  }

  // ---------------------------------------------------------------------
  // RemoveRoute
  // ---------------------------------------------------------------------

  /** What `RemoveRoute` does to the station at index `i`. */
  lemma RemoveRouteAt(net: Network, a: string, b: string, i: int)
    requires 0 <= i < |net.stations|
    ensures var t := RemoveRoute(net, a, b).stations[i];
      && t.name == net.stations[i].name
      && (forall c :: c in t.conns <==>
            c in net.stations[i].conns && !(t.name == a && c.to == b) && !(t.name == b && c.to == a))
      && (NeighboursUnique(net.stations[i].conns) ==> NeighboursUnique(t.conns))
  {
    var s := net.stations[i];
    var s1 := DisconnectAt(net.stations, a, b)[i];
    assert s1 == if s.name == a then RemoveConnection(s, b) else s;
    assert RemoveRoute(net, a, b).stations[i] == if s1.name == b then RemoveConnection(s1, a) else s1;
  }

  lemma RemoveRouteMirrored(net: Network, a: string, b: string)
    requires Mirrored(net)
    ensures Mirrored(RemoveRoute(net, a, b))
  {
    var r := RemoveRoute(net, a, b);
    forall rt, t | rt in r.routes && t in r.stations
      ensures (t.name == rt.a ==> Conn(rt.b, rt.w) in t.conns) && (t.name == rt.b ==> Conn(rt.a, rt.w) in t.conns)
    {
      var i :| 0 <= i < |r.stations| && r.stations[i] == t;
      RemoveRouteAt(net, a, b, i);
      assert net.stations[i] in net.stations;
    }
  }

  lemma RemoveRouteBacked(net: Network, a: string, b: string)
    requires Backed(net)
    ensures Backed(RemoveRoute(net, a, b))
  {
    var r := RemoveRoute(net, a, b);
    forall t, c | t in r.stations && c in t.conns
      ensures Route(t.name, c.to, c.weight) in r.routes || Route(c.to, t.name, c.weight) in r.routes
    {
      var i :| 0 <= i < |r.stations| && r.stations[i] == t;
      RemoveRouteAt(net, a, b, i);
      var s := net.stations[i];
      assert s in net.stations && c in s.conns && s.name == t.name;
      assert !Joins(Route(t.name, c.to, c.weight), a, b) && !Joins(Route(c.to, t.name, c.weight), a, b);
    }
  }

  lemma RemoveRouteConnsUnique(net: Network, a: string, b: string)
    requires ConnsUnique(net)
    ensures ConnsUnique(RemoveRoute(net, a, b))
  {
    var r := RemoveRoute(net, a, b);
    forall t | t in r.stations ensures NeighboursUnique(t.conns) {
      var i :| 0 <= i < |r.stations| && r.stations[i] == t;
      RemoveRouteAt(net, a, b, i);
      assert net.stations[i] in net.stations;
    }
  }

  /** Removing a route keeps the invariant. */
  lemma RemoveRouteValid(net: Network, a: string, b: string)
    requires Valid(net)
    ensures Valid(RemoveRoute(net, a, b))
  {
    var r := RemoveRoute(net, a, b);
    assert r.routes == Filter(net.routes, (rt: Route) => !Joins(rt, a, b));
    RoutesUniqueFilter(net.routes, (rt: Route) => !Joins(rt, a, b));
    UniqueNamesSameNames(net.stations, r.stations);
    RemoveRouteMirrored(net, a, b);
    RemoveRouteBacked(net, a, b);
    RemoveRouteConnsUnique(net, a, b);
  }

  // ---------------------------------------------------------------------
  // RemoveStation
  // ---------------------------------------------------------------------

  lemma DetachMirrored(net: Network, e: string)
    requires Mirrored(net) && e in Names(net.stations)
    ensures Mirrored(RemoveStation(net, e))
  {
    var r := RemoveStation(net, e);
    DetachMembers(net.stations, e);
    forall rt, t | rt in r.routes && t in r.stations
      ensures (t.name == rt.a ==> Conn(rt.b, rt.w) in t.conns) && (t.name == rt.b ==> Conn(rt.a, rt.w) in t.conns)
    {
      var s :| s in net.stations && s.name != e && t == RemoveConnection(s, e);
    }
  }

  lemma DetachBacked(net: Network, e: string)
    requires Backed(net) && e in Names(net.stations)
    ensures Backed(RemoveStation(net, e))
  {
    var r := RemoveStation(net, e);
    DetachMembers(net.stations, e);
    forall t, c | t in r.stations && c in t.conns
      ensures Route(t.name, c.to, c.weight) in r.routes || Route(c.to, t.name, c.weight) in r.routes
    {
      var s :| s in net.stations && s.name != e && t == RemoveConnection(s, e);
    }
  }

  lemma DetachConnsUnique(net: Network, e: string)
    requires ConnsUnique(net) && e in Names(net.stations)
    ensures ConnsUnique(RemoveStation(net, e))
    ensures forall s :: s in RemoveStation(net, e).stations ==> !Lists(s.conns, e)
  {
    DetachMembers(net.stations, e);
  }

  /**
   Removing a station keeps the invariant and leaves no trace of it: no
   route ends at it and no station lists it, whether or not it was present.
   */
  lemma RemoveStationValid(net: Network, e: string)
    requires Valid(net)
    ensures Valid(RemoveStation(net, e))
    ensures forall rt :: rt in RemoveStation(net, e).routes ==> !Touches(rt, e)
    ensures forall s :: s in RemoveStation(net, e).stations ==> !Lists(s.conns, e)
  {
    var r := RemoveStation(net, e);
    if e !in Names(net.stations) {
      forall s | s in net.stations ensures !Lists(s.conns, e) {
        if Lists(s.conns, e) {
          ListedOnlyWithRoute(net, s, e);
        }
      }
    } else {
      var keep := (rt: Route) => !Touches(rt, e);
      assert r == Network(Detach(net.stations, e), Filter(net.routes, keep));
      DetachNames(net.stations, e);
      DetachUnique(net.stations, e);
      RoutesUniqueFilter(net.routes, keep);
      DetachMirrored(net, e);
      DetachBacked(net, e);
      DetachConnsUnique(net, e);
    }
  }
}

=== FILE: outcomes.dfy ===
/** Optional values and success-or-error results shared by the whole model. */
module Outcomes {

  /** A value that may be absent. For distances, `None` stands for infinity. */
  datatype Option<T> = None | Some(value: T)

  /** The outcome of an operation that can fail with a structured error. */
  datatype Result<T, E> = Success(value: T) | Failure(error: E)
}

=== FILE: query_completeness.dfy ===
/**
 The query reports every fastest path, and each once: below the cap every
 route path from the origin to the destination whose travel time is the
 reported time is among the reported paths, no path is reported twice,
 and the cap is reached whenever there are at least that many fastest
 paths.
 */
module QueryCompleteness {
  import opened Outcomes
  import opened Seqs
  import opened Stations
  import opened Networks
  import opened Adjacency
  import opened Dijkstra
  import opened FastestRoutes
  import opened QueryProperties
  import opened Enumeration

  // ---------------------------------------------------------------------
  // One route per pair gives predecessor lists without repeats
  // ---------------------------------------------------------------------

  /** The number of arcs of `outs` into `v`. */
  function ArcsTo(outs: seq<Conn>, v: string): nat
  {
    if outs == [] then 0 else (if outs[0].to == v then 1 else 0) + ArcsTo(outs[1..], v)
  }

  lemma {:induction false} ArcsToConcat(a: seq<Conn>, b: seq<Conn>, v: string)
    ensures ArcsTo(a + b, v) == ArcsTo(a, v) + ArcsTo(b, v)
  {
    if a != [] {
      assert (a + b)[0] == a[0] && (a + b)[1..] == a[1..] + b;
      ArcsToConcat(a[1..], b, v);
    } else {
      assert a + b == b;
    }
  }

  /** Routes that do not join `u` and `v` give `u` no arc into `v`. */
  lemma {:induction false} ArcsToNone(routes: seq<Route>, u: string, v: string)
    requires forall rt :: rt in routes ==> !Joins(rt, u, v)
    ensures ArcsTo(ArcsAt(routes, u), v) == 0
  {
    if routes != [] {
      assert routes[0] in routes;
      assert forall rt :: rt in routes[1..] ==> rt in routes;
      ArcsToNone(routes[1..], u, v);
      ArcsToConcat(ArcsOfRoute(routes[0], u), ArcsAt(routes[1..], u), v);
    }
  }

  /** With one route per pair, a station has at most one arc into any other station. */
  lemma {:induction false} ArcsToAtMostOne(routes: seq<Route>, u: string, v: string)
    requires RoutesUnique(routes) && u != v
    ensures ArcsTo(ArcsAt(routes, u), v) <= 1
  {
    if routes != [] {
      var r0 := routes[0];
      var rest := routes[1..];
      ArcsToConcat(ArcsOfRoute(r0, u), ArcsAt(rest, u), v);
      if Joins(r0, u, v) {
        forall rt | rt in rest ensures !Joins(rt, u, v) {
          var j :| 0 <= j < |rest| && rest[j] == rt;
          assert routes[j + 1] == rt && !Joins(routes[j + 1], r0.a, r0.b);
        }
        ArcsToNone(rest, u, v);
      } else {
        assert RoutesUnique(rest) by {
          forall i, j | 0 <= i < j < |rest| ensures !Joins(rest[j], rest[i].a, rest[i].b) {
            assert rest[i] == routes[i + 1] && rest[j] == routes[j + 1];
          }
        }
        ArcsToAtMostOne(rest, u, v);
      }
    }
  }

  /** A station is listed for `v` at most once per arc it has into `v`. */
  lemma {:induction false} TightFromAtMostArcs(u: string, outs: seq<Conn>, dist: Dist, v: string)
    ensures |TightFrom(u, outs, dist, v)| <= ArcsTo(outs, v)
  {
    if outs != [] {
      TightFromAtMostArcs(u, outs[1..], dist, v);
    }
  }

  /** No arc of positive time is tight from a station to itself. */
  lemma {:induction false} TightFromSelf(outs: seq<Conn>, dist: Dist, v: string)
    requires forall c :: c in outs ==> c.weight > 0
    ensures TightFrom(v, outs, dist, v) == []
  {
    if outs != [] {
      assert outs[0] in outs;
      assert forall c :: c in outs[1..] ==> c in outs;
      TightFromSelf(outs[1..], dist, v);
    }
  }

  /** Every station has at most one arc into any other station. */
  ghost predicate OneArcPerPair(adj: Adj)
  {
    forall u, v :: u != v ==> ArcsTo(Out(adj, u), v) <= 1
  }

  lemma {:induction false} PredsOfDistinct(adj: Adj, dist: Dist, v: string)
    requires KeysUnique(adj) && OneArcPerPair(adj)
    requires forall u, c :: c in Out(adj, u) ==> c.weight > 0
    ensures Distinct(PredsOf(adj, dist, v))
  {
    if adj != [] {
      var u := adj[0].from;
      var rest := adj[1..];
      assert Out(adj, u) == adj[0].out;
      assert KeysUnique(rest) by {
        forall i, j | 0 <= i < j < |rest| ensures rest[i].from != rest[j].from {
          assert rest[i] == adj[i + 1] && rest[j] == adj[j + 1];
        }
      }
      assert !HasKey(rest, u);
      OutOfMissing(rest, u);
      forall x | x != u ensures Out(rest, x) == Out(adj, x) { }
      PredsOfDistinct(rest, dist, v);
      var head := TightFrom(u, adj[0].out, dist, v);
      if u == v {
        TightFromSelf(adj[0].out, dist, v);
      } else {
        TightFromAtMostArcs(u, adj[0].out, dist, v);
      }
      assert |head| <= 1;
      forall x | x in head ensures x !in PredsOf(rest, dist, v) {
        TightFromIff(u, adj[0].out, dist, v, x);
        if x in PredsOf(rest, dist, v) {
          PredsAreKeys(rest, dist, v, x);
        }
      }
      DistinctConcat(head, PredsOf(rest, dist, v));
    }
  }

  /**
   When the table is built from routes with at most one route per pair
   and every arc takes positive time, no predecessor list repeats a station.
   */
  lemma SearchPredsDistinct(routes: seq<Route>, s: Search)
    requires RoutesUnique(routes) && s.adj == BuildAdj(routes) && Ready(s)
    ensures PredsDistinct(s)
  {
    forall u, v | u != v ensures ArcsTo(Out(s.adj, u), v) <= 1 {
      BuildAdjOut(routes, u);
      ArcsToAtMostOne(routes, u, v);
    }
    forall v ensures Distinct(PredsOf(s.adj, s.dist, v)) {
      PredsOfDistinct(s.adj, s.dist, v);
    }
  }

  // ---------------------------------------------------------------------
  // Every fastest path is a chain of predecessor links
  // ---------------------------------------------------------------------

  lemma ForwardChainCons(s: Search, p: Path)
    requires |p| > 1 && p[0] in PredsOf(s.adj, s.dist, p[1]) && ForwardChain(s, p[1..])
    ensures ForwardChain(s, p)
  {
    forall i | 0 <= i < |p| - 1 ensures p[i] in PredsOf(s.adj, s.dist, p[i + 1]) {
      if i > 0 {
        assert p[i] == p[1..][i - 1] && p[i + 1] == p[1..][i];
      }
    }
  }

  lemma TightIsPred(adj: Adj, dist: Dist, u: string, c: Conn)
    requires KeysUnique(adj) && c in Out(adj, u) && Tight(dist, u, c.to, c.weight)
    ensures u in PredsOf(adj, dist, c.to)
  {
    PredsIff(adj, dist, c.to, u);
  }

  /**
   The first arc of a walk that closes the distance gap between its ends
   is tight, and the rest of the walk closes the gap from the arc's end.
   */
  lemma FastestWalkStep(adj: Adj, dist: Dist, u: string, steps: seq<Conn>)
    requires Relaxed(adj, dist) && IsWalk(adj, u, steps) && steps != []
    requires u in dist && dist[u].Some?
    requires WalkEnd(u, steps) in dist && dist[WalkEnd(u, steps)] == Some(dist[u].value + WalkWeight(steps))
    ensures steps[0] in Out(adj, u) && Tight(dist, u, steps[0].to, steps[0].weight)
    ensures IsWalk(adj, steps[0].to, steps[1..])
    ensures dist[WalkEnd(steps[0].to, steps[1..])] == Some(dist[steps[0].to].value + WalkWeight(steps[1..]))
  {
    var c, rest := steps[0], steps[1..];
    RelaxedArc(adj, dist, u, c);
    WalkEndCons(u, steps);
    RelaxedBoundsWalks(adj, dist, c.to, rest);
    GapClosed(dist[u].value, dist[c.to].value, dist[WalkEnd(u, steps)].value, c.weight, WalkWeight(rest));
  }

  /** An arc leaving a finitely distant station ends no farther than that distance plus the arc's time. */
  lemma RelaxedArc(adj: Adj, dist: Dist, u: string, c: Conn)
    requires Relaxed(adj, dist) && u in dist && dist[u].Some? && c in Out(adj, u)
    ensures c.to in dist && AtMost(dist[c.to], dist[u].value + c.weight)
  {
  }

  /** Two bounds that add up to an equality are both equalities. */
  lemma GapClosed(du: int, dv: int, de: int, w: int, t: int)
    requires dv <= du + w && de <= dv + t && de == du + w + t
    ensures dv == du + w && de == dv + t
  {
  }

  /**
   Over relaxed distances, a walk whose weight closes the gap between the
   distances of its ends visits stations along predecessor links only.
   */
  lemma {:induction false} FastestWalkIsChain(s: Search, u: string, steps: seq<Conn>)
    requires KeysUnique(s.adj) && Relaxed(s.adj, s.dist)
    requires IsWalk(s.adj, u, steps) && u in s.dist && s.dist[u].Some?
    requires WalkEnd(u, steps) in s.dist && s.dist[WalkEnd(u, steps)] == Some(s.dist[u].value + WalkWeight(steps))
    ensures ForwardChain(s, PathOf(u, steps))
    decreases |steps|
  {
    if steps != [] {
      var c := steps[0];
      FastestWalkStep(s.adj, s.dist, u, steps);
      TightIsPred(s.adj, s.dist, u, c);
      FastestWalkIsChain(s, c.to, steps[1..]);
      var p := PathOf(u, steps);
      assert p[1..] == PathOf(c.to, steps[1..]);
      ForwardChainCons(s, p);
    }
  }

  /** The stations a route path's arcs visit from its first station are the path itself. */
  lemma {:induction false} PathOfStepsOf(routes: seq<Route>, p: Path)
    requires |p| >= 1
    ensures PathOf(p[0], StepsOf(routes, p)) == p
    decreases |p|
  {
    if |p| > 1 {
      PathOfStepsOf(routes, p[1..]);
      assert p == [p[0]] + p[1..];
    }
  }

  // ---------------------------------------------------------------------
  // The query over a route list
  // ---------------------------------------------------------------------

  /** Below the cap, every route path from the origin to the destination taking the reported time is reported. */
  lemma FastestOverComplete(routes: seq<Route>, names: seq<string>, origin: string, dest: string, maxPaths: int, p: Path)
    requires RoutesUnique(routes) && ArcsOk(BuildAdj(routes), set n | n in names)
    requires origin in names && dest in names
    requires IsRoutePath(routes, p) && p[0] == origin && Last(p) == dest
    requires FastestOver(routes, names, origin, dest, maxPaths).total == Some(PathWeight(routes, p))
    ensures |FastestOver(routes, names, origin, dest, maxPaths).paths| < maxPaths ==> p in FastestOver(routes, names, origin, dest, maxPaths).paths
  {
    FastestOverSearch(routes, names, origin, dest, maxPaths);
    var adj := BuildAdj(routes);
    var dist := ShortestDistances(names, adj, origin);
    var s := Search(adj, dist, origin, dest, maxPaths);
    RoutePathIsWalk(routes, p);
    PathOfStepsOf(routes, p);
    FastestWalkIsChain(s, origin, StepsOf(routes, p));
    DfsComplete(s, p);
  }

  /** The query reports no path twice. */
  lemma FastestOverDistinct(routes: seq<Route>, names: seq<string>, origin: string, dest: string, maxPaths: int)
    requires RoutesUnique(routes) && ArcsOk(BuildAdj(routes), set n | n in names)
    requires origin in names && dest in names
    ensures Distinct(FastestOver(routes, names, origin, dest, maxPaths).paths)
  {
    FastestOverSearch(routes, names, origin, dest, maxPaths);
    var adj := BuildAdj(routes);
    var dist := ShortestDistances(names, adj, origin);
    var s := Search(adj, dist, origin, dest, maxPaths);
    if dist[dest].Some? {
      SearchPredsDistinct(routes, s);
      DfsNoRepeats(s);
    }
  }

  // ---------------------------------------------------------------------
  // The query over a network
  // ---------------------------------------------------------------------

  /** `p` is a fastest route path: it leads from the origin to the destination, and no route path between them takes less time. */
  ghost predicate IsFastest(routes: seq<Route>, origin: string, dest: string, p: Path)
  {
    IsRoutePath(routes, p) && p[0] == origin && Last(p) == dest
    && forall q :: IsRoutePath(routes, q) && q[0] == origin && Last(q) == dest ==> PathWeight(routes, p) <= PathWeight(routes, q)
  }

  /** A route path from the origin to the destination is a fastest one exactly when its time is the reported time. */
  lemma QueryFastestIff(net: Network, origin: string, dest: string, maxPaths: int, p: Path)
    requires Valid(net) && origin in Names(net.stations) && dest in Names(net.stations)
    requires IsRoutePath(net.routes, p) && p[0] == origin && Last(p) == dest
    ensures IsFastest(net.routes, origin, dest, p) <==> AllFastestRoutes(net, origin, dest, maxPaths).total == Some(PathWeight(net.routes, p))
  {
    if IsFastest(net.routes, origin, dest, p) {
      FastestTakesTotal(net, origin, dest, maxPaths, p);
    }
    if AllFastestRoutes(net, origin, dest, maxPaths).total == Some(PathWeight(net.routes, p)) {
      TotalIsFastest(net, origin, dest, maxPaths, p);
    }
  }

  lemma FastestTakesTotal(net: Network, origin: string, dest: string, maxPaths: int, p: Path)
    requires Valid(net) && origin in Names(net.stations) && dest in Names(net.stations)
    requires IsFastest(net.routes, origin, dest, p)
    ensures AllFastestRoutes(net, origin, dest, maxPaths).total == Some(PathWeight(net.routes, p))
  {
    QueryDistanceIsShortest(net, origin, dest, maxPaths, p);
    var q := PathTakingTotal(net, origin, dest, maxPaths);
    FastestBeats(net.routes, origin, dest, p, q);
  }

  /** A route path from the origin to the destination whose time is a finite reported time. */
  lemma PathTakingTotal(net: Network, origin: string, dest: string, maxPaths: int) returns (q: Path)
    requires Valid(net) && origin in Names(net.stations) && dest in Names(net.stations)
    requires AllFastestRoutes(net, origin, dest, maxPaths).total.Some?
    ensures IsRoutePath(net.routes, q) && q[0] == origin && Last(q) == dest
    ensures PathWeight(net.routes, q) == AllFastestRoutes(net, origin, dest, maxPaths).total.value
  {
    QueryDistanceIsAchieved(net, origin, dest, maxPaths);
    var total := AllFastestRoutes(net, origin, dest, maxPaths).total;
    q :| IsRoutePath(net.routes, q) && q[0] == origin && Last(q) == dest && PathWeight(net.routes, q) == total.value;
  }

  lemma FastestBeats(routes: seq<Route>, origin: string, dest: string, p: Path, q: Path)
    requires IsFastest(routes, origin, dest, p)
    requires IsRoutePath(routes, q) && q[0] == origin && Last(q) == dest
    ensures PathWeight(routes, p) <= PathWeight(routes, q)
  {
  }

  lemma TotalIsFastest(net: Network, origin: string, dest: string, maxPaths: int, p: Path)
    requires Valid(net) && origin in Names(net.stations) && dest in Names(net.stations)
    requires IsRoutePath(net.routes, p) && p[0] == origin && Last(p) == dest
    requires AllFastestRoutes(net, origin, dest, maxPaths).total == Some(PathWeight(net.routes, p))
    ensures IsFastest(net.routes, origin, dest, p)
  {
    forall q | IsRoutePath(net.routes, q) && q[0] == origin && Last(q) == dest
      ensures PathWeight(net.routes, p) <= PathWeight(net.routes, q)
    {
      QueryDistanceIsShortest(net, origin, dest, maxPaths, q);
    }
  }

  /**
   Below the cap the query reports every fastest path: every route path
   from the origin to the destination that no other such path beats.
   */
  lemma QueryComplete(net: Network, origin: string, dest: string, maxPaths: int, p: Path)
    requires Valid(net) && origin in Names(net.stations) && dest in Names(net.stations)
    requires IsFastest(net.routes, origin, dest, p)
    ensures |AllFastestRoutes(net, origin, dest, maxPaths).paths| < maxPaths ==> p in AllFastestRoutes(net, origin, dest, maxPaths).paths
  {
    QueryFastestIff(net, origin, dest, maxPaths, p);
    AdjArcsOk(net);
    FastestOverComplete(net.routes, Names(net.stations), origin, dest, maxPaths, p);
  }

  /** The query reports no path twice. */
  lemma QueryNoRepeats(net: Network, origin: string, dest: string, maxPaths: int)
    requires Valid(net) && origin in Names(net.stations) && dest in Names(net.stations)
    ensures Distinct(AllFastestRoutes(net, origin, dest, maxPaths).paths)
  {
    AdjArcsOk(net);
    FastestOverDistinct(net.routes, Names(net.stations), origin, dest, maxPaths);
  }

  /**
   Given `qs`, distinct fastest paths, the query reports at least as many
   paths as `qs` holds, up to the cap; with at least `maxPaths` of them it
   reports exactly `maxPaths` paths.
   */
  lemma QueryFillsCap(net: Network, origin: string, dest: string, maxPaths: int, qs: seq<Path>)
    requires Valid(net) && origin in Names(net.stations) && dest in Names(net.stations)
    requires Distinct(qs) && forall q :: q in qs ==> IsFastest(net.routes, origin, dest, q)
    ensures |AllFastestRoutes(net, origin, dest, maxPaths).paths| >= if |qs| < maxPaths then |qs| else maxPaths
    ensures |qs| >= maxPaths >= 0 ==> |AllFastestRoutes(net, origin, dest, maxPaths).paths| == maxPaths
  {
    var paths := AllFastestRoutes(net, origin, dest, maxPaths).paths;
    if |paths| < maxPaths {
      forall q | q in qs ensures q in paths {
        QueryComplete(net, origin, dest, maxPaths, q);
      }
      DistinctWithin(qs, paths);
    }
  }
}

=== FILE: query_properties.dfy ===
/**
 What the fastest-route query's answer means in terms of the network's
 routes: the reported time is the least travel time over all route paths
 between the two stations, it is achieved by one, it is missing exactly
 when no route path exists, and a reachable destination always yields a
 path when at least one is asked for.
 */
module QueryProperties {
  import opened Outcomes
  import opened Seqs
  import opened Stations
  import opened Networks
  import opened Adjacency
  import opened Dijkstra
  import opened FastestRoutes

  /** The distance table the query computes for `origin`. */
  ghost function QueryDist(net: Network, origin: string): Dist
    requires Valid(net) && origin in Names(net.stations)
  {
    AdjArcsOk(net);
    ShortestDistances(Names(net.stations), BuildAdj(net.routes), origin)
  }

  /** The reported time is the destination's entry in the distance table. */
  lemma TotalIsDistance(net: Network, origin: string, dest: string, maxPaths: int)
    requires Valid(net) && origin in Names(net.stations) && dest in Names(net.stations)
    ensures dest in QueryDist(net, origin)
    ensures AllFastestRoutes(net, origin, dest, maxPaths).total == QueryDist(net, origin)[dest]
  {
    AdjArcsOk(net);
  }

  // ---------------------------------------------------------------------
  // Route paths and walks over the query's table
  // ---------------------------------------------------------------------

  /** The arcs a route path takes, each with the time of the route it uses. */
  function StepsOf(routes: seq<Route>, p: Path): seq<Conn>
  {
    if |p| <= 1 then [] else [Conn(p[1], WeightBetween(routes, p[0], p[1]))] + StepsOf(routes, p[1..])
  }

  /** The stations a walk from `u` visits, `u` included. */
  function PathOf(u: string, steps: seq<Conn>): (p: Path)
    ensures |p| == |steps| + 1 && p[0] == u
    decreases |steps|
  {
    if steps == [] then [u] else [u] + PathOf(steps[0].to, steps[1..])
  }

  /** The route joining `x` and `y` gives the query's table an arc from `x` to `y` with its time. */
  lemma RouteIsArc(routes: seq<Route>, x: string, y: string)
    requires HasRoute(routes, x, y)
    ensures Conn(y, WeightBetween(routes, x, y)) in Out(BuildAdj(routes), x)
  {
    var rt :| rt in routes && Joins(rt, x, y) && rt.w == WeightBetween(routes, x, y);
    assert ArcOf(rt, x, Conn(y, WeightBetween(routes, x, y)));
  }

  /** The tail of a route path is a route path. */
  lemma RoutePathTail(routes: seq<Route>, p: Path)
    requires IsRoutePath(routes, p) && |p| > 1
    ensures IsRoutePath(routes, p[1..])
  {
    forall i | 0 <= i < |p[1..]| - 1 ensures HasRoute(routes, p[1..][i], p[1..][i + 1]) {
      assert p[1..][i] == p[i + 1] && p[1..][i + 1] == p[i + 2];
    }
  }

  /** Prefixing an arc to the walk of a route path's tail gives the walk of the whole path. */
  lemma StepsOfCons(routes: seq<Route>, p: Path)
    requires |p| > 1
    requires Conn(p[1], WeightBetween(routes, p[0], p[1])) in Out(BuildAdj(routes), p[0])
    requires IsWalk(BuildAdj(routes), p[1], StepsOf(routes, p[1..]))
    requires WalkEnd(p[1], StepsOf(routes, p[1..])) == Last(p[1..])
    requires WalkWeight(StepsOf(routes, p[1..])) == PathWeight(routes, p[1..])
    ensures IsWalk(BuildAdj(routes), p[0], StepsOf(routes, p))
    ensures WalkEnd(p[0], StepsOf(routes, p)) == Last(p)
    ensures WalkWeight(StepsOf(routes, p)) == PathWeight(routes, p)
  {
    var c := Conn(p[1], WeightBetween(routes, p[0], p[1]));
    var rest := StepsOf(routes, p[1..]);
    assert StepsOf(routes, p) == [c] + rest;
    assert ([c] + rest)[1..] == rest;
    assert Last(p[1..]) == Last(p);
    if rest != [] {
      assert Last([c] + rest) == Last(rest);
    }
  }

  /** A route path is a walk over the query's table with the same end and time. */
  lemma {:induction false} RoutePathIsWalk(routes: seq<Route>, p: Path)
    requires IsRoutePath(routes, p)
    ensures IsWalk(BuildAdj(routes), p[0], StepsOf(routes, p))
    ensures WalkEnd(p[0], StepsOf(routes, p)) == Last(p)
    ensures WalkWeight(StepsOf(routes, p)) == PathWeight(routes, p)
    decreases |p|
  {
    if |p| > 1 {
      RouteIsArc(routes, p[0], p[1]);
      RoutePathTail(routes, p);
      RoutePathIsWalk(routes, p[1..]);
      StepsOfCons(routes, p);
    }
  }

  lemma WalkEndCons(u: string, steps: seq<Conn>)
    requires steps != []
    ensures WalkEnd(u, steps) == WalkEnd(steps[0].to, steps[1..])
  {
    if steps[1..] != [] {
      assert Last(steps[1..]) == Last(steps);
    }
  }

  /** With one route per pair, an arc of the query's table is the route between its ends, with its time. */
  lemma ArcIsRoute(routes: seq<Route>, u: string, c: Conn)
    requires RoutesUnique(routes) && c in Out(BuildAdj(routes), u)
    ensures HasRoute(routes, u, c.to) && WeightBetween(routes, u, c.to) == c.weight
  {
    var rt :| rt in routes && ArcOf(rt, u, c);
    assert Joins(rt, u, c.to);
    WeightBetweenUnique(routes, rt, u, c.to);
  }

  /** Prefixing a route to a route path that follows a walk's tail follows the whole walk. */
  lemma PathOfCons(routes: seq<Route>, u: string, steps: seq<Conn>)
    requires steps != []
    requires HasRoute(routes, u, steps[0].to) && WeightBetween(routes, u, steps[0].to) == steps[0].weight
    requires IsRoutePath(routes, PathOf(steps[0].to, steps[1..]))
    requires Last(PathOf(steps[0].to, steps[1..])) == WalkEnd(steps[0].to, steps[1..])
    requires PathWeight(routes, PathOf(steps[0].to, steps[1..])) == WalkWeight(steps[1..])
    ensures IsRoutePath(routes, PathOf(u, steps))
    ensures Last(PathOf(u, steps)) == WalkEnd(u, steps)
    ensures PathWeight(routes, PathOf(u, steps)) == WalkWeight(steps)
  {
    var c := steps[0];
    var p := PathOf(u, steps);
    var tail := PathOf(c.to, steps[1..]);
    assert p == [u] + tail && p[1..] == tail && p[1] == c.to;
    RoutePathCons(routes, p);
    assert Last(p) == Last(tail);
    WalkEndCons(u, steps);
  }

  /** With one route per pair, a walk over the query's table is a route path with the same end and time. */
  lemma {:induction false} WalkIsRoutePath(routes: seq<Route>, u: string, steps: seq<Conn>)
    requires RoutesUnique(routes) && IsWalk(BuildAdj(routes), u, steps)
    ensures IsRoutePath(routes, PathOf(u, steps))
    ensures Last(PathOf(u, steps)) == WalkEnd(u, steps)
    ensures PathWeight(routes, PathOf(u, steps)) == WalkWeight(steps)
    decreases |steps|
  {
    if steps != [] {
      ArcIsRoute(routes, u, steps[0]);
      WalkIsRoutePath(routes, steps[0].to, steps[1..]);
      PathOfCons(routes, u, steps);
    }
  }

  // ---------------------------------------------------------------------
  // The reported time
  // ---------------------------------------------------------------------

  /**
   No route path from the origin to the destination is faster than the
   reported time, and the existence of one makes the destination
   reachable.
   */
  lemma QueryDistanceIsShortest(net: Network, origin: string, dest: string, maxPaths: int, p: Path)
    requires Valid(net) && origin in Names(net.stations) && dest in Names(net.stations)
    requires IsRoutePath(net.routes, p) && p[0] == origin && Last(p) == dest
    ensures AllFastestRoutes(net, origin, dest, maxPaths).total.Some?
    ensures AllFastestRoutes(net, origin, dest, maxPaths).total.value <= PathWeight(net.routes, p)
  {
    TotalIsDistance(net, origin, dest, maxPaths);
    RoutePathIsWalk(net.routes, p);
  }

  /** A reported time is the travel time of some route path from the origin to the destination. */
  lemma QueryDistanceIsAchieved(net: Network, origin: string, dest: string, maxPaths: int)
    requires Valid(net) && origin in Names(net.stations) && dest in Names(net.stations)
    ensures var total := AllFastestRoutes(net, origin, dest, maxPaths).total;
      total.Some? ==> exists p :: IsRoutePath(net.routes, p) && p[0] == origin && Last(p) == dest && PathWeight(net.routes, p) == total.value
  {
    TotalIsDistance(net, origin, dest, maxPaths);
    var total := AllFastestRoutes(net, origin, dest, maxPaths).total;
    if total.Some? {
      var adj := BuildAdj(net.routes);
      assert HasWalk(adj, origin, dest, total.value);
      var steps :| IsWalk(adj, origin, steps) && WalkEnd(origin, steps) == dest && WalkWeight(steps) == total.value;
      WalkIsRoutePath(net.routes, origin, steps);
      var p := PathOf(origin, steps);
      assert IsRoutePath(net.routes, p) && p[0] == origin && Last(p) == dest && PathWeight(net.routes, p) == total.value;
    }
  }

  /** The destination is reported unreachable exactly when no route path leads to it from the origin. */
  lemma QueryUnreachableIff(net: Network, origin: string, dest: string, maxPaths: int)
    requires Valid(net) && origin in Names(net.stations) && dest in Names(net.stations)
    ensures AllFastestRoutes(net, origin, dest, maxPaths).total.None? <==>
      !exists p :: IsRoutePath(net.routes, p) && p[0] == origin && Last(p) == dest
  {
    if exists p :: IsRoutePath(net.routes, p) && p[0] == origin && Last(p) == dest {
      var p :| IsRoutePath(net.routes, p) && p[0] == origin && Last(p) == dest;
      QueryDistanceIsShortest(net, origin, dest, maxPaths, p);
    } else {
      QueryDistanceIsAchieved(net, origin, dest, maxPaths);
    }
  }

  // ---------------------------------------------------------------------
  // The enumeration finds a path
  // ---------------------------------------------------------------------

  /** A non-empty walk ends with an arc leaving the end of its prefix. */
  lemma {:induction false} WalkSplit(adj: Adj, u: string, steps: seq<Conn>)
    requires IsWalk(adj, u, steps) && steps != []
    ensures IsWalk(adj, u, steps[..|steps| - 1])
    ensures Last(steps) in Out(adj, WalkEnd(u, steps[..|steps| - 1]))
    ensures WalkWeight(steps) == WalkWeight(steps[..|steps| - 1]) + Last(steps).weight
    decreases |steps|
  {
    var prefix := steps[..|steps| - 1];
    if |steps| > 1 {
      WalkSplit(adj, steps[0].to, steps[1..]);
      assert steps[1..][..|steps[1..]| - 1] == prefix[1..];
      assert Last(steps[1..]) == Last(steps);
      assert prefix[0] == steps[0];
      if prefix[1..] != [] {
        assert Last(prefix[1..]) == Last(prefix);
      }
    } else {
      assert prefix == [];
      assert steps == [steps[0]];
    }
  }

  /** Every reachable station other than the origin has a predecessor in the query's table. */
  ghost predicate EveryReachableHasPred(s: Search)
  {
    forall v :: v in s.dist && s.dist[v].Some? && v != s.origin ==> PredsOf(s.adj, s.dist, v) != []
  }

  lemma DistancesHavePreds(routes: seq<Route>, names: seq<string>, origin: string, v: string)
    requires ArcsOk(BuildAdj(routes), set n | n in names) && origin in names
    requires var dist := ShortestDistances(names, BuildAdj(routes), origin);
      v in dist && dist[v].Some? && v != origin
    ensures PredsOf(BuildAdj(routes), ShortestDistances(names, BuildAdj(routes), origin), v) != []
  {
    var adj := BuildAdj(routes);
    var dist := ShortestDistances(names, adj, origin);
    assert HasWalk(adj, origin, v, dist[v].value);
    var steps :| IsWalk(adj, origin, steps) && WalkEnd(origin, steps) == v && WalkWeight(steps) == dist[v].value;
    WalkSplit(adj, origin, steps);
    var prefix := steps[..|steps| - 1];
    var x := WalkEnd(origin, prefix);
    var c := Last(steps);
    RelaxedBoundsWalks(adj, dist, origin, prefix);
    assert Tight(dist, x, v, c.weight);
    PredsIff(adj, dist, v, x);
  }

  /** Below the cap, exploring a reachable station reports at least one more path. */
  lemma DfsFinds(s: Search, cur: string, acc: seq<string>, paths: seq<Path>)
    requires Ready(s) && cur in s.dist && s.dist[cur].Some?
    requires (acc + [cur])[0] == s.dest && BackChain(s, acc + [cur])
    requires EveryReachableHasPred(s) && |paths| < s.maxPaths
    ensures |Dfs(s, cur, acc, paths)| > |paths|
    decreases s.dist[cur].value, 1, 0
  {
    if cur != s.origin {
      var ps := PredsOf(s.adj, s.dist, cur);
      assert ps != [];
      DfsEachFinds(s, ps, acc + [cur], paths);
    }
  }

  lemma DfsEachFinds(s: Search, ps: seq<string>, acc: seq<string>, paths: seq<Path>)
    requires Ready(s) && |acc| >= 1 && acc[0] == s.dest && BackChain(s, acc)
    requires Last(acc) in s.dist && s.dist[Last(acc)].Some?
    requires forall p :: p in ps ==> p in PredsOf(s.adj, s.dist, Last(acc))
    requires EveryReachableHasPred(s) && |paths| < s.maxPaths && ps != []
    ensures |DfsEach(s, ps, acc, paths)| > |paths|
    decreases s.dist[Last(acc)].value, 0, |ps|
  {
    var p := ps[0];
    PredCloser(s, Last(acc), p);
    var q := acc + [p];
    assert BackChain(s, q) by {
      forall i | 0 <= i < |q| - 1 ensures q[i + 1] in PredsOf(s.adj, s.dist, q[i]) {
        if i < |acc| - 1 {
          assert q[i] == acc[i] && q[i + 1] == acc[i + 1];
        }
      }
    }
    DfsFinds(s, p, acc, paths);
  }

  /** In the query's search every reachable station other than the origin has a predecessor. */
  lemma SearchHasPreds(routes: seq<Route>, names: seq<string>, s: Search)
    requires ArcsOk(BuildAdj(routes), set n | n in names) && s.origin in names
    requires s.adj == BuildAdj(routes) && s.dist == ShortestDistances(names, s.adj, s.origin)
    ensures EveryReachableHasPred(s)
  {
    forall v | v in s.dist && s.dist[v].Some? && v != s.origin ensures PredsOf(s.adj, s.dist, v) != [] {
      DistancesHavePreds(routes, names, s.origin, v);
    }
  }

  /** When the destination is reachable and at least one path is asked for, the answer lists one. */
  lemma FastestOverFinds(routes: seq<Route>, names: seq<string>, origin: string, dest: string, maxPaths: int)
    requires RoutesUnique(routes) && ArcsOk(BuildAdj(routes), set n | n in names)
    requires origin in names && dest in names && maxPaths >= 1
    ensures FastestOver(routes, names, origin, dest, maxPaths).total.Some? ==> |FastestOver(routes, names, origin, dest, maxPaths).paths| >= 1
  {
    var adj := BuildAdj(routes);
    var dist := ShortestDistances(names, adj, origin);
    assert dist.Keys == set n | n in names;
    if dist[dest].Some? {
      var s := Search(adj, dist, origin, dest, maxPaths);
      SearchHasPreds(routes, names, s);
      DfsFinds(s, dest, [], []);
    }
  }

  /** A reachable destination yields at least one fastest path whenever one is asked for. */
  lemma QueryFindsAPath(net: Network, origin: string, dest: string, maxPaths: int)
    requires Valid(net) && origin in Names(net.stations) && dest in Names(net.stations)
    requires maxPaths >= 1
    ensures AllFastestRoutes(net, origin, dest, maxPaths).total.Some? ==> |AllFastestRoutes(net, origin, dest, maxPaths).paths| >= 1
  {
    AdjArcsOk(net);
    FastestOverFinds(net.routes, Names(net.stations), origin, dest, maxPaths);
  }
}

=== FILE: seqs.dfy ===
/** Small, general facts about sequences used by the network and the query. */
module Seqs {

  function Last<T>(s: seq<T>): T
    requires |s| > 0
  {
    s[|s| - 1]
  }

  /** `s` read back to front. */
  function Reverse<T>(s: seq<T>): (r: seq<T>)
    ensures |r| == |s|
    ensures forall i :: 0 <= i < |s| ==> r[i] == s[|s| - 1 - i]
  {
    if s == [] then [] else Reverse(s[1..]) + [s[0]]
  }

  /** The elements of `s` that satisfy `keep`, in their original order. */
  function Filter<T(!new)>(s: seq<T>, keep: T -> bool): (r: seq<T>)
    ensures |r| <= |s|
    ensures forall x :: x in r <==> x in s && keep(x)
  {
    if s == [] then [] else (if keep(s[0]) then [s[0]] else []) + Filter(s[1..], keep)
  }

  /** Filtering distributes over concatenation, so the survivors keep their relative order. */
  lemma {:induction false} FilterConcat<T(!new)>(a: seq<T>, b: seq<T>, keep: T -> bool)
    ensures Filter(a + b, keep) == Filter(a, keep) + Filter(b, keep)
  {
    if a == [] {
      assert a + b == b;
    } else {
      assert (a + b)[1..] == a[1..] + b;
      FilterConcat(a[1..], b, keep);
    }
  }

  /** `f` applied to the elements of `s` that pass `keep`, in order. */
  function MapKept<T, U>(s: seq<T>, keep: T -> bool, f: T -> U): seq<U>
  {
    if s == [] then [] else (if keep(s[0]) then [f(s[0])] else []) + MapKept(s[1..], keep, f)
  }

  lemma {:induction false} MapKeptConcat<T, U>(a: seq<T>, b: seq<T>, keep: T -> bool, f: T -> U)
    ensures MapKept(a + b, keep, f) == MapKept(a, keep, f) + MapKept(b, keep, f)
  {
    if a == [] {
      assert a + b == b;
    } else {
      var h := if keep(a[0]) then [f(a[0])] else [];
      assert (a + b)[0] == a[0] && (a + b)[1..] == a[1..] + b;
      MapKeptConcat(a[1..], b, keep, f);
      assert MapKept(a + b, keep, f) == h + (MapKept(a[1..], keep, f) + MapKept(b, keep, f));
    }
  }

  /** Filtering keeps a sequence whose elements all pass unchanged. */
  lemma {:induction false} FilterKeepsAll<T(!new)>(s: seq<T>, keep: T -> bool)
    requires forall x :: x in s ==> keep(x)
    ensures Filter(s, keep) == s
  {
    if s != [] {
      FilterKeepsAll(s[1..], keep);
    }
  }

  /** No element occurs twice. */
  predicate Distinct<T(==)>(s: seq<T>)
  {
    forall i, j :: 0 <= i < j < |s| ==> s[i] != s[j]
  }

  /** Two sequences without repeats and without a common element concatenate to one without repeats. */
  lemma DistinctConcat<T>(a: seq<T>, b: seq<T>)
    requires Distinct(a) && Distinct(b) && forall x :: x in a ==> x !in b
    ensures Distinct(a + b)
  {
    forall i, j | 0 <= i < j < |a + b| ensures (a + b)[i] != (a + b)[j] {
      if i < |a| && j >= |a| {
        assert (a + b)[i] == a[i] && (a + b)[j] == b[j - |a|];
        assert a[i] in a && b[j - |a|] in b;
      } else if i >= |a| {
        assert (a + b)[i] == b[i - |a|] && (a + b)[j] == b[j - |a|];
      } else {
        assert (a + b)[i] == a[i] && (a + b)[j] == a[j];
      }
    }
  }

  /** A sequence without repeats whose elements all occur in `b` is no longer than `b`. */
  lemma {:induction false} DistinctWithin<T>(a: seq<T>, b: seq<T>)
    requires Distinct(a) && forall x :: x in a ==> x in b
    ensures |a| <= |b|
    decreases |a|
  {
    if a != [] {
      assert a[0] in a;
      var k :| 0 <= k < |b| && b[k] == a[0];
      var rest := b[..k] + b[k + 1..];
      forall y | y in a[1..] ensures y in rest {
        var j :| 0 <= j < |a[1..]| && a[1..][j] == y;
        assert a[j + 1] == y && y in a;
        var m :| 0 <= m < |b| && b[m] == y;
        if m < k {
          assert rest[m] == y;
        } else {
          assert rest[m - 1] == y;
        }
      }
      assert Distinct(a[1..]) by {
        forall i, j | 0 <= i < j < |a[1..]| ensures a[1..][i] != a[1..][j] {
          assert a[1..][i] == a[i + 1] && a[1..][j] == a[j + 1];
        }
      }
      DistinctWithin(a[1..], rest);
    }
  }
}

=== FILE: serialization.dfy ===
/**
 Conversion between a network and its plain node/edge record form
 (`a_dict` and `from_dict`): nodes carry a station's id and name, edges a
 route's endpoint names and weight. Importing rebuilds the network through
 `AddRoute`, and an edge that names an unknown station is reported as an
 error.
 */
module Serialization {
  import opened Outcomes
  import opened Seqs
  import opened Stations
  import opened Networks
  import opened NetworkInvariant

  datatype NodeRecord = NodeRecord(id: int, name: string)
  datatype EdgeRecord = EdgeRecord(from: string, to: string, weight: int)
  datatype NetworkData = NetworkData(nodes: seq<NodeRecord>, edges: seq<EdgeRecord>)

  /** An edge record refers to a station name that no node record declares. */
  datatype ImportError = UnknownStation(name: string)

  /** The record form of a network: stations in order, then routes in order. */
  function Export(net: Network): NetworkData
  {
    NetworkData(
      seq(|net.stations|, i requires 0 <= i < |net.stations| => NodeRecord(net.stations[i].id, net.stations[i].name)),
      seq(|net.routes|, i requires 0 <= i < |net.routes| => EdgeRecord(net.routes[i].a, net.routes[i].b, net.routes[i].w)))
  }

  /** One fresh, unconnected station of the default kind per node record. */
  function StationsOf(nodes: seq<NodeRecord>): seq<Station>
  {
    seq(|nodes|, i requires 0 <= i < |nodes| => NewStation(nodes[i].id, nodes[i].name))
  }

  /**
   Adds the edges in order through `AddRoute`. The first edge whose `from`
   (checked first) or `to` name is not a station stops the import with that
   name; otherwise every edge was known and the stations are unchanged
   apart from their adjacency lists.
   */
  function AddEdges(net: Network, edges: seq<EdgeRecord>): (r: Result<Network, ImportError>)
    ensures r.Success? <==>
      forall e :: e in edges ==> e.from in Names(net.stations) && e.to in Names(net.stations)
    ensures r.Failure? ==>
      && r.error.name !in Names(net.stations)
      && exists e :: e in edges && (e.from == r.error.name || e.to == r.error.name)
    ensures r.Success? ==> Export(r.value).nodes == Export(net).nodes && net.routes <= r.value.routes
    ensures r.Success? ==> forall e :: e in edges ==> HasRoute(r.value.routes, e.from, e.to)
    ensures r.Success? ==> forall rt :: rt in r.value.routes[|net.routes|..] ==> RecordOf(rt) in edges
    decreases |edges|
  {
    if edges == [] then Success(net)
    else
      var e := edges[0];
      assert e in edges;
      if e.from !in Names(net.stations) then Failure(UnknownStation(e.from))
      else if e.to !in Names(net.stations) then Failure(UnknownStation(e.to))
      else
        var next := AddRoute(net, e.from, e.to, e.weight);
        AddRouteKeepsNodes(net, e.from, e.to, e.weight);
        var r := AddEdges(next, edges[1..]);
        assert forall x :: x in edges ==> x == e || x in edges[1..];
        if r.Success? then ReplayStep(net.routes, next.routes, r.value.routes, edges); r else r
  }

  /** Adding a route leaves the node records as they were. */
  lemma AddRouteKeepsNodes(net: Network, a: string, b: string, w: int)
    ensures Export(AddRoute(net, a, b, w)).nodes == Export(net).nodes
  {
  }

  /** The edge record a route exports to. */
  function RecordOf(rt: Route): EdgeRecord
  {
    EdgeRecord(rt.a, rt.b, rt.w)
  }

  /**
   One `AddRoute` of the first edge, then the rest of the edges: the
   routes at the end join every edge's pair, and every route added over
   the whole replay comes from one of the edges.
   */
  lemma ReplayStep(old0: seq<Route>, mid: seq<Route>, fin: seq<Route>, edges: seq<EdgeRecord>)
    requires edges != [] && old0 <= mid <= fin && |mid| <= |old0| + 1 && HasRoute(mid, edges[0].from, edges[0].to)
    requires HasRoute(old0, edges[0].from, edges[0].to) ==> mid == old0
    requires !HasRoute(old0, edges[0].from, edges[0].to) ==> Last(mid) == Route(edges[0].from, edges[0].to, edges[0].weight)
    requires forall e :: e in edges[1..] ==> HasRoute(fin, e.from, e.to)
    requires forall rt :: rt in fin[|mid|..] ==> RecordOf(rt) in edges[1..]
    ensures forall e :: e in edges ==> HasRoute(fin, e.from, e.to)
    ensures forall rt :: rt in fin[|old0|..] ==> RecordOf(rt) in edges
  {
    HasRouteGrows(mid, fin, edges[0].from, edges[0].to);
    assert forall x :: x in edges ==> x == edges[0] || x in edges[1..];
    NewRoutesRecorded(old0, mid, fin, edges);
  }

  /** A pair joined by a list of routes stays joined when routes are appended. */
  lemma HasRouteGrows(a: seq<Route>, b: seq<Route>, x: string, y: string)
    requires a <= b && HasRoute(a, x, y)
    ensures HasRoute(b, x, y)
  {
    var rt :| rt in a && Joins(rt, x, y);
    assert rt in b;
  }

  /**
   One `AddRoute` of the first edge, then the rest of the edges: every
   route added over the whole replay comes from one of the edges.
   */
  lemma NewRoutesRecorded(old0: seq<Route>, mid: seq<Route>, fin: seq<Route>, edges: seq<EdgeRecord>)
    requires edges != [] && old0 <= mid <= fin && |mid| <= |old0| + 1
    requires |mid| > |old0| ==> RecordOf(Last(mid)) == edges[0]
    requires forall rt :: rt in fin[|mid|..] ==> RecordOf(rt) in edges[1..]
    ensures forall rt :: rt in fin[|old0|..] ==> RecordOf(rt) in edges
  {
    forall rt | rt in fin[|old0|..] ensures RecordOf(rt) in edges {
      var i :| 0 <= i < |fin[|old0|..]| && fin[|old0|..][i] == rt;
      if |old0| + i < |mid| {
        assert rt == Last(mid);
        assert edges[0] in edges;
      } else {
        assert rt == fin[|mid|..][|old0| + i - |mid|];
        var k :| 0 <= k < |edges[1..]| && edges[1..][k] == RecordOf(rt);
        assert edges[k + 1] == RecordOf(rt);
      }
    }
  }

  /**
   Rebuilds a network from records (`from_dict`), replacing whatever was
   there: the stations come back with the recorded ids and names, and an
   edge naming an undeclared station is an error naming that station.
   */
  function Import(d: NetworkData): (r: Result<Network, ImportError>)
    ensures r.Success? <==>
      forall e :: e in d.edges ==> e.from in Names(StationsOf(d.nodes)) && e.to in Names(StationsOf(d.nodes))
    ensures r.Failure? ==>
      && r.error.name !in Names(StationsOf(d.nodes))
      && exists e :: e in d.edges && (e.from == r.error.name || e.to == r.error.name)
    ensures r.Success? ==> Export(r.value).nodes == d.nodes && |r.value.routes| <= |d.edges|
    ensures r.Success? ==> forall e :: e in d.edges ==> HasRoute(r.value.routes, e.from, e.to)
    ensures r.Success? ==> forall rt :: rt in r.value.routes ==> RecordOf(rt) in d.edges
  {
    var base := Network(StationsOf(d.nodes), []);
    assert Export(base).nodes == d.nodes;
    AddedAtMostOnePerEdge(base, d.edges);
    AddEdges(base, d.edges)
  }

  lemma {:induction false} AddedAtMostOnePerEdge(net: Network, edges: seq<EdgeRecord>)
    ensures AddEdges(net, edges).Success? ==> |AddEdges(net, edges).value.routes| <= |net.routes| + |edges|
    decreases |edges|
  {
    if edges != [] {
      var e := edges[0];
      if e.from in Names(net.stations) && e.to in Names(net.stations) {
        AddedAtMostOnePerEdge(AddRoute(net, e.from, e.to, e.weight), edges[1..]);
      }
    }
  }

  /** A valid network never repeats an unordered pair, so no route is joined by an earlier one. */
  lemma NoEarlierRoute(routes: seq<Route>, k: int)
    requires RoutesUnique(routes) && 0 <= k < |routes|
    ensures !HasRoute(routes[..k], routes[k].a, routes[k].b)
  {
  }

  /** The record of route `k` unfolds `AddEdges` by one `AddRoute` of that route. */
  lemma ReplayUnfold(net: Network, cur: Network, k: int)
    requires RoutesWellFormed(net) && 0 <= k < |net.routes|
    requires Names(cur.stations) == Names(net.stations)
    ensures AddEdges(cur, Export(net).edges[k..])
         == AddEdges(AddRoute(cur, net.routes[k].a, net.routes[k].b, net.routes[k].w), Export(net).edges[k + 1..])
  {
    var rt := net.routes[k];
    var edges := Export(net).edges[k..];
    assert rt in net.routes;
    assert edges[0] == EdgeRecord(rt.a, rt.b, rt.w);
    assert edges[1..] == Export(net).edges[k + 1..];
  }

  /** Re-adding route `k` after the routes before it appends exactly that route. */
  lemma ReplayAppends(net: Network, cur: Network, k: int)
    requires RoutesUnique(net.routes) && 0 <= k < |net.routes| && cur.routes == net.routes[..k]
    ensures AddRoute(cur, net.routes[k].a, net.routes[k].b, net.routes[k].w).routes == net.routes[..k + 1]
  {
    var rt := net.routes[k];
    NoEarlierRoute(net.routes, k);
    assert AddRoute(cur, rt.a, rt.b, rt.w).routes == cur.routes + [Route(rt.a, rt.b, rt.w)];
    assert net.routes[..k + 1] == net.routes[..k] + [rt];
  }

  /** One replay step keeps the rebuilt network valid. */
  lemma ReplayValid(net: Network, cur: Network, k: int)
    requires RoutesWellFormed(net) && Valid(cur) && 0 <= k < |net.routes|
    requires Names(cur.stations) == Names(net.stations)
    ensures Valid(AddRoute(cur, net.routes[k].a, net.routes[k].b, net.routes[k].w))
  {
    var rt := net.routes[k];
    assert rt in net.routes;
    AddRouteValid(cur, rt.a, rt.b, rt.w);
  }

  /** Replaying the remaining edges of a valid network rebuilds exactly its routes. */
  lemma {:induction false} ReplayEdges(net: Network, cur: Network, k: int)
    requires Valid(net) && Valid(cur) && 0 <= k <= |net.routes|
    requires cur.routes == net.routes[..k] && Names(cur.stations) == Names(net.stations)
    ensures AddEdges(cur, Export(net).edges[k..]).Success?
    ensures AddEdges(cur, Export(net).edges[k..]).value.routes == net.routes
    ensures Valid(AddEdges(cur, Export(net).edges[k..]).value)
    decreases |net.routes| - k
  {
    if k == |net.routes| {
      assert Export(net).edges[k..] == [];
      assert net.routes[..k] == net.routes;
    } else {
      ReplayUnfold(net, cur, k);
      ReplayAppends(net, cur, k);
      ReplayValid(net, cur, k);
      ReplayEdges(net, AddRoute(cur, net.routes[k].a, net.routes[k].b, net.routes[k].w), k + 1);
    }
  }

  /**
   Export, import, export gives back the same records: the same node
   ids and names in order and the same edges in order, and the rebuilt
   network satisfies the invariant. (Station kinds are not recorded, so
   the rebuilt stations all have the default kind.)
   */
  lemma ExportImportRoundTrip(net: Network)
    requires Valid(net)
    ensures Import(Export(net)).Success?
    ensures Export(Import(Export(net)).value) == Export(net)
    ensures Valid(Import(Export(net)).value)
  {
    var d := Export(net);
    var base := Network(StationsOf(d.nodes), []);
    assert Names(base.stations) == Names(net.stations);
    UniqueNamesSameNames(net.stations, base.stations);
    assert Valid(base);
    assert d.edges[0..] == d.edges;
    ReplayEdges(net, base, 0);
    var r := Import(d).value;
    assert r.routes == net.routes;
    assert Export(r).edges == d.edges;
  }

  // ---------------------------------------------------------------------
  // What import checks and what it does not
  // ---------------------------------------------------------------------

  /** An edge the editor's own form would accept: two different stations and a positive time. */
  predicate EdgeWellFormed(e: EdgeRecord)
  {
    e.from != e.to && e.weight > 0
  }

  /** Node records that declare every station name once. */
  predicate NodeNamesUnique(nodes: seq<NodeRecord>)
  {
    forall i, j :: 0 <= i < j < |nodes| ==> nodes[i].name != nodes[j].name
  }

  /** Adding well-formed edges to a valid network keeps it valid. */
  lemma {:induction false} AddEdgesValid(net: Network, edges: seq<EdgeRecord>)
    requires Valid(net) && forall e :: e in edges ==> EdgeWellFormed(e)
    ensures AddEdges(net, edges).Success? ==> Valid(AddEdges(net, edges).value)
    decreases |edges|
  {
    if edges != [] {
      var e := edges[0];
      assert e in edges;
      assert forall x :: x in edges[1..] ==> x in edges;
      if e.from in Names(net.stations) && e.to in Names(net.stations) {
        AddRouteValid(net, e.from, e.to, e.weight);
        AddEdgesValid(AddRoute(net, e.from, e.to, e.weight), edges[1..]);
      }
    }
  }

  /**
   Records with unique node names and well-formed edges import to a valid
   network. Import itself checks neither condition.
   */
  lemma ImportValid(d: NetworkData)
    requires NodeNamesUnique(d.nodes) && forall e :: e in d.edges ==> EdgeWellFormed(e)
    ensures Import(d).Success? ==> Valid(Import(d).value)
  {
    var base := Network(StationsOf(d.nodes), []);
    assert UniqueNames(base.stations) by {
      forall i, j | 0 <= i < j < |base.stations| ensures base.stations[i].name != base.stations[j].name {
        assert base.stations[i].name == d.nodes[i].name && base.stations[j].name == d.nodes[j].name;
      }
    }
    assert Valid(base);
    AddEdgesValid(base, d.edges);
  }

  /**
   Import accepts an edge from a station to itself with time 0, and the
   network it builds breaks the invariant the editor keeps.
   */
  lemma ImportAcceptsUncheckedEdge()
    ensures var r := Import(NetworkData([NodeRecord(1, "A")], [EdgeRecord("A", "A", 0)]));
      r.Success? && !Valid(r.value)
  {
    var d := NetworkData([NodeRecord(1, "A")], [EdgeRecord("A", "A", 0)]);
    var base := Network(StationsOf(d.nodes), []);
    assert Names(base.stations) == ["A"];
    var r := Import(d);
    assert r.Success?;
    assert Route("A", "A", 0) in r.value.routes;
  }
}

=== FILE: stations.dfy ===
/**
 A transport station and its adjacency list (the source's `Estacion`).

 The source keeps references to neighbouring station objects; here a
 neighbour is named by its station name, which the network keeps unique.
 */
module Stations {
  import opened Outcomes
  import opened Seqs

  /** One adjacency entry: the neighbour's name and the travel time to it. */
  datatype Conn = Conn(to: string, weight: int)

  /** A station: its id, its name (the key routes and queries use), its
      informational kind tag and its adjacency list. */
  datatype Station = Station(id: int, name: string, kind: string, conns: seq<Conn>)

  /** The kind a station gets when none is given. */
  const DefaultKind: string := "tren"

  /** A station with no connections yet. */
  function NewStation(id: int, name: string): Station
  {
    Station(id, name, DefaultKind, [])
  }

  /** True when `conns` has an entry for the neighbour `e`. */
  predicate Lists(conns: seq<Conn>, e: string)
  {
    exists c :: c in conns && c.to == e
  }

  /** No neighbour appears twice in `conns`. */
  predicate NeighboursUnique(conns: seq<Conn>)
  {
    conns == [] || (!Lists(conns[1..], conns[0].to) && NeighboursUnique(conns[1..]))
  }

  /** The weight recorded for the neighbour `e`: the first entry for it, if any. */
  function WeightTo(conns: seq<Conn>, e: string): (r: Option<int>)
    ensures r.None? <==> !Lists(conns, e)
    ensures r.Some? ==> Conn(e, r.value) in conns
  {
    if conns == [] then None
    else if conns[0].to == e then Some(conns[0].weight)
    else WeightTo(conns[1..], e)
  }

  lemma ListsCons(conns: seq<Conn>, e: string)
    requires conns != []
    ensures Lists(conns, e) <==> conns[0].to == e || Lists(conns[1..], e)
  {
    assert conns[0] in conns;
    if Lists(conns, e) && conns[0].to != e {
      var c :| c in conns && c.to == e;
      assert c in conns[1..];
    }
    if Lists(conns[1..], e) {
      var c :| c in conns[1..] && c.to == e;
      assert c in conns;
    }
  }

  lemma {:induction false} WeightToConcat(a: seq<Conn>, b: seq<Conn>, e: string)
    ensures WeightTo(a + b, e) == if Lists(a, e) then WeightTo(a, e) else WeightTo(b, e)
  {
    if a == [] {
      assert a + b == b;
    } else {
      assert (a + b)[1..] == a[1..] + b;
      assert (a + b)[0] == a[0];
      WeightToConcat(a[1..], b, e);
      ListsCons(a, e);
      if a[0].to != e {
        assert WeightTo(a + b, e) == WeightTo(a[1..] + b, e);
        assert WeightTo(a, e) == WeightTo(a[1..], e);
      }
    }
  }

  lemma {:induction false} NeighboursUniqueAppend(conns: seq<Conn>, c: Conn)
    requires NeighboursUnique(conns) && !Lists(conns, c.to)
    ensures NeighboursUnique(conns + [c])
  {
    if conns == [] {
      assert [] + [c] == [c];
    } else {
      assert (conns + [c])[1..] == conns[1..] + [c];
      ListsCons(conns, c.to);
      NeighboursUniqueAppend(conns[1..], c);
      assert !Lists(conns[1..] + [c], conns[0].to);
    }
  }

  lemma {:induction false} NeighboursUniqueFilter(conns: seq<Conn>, keep: Conn -> bool)
    requires NeighboursUnique(conns)
    ensures NeighboursUnique(Filter(conns, keep))
  {
    if conns != [] {
      NeighboursUniqueFilter(conns[1..], keep);
      var rest := Filter(conns[1..], keep);
      assert Filter(conns, keep) == (if keep(conns[0]) then [conns[0]] else []) + rest;
      if keep(conns[0]) {
        var f := Filter(conns, keep);
        assert f[0] == conns[0] && f[1..] == rest;
        assert NeighboursUnique(f);
      } else {
        assert Filter(conns, keep) == rest;
      }
    }
  }

  /**
   Records a connection to `e` unless one is already listed (`agregar_conexion`):
   the list never gains a second entry for the same neighbour, an existing
   weight is kept, and every other neighbour's entry is untouched.
   */
  function AddConnection(s: Station, e: string, w: int): (r: Station)
    ensures r.id == s.id && r.name == s.name && r.kind == s.kind
    ensures Lists(s.conns, e) ==> r == s
    ensures s.conns <= r.conns && |r.conns| <= |s.conns| + 1
    ensures forall c :: c in r.conns <==> c in s.conns || (c == Conn(e, w) && !Lists(s.conns, e))
    ensures WeightTo(r.conns, e) == if Lists(s.conns, e) then WeightTo(s.conns, e) else Some(w)
    ensures forall x :: x != e ==> WeightTo(r.conns, x) == WeightTo(s.conns, x)
    ensures NeighboursUnique(s.conns) ==> NeighboursUnique(r.conns)
  {
    if Lists(s.conns, e) then s
    else
      var r := s.(conns := s.conns + [Conn(e, w)]);
      assert forall x :: WeightTo(r.conns, x) == if Lists(s.conns, x) then WeightTo(s.conns, x) else WeightTo([Conn(e, w)], x) by {
        forall x { WeightToConcat(s.conns, [Conn(e, w)], x); }
      }
      if NeighboursUnique(s.conns) then NeighboursUniqueAppend(s.conns, Conn(e, w)); r else r
  }

  /**
   Drops every entry for `e` (`eliminar_conexion`): afterwards `e` is not
   listed, every other entry survives, and a station that did not list `e`
   is returned unchanged.
   */
  function RemoveConnection(s: Station, e: string): (r: Station)
    ensures r.id == s.id && r.name == s.name && r.kind == s.kind
    ensures !Lists(r.conns, e)
    ensures forall c :: c in r.conns <==> c in s.conns && c.to != e
    ensures !Lists(s.conns, e) ==> r == s
    ensures NeighboursUnique(s.conns) ==> NeighboursUnique(r.conns)
  {
    var keep := (c: Conn) => c.to != e;
    if !Lists(s.conns, e) then FilterKeepsAll(s.conns, keep); s.(conns := Filter(s.conns, keep))
    else if NeighboursUnique(s.conns) then NeighboursUniqueFilter(s.conns, keep); s.(conns := Filter(s.conns, keep))
    else s.(conns := Filter(s.conns, keep))
  }

  /** Removing a connection keeps the recorded weight of every other neighbour. */
  lemma {:induction false} RemoveConnectionKeepsOthers(s: Station, e: string, x: string)
    requires x != e
    ensures WeightTo(RemoveConnection(s, e).conns, x) == WeightTo(s.conns, x)
  {
    var keep := (c: Conn) => c.to != e;
    assert RemoveConnection(s, e).conns == Filter(s.conns, keep);
    FilteredWeightTo(s.conns, e, x);
  }

  lemma {:induction false} FilteredWeightTo(conns: seq<Conn>, e: string, x: string)
    requires x != e
    ensures WeightTo(Filter(conns, (c: Conn) => c.to != e), x) == WeightTo(conns, x)
  {
    var keep := (c: Conn) => c.to != e;
    if conns != [] {
      FilteredWeightTo(conns[1..], e, x);
      var head := if keep(conns[0]) then [conns[0]] else [];
      assert Filter(conns, keep) == head + Filter(conns[1..], keep);
      WeightToConcat(head, Filter(conns[1..], keep), x);
    }
  }

  /**
   Removal acts on each part of a split of the connection list on its
   own, so the surviving entries keep their original order.
   */
  lemma RemoveConnectionConcat(s: Station, e: string, a: seq<Conn>, b: seq<Conn>)
    requires s.conns == a + b
    ensures RemoveConnection(s, e).conns == RemoveConnection(s.(conns := a), e).conns + RemoveConnection(s.(conns := b), e).conns
  {
    var keep := (c: Conn) => c.to != e;
    assert RemoveConnection(s, e).conns == Filter(a + b, keep);
    assert RemoveConnection(s.(conns := a), e).conns == Filter(a, keep);
    assert RemoveConnection(s.(conns := b), e).conns == Filter(b, keep);
    FilterConcat(a, b, keep);
  }

  /** Removing a connection that was just added restores the station. */
  lemma RemoveUndoesAdd(s: Station, e: string, w: int)
    requires !Lists(s.conns, e)
    ensures RemoveConnection(AddConnection(s, e, w), e) == s
  {
    var keep := (c: Conn) => c.to != e;
    var added := AddConnection(s, e, w);
    assert added.conns == s.conns + [Conn(e, w)];
    FilterConcat(s.conns, [Conn(e, w)], keep);
    FilterKeepsAll(s.conns, keep);
    assert Filter([Conn(e, w)], keep) == [];
    assert RemoveConnection(added, e).conns == Filter(added.conns, keep);
  }
}
